=== FILE: README.md ===
# simple-pytdx decoding core in Dafny

This project models the decoding core of simple-pytdx. simple-pytdx is a Python
client for the TDX securities-quotation protocol. The client sends fixed request
packets over a socket. Each response starts with a 16-byte header that gives
the size of the body on the wire and its size once inflated. The body, inflated
when needed, is wrapped in a `BinaryReader`, and one decoder per request type
turns it into records: the security list, real-time quotes, K-line bars,
intraday minutes, tick-by-tick trades, ex-rights events, the company file index
and content, and the finance snapshot. Three more readers decode the local
day and minute bar files in the same way.

The model follows that structure:

- `ByteOrder` (byte_order.dfy): little- and big-endian words, and two's complement.
- `BinaryReader` (binary_reader.dfy): the reader as an immutable value
  `Reader(data, pos, bigEndian)`. Every read returns a `Step` holding the value
  and the reader after it. Scalars are read through the source's inverted
  endianness flag. This module also holds the vint, `cstr`, `rpad_str`, `read`,
  `skip`, the `pos` setter and `eof`.
- `VarInt` (var_int.dfy): the vint layout written forwards, with its round trip and magnitude bound.
- `Wire` (wire.dfy): encoders for the scalar fields, runs of vints and floats, and the record count.
- `Dates` (dates.dfy): `_get_datetime` and `_get_time`. Python's `datetime` validity check is `ValidDateTime`.
- `Markets`, `Prices` (markets.dfy, prices.dfy): `Api.Market`, `_calc_price`, `_calc_price1k`.
- `Stocks`, `Quotes`, `KLine`, `Ticks`, `CompanyInfo`, `Xdxr`, `Finance`: the response decoders of `Api`.
- `BarFiles` (bar_files.dfy): `read_day_file`, `read_minute_file`, `read_minute_lc_file`.
- `Framing` (framing.dfy): the header unpack and the inflate decision of `_req`.

Every decoder returns a `Result`. The error kinds follow the Python exceptions
the source lets escape:
- `StructError`: `struct.unpack` on too few bytes.
- `ValueError`: from `datetime`, the enums, `_format_time` or a negative seek.
- `IndexError`: `cstr` running past the end.
- `DecompressError`: `zlib`.

One exception is not modelled: the `OverflowError` of a price division on a huge price (see Left out).

Each decoder has a partner:
- an encoder, written in the layout the decoder reads, with a round-trip lemma;
- or an independent description of the result, such as `DescribesMinutes`,
  `Labels` or `Started`, with a lemma linking the two.

Some behaviours of the code are easy to miss, and the model keeps them:
- `read(n)` and `rpad_str(n)` never fail on a short buffer. They return what
  is left.
- The default reader flag `True` selects little-endian (`'><'[True]` is `'<'`),
  although the flag is called `big_endian`.
- The K-line decoder goes back to the equity shape only on a `ValueError`, so a
  short read in the index attempt escapes as `struct.error` (see Findings).
- `_req` does not compare the inflated length with the header
  (`Framing.InflatedSizeUnchecked`).
- An unknown ex-rights category byte is a `ValueError` (`Xdxr.CategoryOf`). The
  catch-all labelling in `get_xdxr_info` covers only the known categories
  outside the three named groups.

## Model

| member | source | states |
|---|---|---|
| BinaryReader.Open | binary_reader.py:24-28 | a reader is opened at position 0 with the default flag |
| BinaryReader.Read | binary_reader.py:30-31 | `read(size)` returns the bytes at the cursor: `size` of them, or all that are left when fewer remain or size is negative. The cursor moves by exactly that many bytes, and the read never fails |
| BinaryReader.Skip | binary_reader.py:45-46 | `skip` moves the cursor relative to where it is. It may pass the end, and a move before the start stops at 0. Data and flag are unchanged |
| BinaryReader.Seek | binary_reader.py:41-43 | the `pos` setter succeeds exactly for non-negative targets and puts the cursor there; a negative target is a ValueError |
| BinaryReader.Len | binary_reader.py:104-105 | `len(reader)` is the size of the whole buffer, as many bytes as a freshly opened reader has left, never fewer than the cursor has left |
| BinaryReader.Eof | binary_reader.py:33-35 | the reader is at eof exactly when no byte is left after the cursor |
| BinaryReader.ReadMovesLikeSkip | binary_reader.py:30-46 | reading n available bytes moves the cursor as skipping n does; the reader is at eof exactly when every read comes back empty |
| BinaryReader.SeekStartReopens | binary_reader.py:41-43 | seeking back to 0 gives the reader the transport created, which the K-line rollback relies on |
| BinaryReader.Decode | binary_reader.py:101 | the value of a field of `width` bytes is below 256^width |
| BinaryReader.DecodeIsStored | binary_reader.py:101 | the flag `True` reads the bytes as the value stored least significant byte first, `False` as stored most significant byte first |
| BinaryReader.ReadUnsigned | binary_reader.py:98-101 | an unsigned field of `width` bytes succeeds exactly when `width` bytes remain, consumes exactly `width` bytes and is below 256^width; a short buffer is a struct.error |
| BinaryReader.DefaultFlagReadsLittleEndian | binary_reader.py:101 | with the default flag `True`, a value stored least significant byte first reads back |
| BinaryReader.FalseFlagReadsBigEndian | binary_reader.py:101 | with the flag `False`, a value stored most significant byte first reads back |
| BinaryReader.DefaultFlagReadIsSlice | binary_reader.py:101 | with the default flag, a successful read is the little-endian value of the bytes at the cursor |
| BinaryReader.DefaultFlagReadIsStored | binary_reader.py:101 | with the default flag, the bytes at the cursor are the little-endian encoding of the value read |
| BinaryReader.U16ByteOrder | binary_reader.py:101 | the word `[a, b]` is `a + 256 b` with the default flag and `256 a + b` with `False` |
| BinaryReader.ReadScalar | binary_reader.py:11-22 | every format of the type table consumes its width (1, 2, 4 or 8 bytes) or fails with struct.error; unsigned kinds are below 256^width, signed kinds within two's-complement range, float kinds give a bit pattern; the values are pinned by the two round-trip lemmas below |
| BinaryReader.ScalarRoundTrip | binary_reader.py:98-101 | for every format and either flag, a word stored at the cursor in the flag's byte order reads back: as itself for unsigned and float kinds, through two's complement for signed kinds, consuming the format's width |
| BinaryReader.ScalarIsStored | binary_reader.py:98-101 | conversely, every successful read of any format is the word the bytes at the cursor store in the flag's byte order, read as that format |
| BinaryReader.SignedScalarRoundTrip | binary_reader.py:98-101 | a signed value of any width stored in two's complement reads back as itself |
| BinaryReader.ReadU8 | binary_reader.py:98-101 | `u8` is the byte under the cursor, one byte consumed, struct.error at the end |
| BinaryReader.ReadU16 | binary_reader.py:98-101 | `u16` succeeds exactly when 2 bytes remain, consumes 2 and is below 2^16 |
| BinaryReader.ReadU32 | binary_reader.py:98-101 | `u32` succeeds exactly when 4 bytes remain, consumes 4 and is below 2^32 |
| BinaryReader.ReadI16 | binary_reader.py:98-101 | `i16` succeeds exactly when 2 bytes remain and lies in [-32768, 32768) |
| BinaryReader.ReadF32 | binary_reader.py:98-101 | `f32` succeeds exactly when 4 bytes remain and yields a 32-bit pattern |
| BinaryReader.VIntTail | binary_reader.py:76-79 | the trailing loop succeeds exactly when a byte with bit 0x80 clear follows, and stops right after the first such byte |
| BinaryReader.ReadVInt | binary_reader.py:69-81 | `vint` succeeds exactly when the continuation chain is terminated inside the buffer and consumes exactly that chain. A one-byte vint is its 6 low bits, negated when bit 0x40 is set. The sign of the result is that bit |
| BinaryReader.ReadCStr | binary_reader.py:83-87 | `cstr` succeeds exactly when a zero byte lies ahead; it returns the zero-free bytes before it and consumes the zero; with none left it is an IndexError |
| BinaryReader.UntilZero | binary_reader.py:92-95 | the loop keeps the longest zero-free prefix of the window, stopping at the first zero |
| BinaryReader.ReadPadded | binary_reader.py:89-96 | `rpad_str(size)` consumes the whole window `read(size)` gives and returns its part before the first zero |
| BinaryReader.ReadPaddedRoundTrip | binary_reader.py:89-96 | a zero-free name padded with zeros to its field width reads back unchanged and the whole field is consumed |
| ByteOrder.LittleEndianInverse | binary_reader.py:101 | decoding the little-endian bytes of any value below 256^width gives the value back |
| ByteOrder.LeBytesInverse | binary_reader.py:101 | every byte string is the little-endian encoding of its own value |
| ByteOrder.BigEndianInverse | binary_reader.py:101 | decoding the big-endian bytes of any value below 256^width gives the value back |
| ByteOrder.ToSigned | binary_reader.py:16-19 | a signed field is in two's-complement range, is negative exactly when its top bit is set, and differs from the unsigned word by 0 or 256^width |
| ByteOrder.SignedRoundTrip | binary_reader.py:16-19 | every value in two's-complement range survives conversion to an unsigned word and back |
| VarInt.TailIsGroupValue | binary_reader.py:76-79 | the trailing bytes contribute 2^shift times the Horner value of their 7-bit groups |
| VarInt.VIntMagnitude | binary_reader.py:70-81 | the magnitude of a vint is its first byte's 6 bits plus 64 times the trailing groups, and is below 2^(6+7k) for k trailing bytes |
| VarInt.VIntRoundTrip | binary_reader.py:53-68 | every integer written in the documented layout reads back at any position and consumes exactly its encoding |
| VarInt.NegativeZeroIsZero | binary_reader.py:72-81 | the single byte 0x40 (sign set, no magnitude) decodes to 0 |
| Wire.ReadCount | api.py:134-135 | a count at a given offset succeeds exactly when 2 bytes are there and is their little-endian value |
| Wire.CountRoundTrip | api.py:134-135 | a count written after a lead reads back, and the reader stops right before what follows it |
| Wire.LeadingCountRoundTrip | api.py:110 | a count at the start of a response reads back, and the reader stops right before the records |
| Wire.U16RoundTrip | binary_reader.py:101 | a 16-bit field written little-endian reads back and consumes 2 bytes |
| Wire.U32RoundTrip | binary_reader.py:101 | a 32-bit field written little-endian reads back and consumes 4 bytes |
| Wire.I16RoundTrip | binary_reader.py:101 | a signed 16-bit field written in two's complement reads back |
| Wire.F32RoundTrip | binary_reader.py:101 | a 32-bit float pattern written little-endian reads back |
| Wire.ReadVInts | api.py:140-158 | n vints read one after the other: n values, and the first short one is the struct.error |
| Wire.VIntsRoundTrip | api.py:140-158 | a run of encoded vints reads back and consumes exactly its encoding |
| Wire.ReadF32s | api.py:418-450 | n floats in a row succeed exactly when 4n bytes remain |
| Wire.F32sRoundTrip | api.py:418-450 | a run of float patterns reads back and consumes 4n bytes |
| Dates.UsesMinuteStamp | api.py:498-499 | the zipday/minutes layout is used exactly for K5, K15, K30, K60, PerMinute and K1 |
| Dates.ValidDateTime | api.py:502-512 | what `datetime` accepts has days 1-31, hours 0-23 and minutes 0-59; February has at most 29 days and a 29th only in a Gregorian leap year; April, June, September and November have at most 30 |
| Dates.MakeDateTime | api.py:502-506 | the `datetime` constructor succeeds exactly for valid calendar values and is a ValueError otherwise |
| Dates.MakeTime | api.py:24 | the `time` constructor succeeds exactly for hours 0-23 and minutes 0-59 |
| Dates.GetTime | api.py:22-24 | `_get_time` reads one word and yields a valid time of day. It is a struct.error exactly when 2 bytes are missing, and otherwise a ValueError for minute counts past the day |
| Dates.GetDateTime | api.py:497-512 | `_get_datetime` consumes 4 bytes and yields a valid datetime. It is a struct.error exactly when 4 bytes are missing. Minute layouts give years 2004-2035. Decimal layouts give 15:00 |
| Dates.DateTimeRoundTrip | api.py:497-512 | every timestamp the category's layout can carry decodes back from its four bytes |
| Dates.DateTimeDecodeIsEncoding | api.py:497-512 | four bytes that decode are exactly the encoding of what they decode to (the layout is a bijection onto encodable timestamps) |
| Dates.MinuteStampRoundTrip | api.py:500-506 | the zipday/minutes layout round-trips |
| Dates.DecimalStampRoundTrip | api.py:508-512 | the YYYYMMDD layout round-trips |
| Dates.MinuteStampFields | api.py:500-506 | a decoded minute stamp is year `zipday>>11 + 2004`, month and day from `zipday % 2048`, hour and minute from the minute word |
| Dates.DecimalStampFields | api.py:508-512 | a decoded decimal stamp is `z // 10000`, `(z % 10000) // 100`, `z % 100` at 15:00 |
| Dates.TimeRoundTrip | api.py:22-24 | every valid time of day written as minutes since midnight reads back |
| Dates.TimeDecodeIsEncoding | api.py:22-24 | a word that decodes as a time is the encoding of that time |
| Dates.ZipDayExample | api.py:500-506 | bytes 3B A1 3A 02 under K5 decode to 2024-03-15 09:30 |
| Markets.MarketOf | api.py:46-48 | `Market(b)` succeeds exactly for 0 and 1 and gives the member with that value; anything else is a ValueError |
| Markets.ReadMarket | api.py:363 | `Market(reader.u8)` is a struct.error exactly at the end, succeeds exactly for bytes 0 and 1, and consumes one byte |
| Markets.MarketRoundTrip | api.py:46-48 | every member converts back from its value |
| Prices.CalcPrice | api.py:27-28 | the price times 100 is `base + offset` |
| Prices.CalcPrice1k | api.py:31-32 | the price times 1000 is `base + offset` |
| Stocks.StripTrailingNuls | api.py:116 | `rstrip('\x00')` keeps the longest prefix that does not end in NUL, and everything removed is NUL |
| Stocks.StripPadding | api.py:116 | a name without a trailing NUL survives any NUL padding and its removal |
| Stocks.ReadSecurity | api.py:113-121 | a record succeeds exactly when 25 bytes remain, because only its u16, u8 and f32 can fail. It consumes 29 bytes, or all that is left |
| Stocks.DecodeSecurities | api.py:112-121 | `count` records decode exactly when the bytes left plus 4 cover 29 per record, and give `count` securities |
| Stocks.GetStocksCount | api.py:102-105 | `get_stocks_count` is the leading little-endian word, struct.error when shorter than 2 bytes |
| Stocks.GetStocksList | api.py:107-122 | `get_stocks_list` succeeds exactly when the payload plus 2 covers 29 bytes per declared record, and returns as many records as declared |
| Stocks.SecurityRoundTrip | api.py:113-121 | a record written in the 29-byte layout reads back |
| Stocks.SecuritiesRoundTrip | api.py:112-121 | a run of records reads back |
| Stocks.StocksListRoundTrip | api.py:107-122 | a count followed by its records decodes to those records |
| Quotes.Digits | api.py:13 | `str(n)` of a natural number is a non-empty run of decimal digits |
| Quotes.DigitsLength | api.py:13 | a natural number has more than k digits exactly when it reaches 10^k |
| Quotes.SliceShape | api.py:15 | the slice `[-6:-4]` is the two characters four from the end, one character for a 5-character text, empty for shorter ones |
| Quotes.SliceParsesRange | api.py:12-19 | the first slice `_format_time(t)` converts, `int(str(t)[-6:-4])`, parses exactly when t <= -10000 or t >= 10000 |
| Quotes.StrConvertsRange | api.py:12-19 | `str(t)` succeeds exactly below 10^4300 in magnitude, so `_format_time(t)` raises nothing exactly when the magnitude of t is at least 10000 and below 10^4300 |
| Quotes.ReadQuoteKey | api.py:139 | `unpack('<B6sH', read(9))` succeeds exactly when 9 bytes remain and consumes 9 |
| Quotes.ReadDaySummary | api.py:146-150 | after four price offsets, the server time that survives is one `_format_time` accepts: a number of 5 to 4300 digits; failures are struct.error or ValueError |
| Quotes.DaySummaryPrices | api.py:146-149 | the previous close, open, high and low the source reports, `_calc_price(price, offset)` of the offsets read, are the decoded fields as hundredths |
| Quotes.ReadTrading | api.py:151-158 | the volume block is three vints, an f32 and four vints: at least 11 bytes, struct.error when one is short |
| Quotes.ReadLevel | api.py:159-162 | one order-book level is four vints, struct.error when one is short |
| Quotes.LevelPrices | api.py:159-162 | the bid and ask the source reports, `_calc_price(price, offset)` of the offsets read, are the decoded fields as hundredths; the volumes are the next two vints |
| Quotes.ReadLevels | api.py:159-178 | the book yields exactly as many levels as asked for, struct.error when a vint is short |
| Quotes.ReadQuoteTail | api.py:179-185 | the fields after the book: two 16-bit words below 2^16, a signed growth rate in [-32768, 32768), at least 10 bytes |
| Quotes.ReadQuote | api.py:139-186 | a record yields a 6-byte code and a five-level order book, fails only with struct.error or ValueError, and consumes more than its 9-byte key |
| Quotes.DecodeQuotes | api.py:138-186 | `count` records decode to `count` quotes |
| Quotes.GetStockQuotes | api.py:133-187 | `get_stock_quotes` is a struct.error below 4 bytes and returns as many quotes as the count after the two skipped bytes |
| Quotes.ShortKeyFails | api.py:139 | fewer than 9 bytes for the key is a struct.error whatever follows |
| Quotes.UnknownMarketAfterPrice | api.py:139-142 | a bad market byte is a ValueError only once the price vint is complete; before that the record is a struct.error |
| Quotes.ShortServerTimeFails | api.py:150 | a server time from -9999 to 9999 fails the record with ValueError |
| Quotes.LongServerTimeFails | api.py:150 | a server time of 10^4300 or more in magnitude, too long for `str()`, fails the record with ValueError |
| Quotes.QuoteKeyRoundTrip | api.py:139 | the packed key reads back |
| Quotes.DaySummaryRoundTrip | api.py:145-150 | the four prices written as offsets from the current price, and the server time, read back |
| Quotes.TradingRoundTrip | api.py:151-158 | the volume block reads back |
| Quotes.LevelRoundTrip | api.py:159-162 | an order-book level written as offsets from the current price reads back |
| Quotes.LevelsRoundTrip | api.py:159-178 | the five levels read back |
| Quotes.QuoteTailRoundTrip | api.py:179-185 | the fields after the book, the signed growth rate among them, read back |
| Quotes.QuoteRoundTrip | api.py:139-186 | a whole record written in the layout reads back |
| Quotes.QuotesRoundTrip | api.py:138-186 | a run of records reads back |
| Quotes.GetStockQuotesRoundTrip | api.py:133-187 | a response of two bytes, a count and the records decodes to those records |
| KLine.ReadDeltas | api.py:205-208 | the four price deltas are four vints, struct.error when one is short |
| KLine.ReadTurnover | api.py:219-220 | volume and amount succeed exactly when 8 bytes remain |
| KLine.Resolve | api.py:209-218 | the open is the carry plus the open delta. Close, high and low are the open plus their own deltas |
| KLine.ResolvedPrices | api.py:209-218 | the open the source reports is `_calc_price1k(Δopen, carry)` and the others `_calc_price1k(Δopen + carry, Δ)`: the resolved fields as thousandths; the carry passed on is the close |
| KLine.DecodeEquityBar | api.py:231-247 | an equity bar has no breadth, consumes at least 16 bytes, and its ValueError is exactly the timestamp's |
| KLine.DecodeBar | api.py:204-223 | a bar has the breadth counts exactly in the index shape |
| KLine.DecodeBars | api.py:203-223 | `count` bars of the hypothesised shape, the carry handed from each close to the next bar |
| KLine.ParseKLine | api.py:200-224 | one hypothesis: struct.error without a count, else as many bars as counted, all of that shape |
| KLine.GetKLine | api.py:199-249 | the index result when it parses; the equity parse after a ValueError; a struct.error of the index parse escapes (as written) |
| KLine.GetKLineRecovering | api.py:199-249 | the index result when it parses, the equity parse after any failure (corrected) |
| KLine.DeltasRoundTrip | api.py:205-208 | four deltas written as vints read back |
| KLine.TurnoverRoundTrip | api.py:219-220 | volume and amount read back |
| KLine.EquityBarRoundTrip | api.py:231-247 | a bar written as deltas from the carry reads back to the same prices |
| KLine.IndexShapeExtendsEquityShape | api.py:204-247 | an index bar is the equity bar plus 4 bytes of counts, and the index shape fails wherever the equity shape does |
| KLine.BarRoundTrip | api.py:204-247 | a bar of either shape reads back |
| KLine.BarsRoundTrip | api.py:203-223 | a bar sequence written with the carry chain reads back to the same prices |
| KLine.ParseRoundTrip | api.py:200-224 | a response of either shape parses back under its own hypothesis |
| KLine.IndexResponseDecodes | api.py:199-224 | an index response decodes to its bars |
| KLine.EquityResponseAfterValueError | api.py:225-249 | an equity response decodes to its bars when the index hypothesis ends in ValueError |
| KLine.SingleEquityBarFails | api.py:225 | as written, every one-bar equity response fails with struct.error |
| KLine.SingleEquityBarRecovered | api.py:225-249 | with the corrected rollback, the same response decodes to its bar |
| KLine.RecoveringReadsEquityResponse | api.py:225-249 | with the corrected rollback, every equity response whose index parse fails decodes to its bars |
| KLine.IndexParseOfSingleEquityBar | api.py:200-224 | the index hypothesis on a one-bar equity response runs out of bytes in the breadth counts: struct.error |
| Ticks.RunningSum | api.py:255-261 | `last_price += delta`: as many prices as deltas, the first the start plus its delta, each later one the previous plus its own |
| Ticks.RunningSumIsPrefixSum | api.py:255-261 | each running price is the start plus all deltas up to its own |
| Ticks.RunningSumInvertsDifferences | api.py:255-261 | accumulating the differences of a price series gives the series back |
| Ticks.DifferencesInvertRunningSum | api.py:255-261 | differencing the running prices gives the deltas back |
| Ticks.ReadMinuteRecord | api.py:259-264 | a minute record is three vints, struct.error when one is short |
| Ticks.DecodeMinutes | api.py:258-265 | `count` minutes decode to `count` ticks, failing only with struct.error |
| Ticks.MinuteRecordRoundTrip | api.py:259-264 | a minute record reads back |
| Ticks.MinutesRoundTrip | api.py:255-265 | a run of minute records reads back to the ticks the running price gives |
| Ticks.MinutesOfDescribes | api.py:255-265 | the decoded ticks carry the running sums of the deltas from 0 and the records' volumes |
| Ticks.ParseMinutes | api.py:254-266 | a minute response is a struct.error below 2 bytes and otherwise returns as many ticks as counted |
| Ticks.GetMinuteData | api.py:251-266 | `get_minute_data`: as many ticks as counted, the records after a 2-byte gap |
| Ticks.GetHistoryMinuteData | api.py:268-284 | `get_history_minute_data`: the same behind a 4-byte gap |
| Ticks.MinuteDataRoundTrip | api.py:251-266 | live minutes behind their 2-byte gap decode to what the records describe |
| Ticks.HistoryMinuteDataRoundTrip | api.py:268-284 | history minutes behind their 4-byte gap decode to what the records describe |
| Ticks.ReadTradeFields | api.py:295-304 | the vints after a trade's time: four, plus the reserved one when the layout has a trailer |
| Ticks.ReadTradeRecord | api.py:294-304 | a trade record has a valid time of day; its failures are struct.error or the ValueError of `time` |
| Ticks.DecodeTrades | api.py:293-305 | `count` trades decode to `count` trades |
| Ticks.TradeRecordRoundTrip | api.py:294-304 | a trade record, with or without trailer, reads back |
| Ticks.TradesRoundTrip | api.py:291-305 | a run of trade records reads back to the trades the running price gives |
| Ticks.TradesOfDescribes | api.py:291-302 | decoded trades carry the running sums of the deltas and the records' time, volume, orders and side |
| Ticks.ParseTrades | api.py:290-305 | a trade response is a struct.error below 2 bytes and otherwise returns as many trades as counted |
| Ticks.GetTransactionData | api.py:286-305 | `get_transaction_data`: as many trades as counted; each record ends with a reserved vint |
| Ticks.GetHistoryTransactionData | api.py:307-327 | `get_history_transaction_data`: 4 bytes skipped after the count, no reserved vint |
| Ticks.TransactionDataRoundTrip | api.py:286-305 | live trades with their trailers decode to what the records describe |
| Ticks.HistoryTransactionDataRoundTrip | api.py:307-327 | history trades behind the 4-byte gap decode to what the records describe |
| CompanyInfo.ReadEntry | api.py:336-341 | an entry succeeds exactly when 152 bytes remain and consumes 152. Its names are zero-free and at most 64 and 80 bytes long |
| CompanyInfo.DecodeEntries | api.py:335-341 | `count` entries decode exactly when 152 bytes per entry remain |
| CompanyInfo.GetCompanyInfoEntry | api.py:329-342 | the entry list succeeds exactly when the payload holds the count and 152 bytes per counted entry |
| CompanyInfo.GetCompanyInfoContent | api.py:344-354 | the content succeeds exactly when the payload has 12 bytes. The text is the announced length after offset 12, cut short at the end of the payload |
| CompanyInfo.EntryRoundTrip | api.py:336-341 | an entry written with zero-padded names reads back |
| CompanyInfo.EntriesRoundTrip | api.py:335-341 | a run of entries reads back |
| CompanyInfo.CompanyInfoEntryRoundTrip | api.py:329-342 | a count followed by its entries decodes to those entries |
| CompanyInfo.CompanyInfoContentRoundTrip | api.py:344-354 | text written after any 10 bytes with its length in front reads back, whatever follows it |
| Xdxr.CategoryOf | api.py:64-78 | `XDXRCategory(b)` succeeds exactly for 1-14, giving the member of that value; otherwise ValueError |
| Xdxr.CategoryRoundTrip | api.py:64-78 | every category converts back from its value |
| Xdxr.Label | api.py:377-405 | the four values read are labelled as the category's group requires, in wire order |
| Xdxr.LabelOfValues | api.py:377-405 | a labelled detail is fixed by its category and its four values |
| Xdxr.ReadEvent | api.py:370-406 | an event consumes 29 bytes. Its date is at 15:00 and its labels fit its category. A struct.error means fewer than 29 bytes were left |
| Xdxr.ReadEventBody | api.py:372-405 | the category byte selects the labels; a byte outside 1-14 is a ValueError |
| Xdxr.DecodeEvents | api.py:369-406 | `count` events decode to `count` labelled events |
| Xdxr.ReadHeader | api.py:363-369 | with 11 bytes present, the header fails exactly on a bad market byte, and the count is the word at offset 9 |
| Xdxr.GetXdxrInfo | api.py:356-408 | under 11 bytes gives no events. A bad market byte is a ValueError. Otherwise it returns as many labelled events as counted |
| Xdxr.EventRoundTrip | api.py:370-405 | an event written in the 29-byte layout reads back |
| Xdxr.EventsRoundTrip | api.py:369-406 | a run of events reads back |
| Xdxr.XdxrInfoRoundTrip | api.py:356-408 | a header, a count and its events decode to those events |
| Finance.ReadNumbers | api.py:418-452 | the 136 bytes of figures succeed exactly when they are all present and give 28 figures |
| Finance.GetFinanceInfo | api.py:410-453 | the snapshot succeeds exactly when 145 bytes are present and the market byte is 0 or 1. A bad market byte is the ValueError. Market and code are the bytes at offsets 2 and 3-8 |
| Finance.NumbersRoundTrip | api.py:418-452 | the figures written in order read back |
| Finance.FinanceInfoRoundTrip | api.py:410-453 | a snapshot written after any two bytes reads back |
| BarFiles.CategoryOf | api.py:459-487 | day files use the decimal stamp and both minute files the zipday/minutes stamp |
| BarFiles.PriceOf | api.py:460-493 | a price word means whole units in a day file, hundredths (`u32 / 100`) in a minute file and an f32 in an lc file; the word is recoverable from its price, and every 32-bit word gives a price of the file's kind |
| BarFiles.PriceOfWord | api.py:460-493 | a price of the file's kind is the reading of its word: whole units, hundredths or an f32 |
| BarFiles.ReadWords | api.py:460-463 | the four price words succeed exactly when 16 bytes remain |
| BarFiles.ReadEntry | api.py:459-466 | a record consumes 32 bytes, of which the last 4 may be missing. It is a struct.error exactly when fewer than 28 bytes remain and the date is not itself invalid |
| BarFiles.ReadRecords | api.py:458-466 | `while not reader.eof` reads records until the cursor reaches or passes the end; the loop ends because each record moves the cursor on, and only struct.error or ValueError escape |
| BarFiles.RecordCount | api.py:458-466 | a file that reads has one entry per started 32 bytes |
| BarFiles.ShortTailFails | api.py:458-466 | a file whose last record has fewer than 28 bytes fails |
| BarFiles.StructErrorMeansShortTail | api.py:458-466 | a struct.error comes only from such a short last record |
| BarFiles.EntryRoundTrip | api.py:459-466 | a 32-byte record of any kind reads back |
| BarFiles.FileRoundTrip | api.py:455-495 | a file written from entries reads back, also with up to 4 trailing bytes cut off |
| BarFiles.ReadFile | api.py:455-495 | the three readers: an empty file gives no entries; a file that reads has one entry per started 32 bytes; a file whose last record has fewer than 28 bytes fails; a struct.error comes only from such a record; the only failures are struct.error and ValueError |
| Framing.ParseHeader | api.py:519 | `unpack('<IIIHH')` succeeds exactly on 16 bytes; both sizes are below 2^16 |
| Framing.HeaderRoundTrip | api.py:519 | a header the server packs unpacks to the same fields |
| Framing.HeaderBytesRoundTrip | api.py:519 | every 16 bytes are the packing of the header they unpack to |
| Framing.Unframe | api.py:526-527 | equal sizes pass the body through; differing sizes succeed exactly when it inflates; the only failure is a decompression error |
| Framing.Response | api.py:519-527 | a header of any length but 16 is a struct.error; otherwise the failures are decompression errors |
| Framing.CompressedRoundTrip | api.py:519-527 | a body sent compressed with differing sizes comes back as the inflated data |
| Framing.StoredRoundTrip | api.py:519-527 | a body sent stored, both sizes its length, comes back unchanged whatever the inflater |
| Framing.EqualSizesSkipInflate | api.py:526 | a body compressed to exactly its inflated length is passed on still compressed |
| Framing.InflatedSizeUnchecked | api.py:526-527 | inflated data of any length is accepted: the announced size is never compared |

## Left out

- Socket I/O is not modelled. This covers `Api.__init__`, `_hello`, `heartbeat`, `__enter__`/`__exit__`, the send, and the receive loop of `_req`. `Framing.Response` takes the 16 header bytes and the body as received.
- The `RuntimeError` of `_req` without a server is not modelled. It is raised before any byte is decoded.
- Request packets (`struct.pack` of the request templates) are not modelled. They are constant bytes plus arguments, and nothing is decoded from them.
- `zlib.decompress` is a parameter (`inflate`), returning `None` for a corrupt stream. The DEFLATE algorithm itself is not modelled.
- Text decoding is not modelled: `.decode()`, `.decode('gbk')`, and the `UnicodeDecodeError` they can raise. Codes, names and the company text are kept as the stored bytes. Trailing NULs are stripped on bytes, which gives the same result because NUL is a single byte in GBK.
- Floating-point values are kept as raw 32-bit patterns. This covers `f32` reads, the `× 10000` of `get_finance_info`, `/ 100` of the minute file and `i16 / 100` of the quote growth rate. Integer prices are kept in hundredths or thousandths, and `Prices.CalcPrice`/`CalcPrice1k` state the exact quotient, without float rounding.
- `_format_time` string building is not modelled, beyond whether it raises (`Quotes.SliceParsesRange`, `Quotes.StrConvertsRange`). The server time is kept as the integer read.
- The OverflowError of the price divisions is not modelled. `_calc_price` (api.py:28), `_calc_price1k` (api.py:32) and `last_price / 100` (api.py:263, 281, 299, 322) divide unbounded vint sums as floats. CPython raises OverflowError when the quotient is above about 1.8e308, which a price vint of about 148 bytes reaches. On such a response `get_stock_quotes`, `get_k_line` and the four tick decoders raise, while `Quotes.GetStockQuotes`, `KLine.GetKLine`, `Ticks.GetMinuteData`, `Ticks.GetHistoryMinuteData`, `Ticks.GetTransactionData` and `Ticks.GetHistoryTransactionData` return `Ok`, because the model keeps prices as integers.
- The digit limit on `str()` (`Quotes.MaxStrDigits`, 4300) is that of CPython 3.10.7 and later. Under 3.10.0 to 3.10.6 there is no limit, and a server time of any length above 9999 in magnitude is accepted.
- `datetime` objects are records of their fields, and the constructors' validity check is explicit.
- The `u64`, `i8`, `i32`, `i64` and `f64` formats are modelled only by `BinaryReader.ReadScalar` and its round-trip lemmas. No decoder of the core uses them.
- test.py is not part of this model. It needs a live server.
- Ticks.GetMinuteData, Ticks.GetHistoryMinuteData, Ticks.GetTransactionData, Ticks.GetHistoryTransactionData: their contracts state only the failure kinds and the record count. The contents of the ticks are stated by the round-trip lemmas (`MinuteDataRoundTrip` and the others), which hold for responses the server writes.
- Quotes.GetStockQuotes: the contract states the count and failure kinds; which inputs fail is stated in `ShortKeyFails`, `UnknownMarketAfterPrice`, `ShortServerTimeFails` and `LongServerTimeFails`, and the content in `GetStockQuotesRoundTrip`.
- KLine.DecodeBars: the contract states the count and shape; the prices are stated through `Resolve` and the round trip `BarsRoundTrip`.
- Framing.Response: the contract states only the failure kinds; success and contents are stated by `CompressedRoundTrip`, `StoredRoundTrip` and `Unframe`.
- Framing.Response: the body is taken as received, of any length. The receive loop of `_req` always gathers exactly `zipped_size` bytes, but the model does not tie the body's length to that header field.

## Findings

| source | as written | input that shows it | evidently intended | confidence | as-written member | corrected member |
|---|---|---|---|---|---|---|
| api.py:225 | `get_k_line` returns to the equity shape only when the index attempt raises `ValueError`; a short read raises `struct.error`, which escapes | an equity response with one bar: the index attempt reads the whole bar and then runs off the end reading the first breadth count | the reader is rewound and the equity shape parsed whenever the response is not an index, as the comments on the two branches say (api.py:199 "try as an index", api.py:225 "not an index") | not executed | KLine.SingleEquityBarFails | KLine.SingleEquityBarRecovered |

=== FILE: bar_files.dfy ===
/** The local bar files (api.py, `read_day_file`, `read_minute_file` and
`read_minute_lc_file`, with the `DataEntry` tuple they build).

All three read 32-byte records until the cursor reaches the end of the file:
a date stamp (decimal for day files, zipday/minutes for the two minute
files), four price words, the amount (f32), the volume (u32) and 4 skipped
bytes. The three differ only in the date layout and in what a price word
means: whole units, hundredths (`u32 / 100`) or an f32.
 */
module BarFiles {
  import opened Results
  import opened ByteOrder
  import opened BinaryReader
  import opened Wire
  import opened Dates

  datatype FileKind = DayFile | MinuteFile | MinuteLcFile

  /** The date layout each reader asks `_get_datetime` for. */
  function CategoryOf(kind: FileKind): (c: KLineCategory)
    ensures UsesMinuteStamp(c) <==> !kind.DayFile?
  {
    match kind
    case DayFile => KDaily
    case MinuteFile => K1
    case MinuteLcFile => K1
  }

  /** A price as the reader delivers it; the division by 100 and the float
      are kept symbolic. */
  datatype Price = Whole(units: nat) | Hundredths(n: nat) | Single(f: Float32)

  /** The meaning of a price word in each kind of file. */
  function PriceOf(kind: FileKind, word: nat): (p: Price)
    ensures WordOf(p) == word
    ensures word < 0x1_0000_0000 ==> PriceFits(kind, p)
    ensures p.Hundredths? <==> kind.MinuteFile?
  {
    match kind
    case DayFile => Whole(word)
    case MinuteFile => Hundredths(word)
    case MinuteLcFile => Single(Float32(word))
  }

  /** The word a price was read from. */
  function WordOf(p: Price): nat
  {
    match p
    case Whole(n) => n
    case Hundredths(n) => n
    case Single(f) => f.bits
  }

  predicate PriceFits(kind: FileKind, p: Price)
  {
    && WordOf(p) < 0x1_0000_0000
    && match kind
       case DayFile => p.Whole?
       case MinuteFile => p.Hundredths?
       case MinuteLcFile => p.Single?
  }

  /** A price of the file's kind is the reading of its word. */
  lemma PriceOfWord(kind: FileKind, p: Price)
    requires PriceFits(kind, p)
    ensures PriceOf(kind, WordOf(p)) == p
  {
  }

  /** `DataEntry`, with the prices in their file's meaning. */
  datatype Entry = Entry(date: DateTime, open: Price, high: Price, low: Price, close: Price,
                         amount: Float32, volume: nat)

  /** The four price words of a record. */
  datatype Words = Words(open: nat, high: nat, low: nat, close: nat)

  function ReadWords(r: Reader): (res: Result<Step<Words>>)
    ensures res.Ok? <==> Remaining(r) >= 16
    ensures res.Err? ==> res.error == StructError
    ensures res.Ok? ==> res.value.next == Advance(r, 16)
  {
    var open :- ReadU32(r);
    var high :- ReadU32(open.next);
    var low :- ReadU32(high.next);
    var close :- ReadU32(low.next);
    Ok(Step(Words(open.value, high.value, low.value, close.value), close.next))
  }

  /** One record. The trailing 4 bytes are skipped, so a last record that
      stops up to 4 bytes early still reads. */
  function ReadEntry(kind: FileKind, r: Reader): (res: Result<Step<Entry>>)
    ensures res.Err? ==> res.error in {StructError, ValueError}
    ensures res.Err? && res.error == StructError <==> Remaining(r) < 28 && GetDateTime(CategoryOf(kind), r) != Err(ValueError)
    ensures res.Ok? ==> Remaining(r) >= 28 && res.value.next == Advance(r, 32)
  {
    var date :- GetDateTime(CategoryOf(kind), r);
    var words :- ReadWords(date.next);
    var amount :- ReadF32(words.next);
    var volume :- ReadU32(amount.next);
    var w := words.value;
    Ok(Step(Entry(date.value, PriceOf(kind, w.open), PriceOf(kind, w.high), PriceOf(kind, w.low),
                  PriceOf(kind, w.close), amount.value, volume.value), Skip(volume.next, 4)))
  }

  /** `while not reader.eof`: records until the cursor is at or past the
      end. */
  function ReadRecords(kind: FileKind, r: Reader): (res: Result<seq<Entry>>)
    ensures res.Err? ==> res.error in {StructError, ValueError}
    decreases Remaining(r)
  {
    if Eof(r) then Ok([])
    else
      var first :- ReadEntry(kind, r);
      var rest :- ReadRecords(kind, first.next);
      Ok([first.value] + rest)
  }

  /** The three readers of the source over a file's whole contents. */
  function ReadFile(kind: FileKind, data: seq<byte>): (res: Result<seq<Entry>>)
    ensures data == [] ==> res == Ok([])
    ensures res.Err? ==> res.error in {StructError, ValueError}
    ensures res.Ok? ==> |res.value| == Started(|data|)
    ensures 0 < |data| % 32 < 28 ==> res.Err?
    ensures res == Err(StructError) ==> 0 < |data| % 32 < 28
  {
    RecordsShape(kind, Open(data));
    ReadRecords(kind, Open(data))
  }

  // ---------------------------------------------------------------------
  // How many records, and which files fail

  /** A file that reads has one entry per started 32 bytes. */
  lemma {:induction false} RecordCount(kind: FileKind, r: Reader)
    requires ReadRecords(kind, r).Ok?
    ensures |ReadRecords(kind, r).value| == Started(Remaining(r))
    decreases Remaining(r)
  {
    if Eof(r) {
      assert Started(0) == 0;
    } else {
      var next := Advance(r, 32);
      RecordsOkSplit(kind, r);
      RemainingPast(r);
      RecordCount(kind, next);
      CountStep(Remaining(r), Remaining(next));
    }
  }

  /** Reading a record moves the cursor 32 bytes on, past the end for a
      last record of 28 to 32 bytes. */
  lemma RemainingPast(r: Reader)
    requires Remaining(r) >= 28
    ensures Remaining(Advance(r, 32)) == if Remaining(r) >= 32 then Remaining(r) - 32 else 0
  {
  }

  /** The number of 32-byte records `rem` bytes start. */
  function Started(rem: nat): nat
  {
    (rem + 31) / 32
  }

  lemma CountStep(rem: nat, restRem: nat)
    requires rem >= 28 && restRem == if rem >= 32 then rem - 32 else 0
    ensures Started(rem) == 1 + Started(restRem)
  {
  }

  /** A list that reads is its first record and the rest after it. */
  lemma RecordsOkSplit(kind: FileKind, r: Reader)
    requires !Eof(r) && ReadRecords(kind, r).Ok?
    ensures ReadEntry(kind, r).Ok? && Remaining(r) >= 28
    ensures ReadRecords(kind, Advance(r, 32)).Ok?
    ensures |ReadRecords(kind, r).value| == 1 + |ReadRecords(kind, Advance(r, 32)).value|
  {
  }

  lemma RecordsFromParts(kind: FileKind, r: Reader, first: Step<Entry>, rest: seq<Entry>)
    requires !Eof(r) && ReadEntry(kind, r) == Ok(first) && ReadRecords(kind, first.next) == Ok(rest)
    ensures ReadRecords(kind, r) == Ok([first.value] + rest)
  {
  }

  /** A file whose last record holds fewer than 28 bytes fails, whatever
      the records before it hold. */
  lemma {:induction false} ShortTailFails(kind: FileKind, r: Reader)
    requires 0 < Remaining(r) % 32 < 28
    ensures ReadRecords(kind, r).Err?
    decreases Remaining(r)
  {
    if ReadEntry(kind, r).Ok? {
      var next := Advance(r, 32);
      RemainingPast(r);
      TailStep(Remaining(r), Remaining(next));
      ShortTailFails(kind, next);
      RecordsFailRest(kind, r);
    } else {
      RecordsFailFirst(kind, r);
    }
  }

  lemma TailStep(rem: nat, restRem: nat)
    requires 0 < rem % 32 < 28 && rem >= 28 && restRem == if rem >= 32 then rem - 32 else 0
    ensures 0 < restRem % 32 < 28
  {
  }

  lemma RecordsFailFirst(kind: FileKind, r: Reader)
    requires !Eof(r) && ReadEntry(kind, r).Err?
    ensures ReadRecords(kind, r) == Err(ReadEntry(kind, r).error)
  {
  }

  lemma RecordsFailRest(kind: FileKind, r: Reader)
    requires !Eof(r) && ReadEntry(kind, r).Ok? && ReadRecords(kind, Advance(r, 32)).Err?
    ensures ReadRecords(kind, r) == Err(ReadRecords(kind, Advance(r, 32)).error)
  {
  }

  /** Conversely, a struct.error only ever comes from such a short last
      record: every other failure is a bad date. */
  lemma {:induction false} StructErrorMeansShortTail(kind: FileKind, r: Reader)
    requires ReadRecords(kind, r) == Err(StructError)
    ensures 0 < Remaining(r) % 32 < 28
    decreases Remaining(r)
  {
    if ReadEntry(kind, r).Ok? {
      var next := Advance(r, 32);
      RecordsErrorFromRest(kind, r);
      RemainingPast(r);
      StructErrorMeansShortTail(kind, next);
      TailBack(Remaining(r), Remaining(next));
    } else {
      RecordsErrorFromFirst(kind, r);
      SmallTail(Remaining(r));
    }
  }

  lemma SmallTail(rem: nat)
    requires 0 < rem < 28
    ensures 0 < rem % 32 < 28
  {
  }

  lemma TailBack(rem: nat, restRem: nat)
    requires 0 < restRem % 32 < 28 && rem >= 28 && restRem == if rem >= 32 then rem - 32 else 0
    ensures 0 < rem % 32 < 28
  {
  }

  lemma RecordsErrorFromRest(kind: FileKind, r: Reader)
    requires ReadEntry(kind, r).Ok? && ReadRecords(kind, r).Err?
    ensures !Eof(r) && Remaining(r) >= 28
    ensures ReadRecords(kind, Advance(r, 32)) == Err(ReadRecords(kind, r).error)
  {
  }

  lemma RecordsErrorFromFirst(kind: FileKind, r: Reader)
    requires ReadEntry(kind, r).Err? && ReadRecords(kind, r) == Err(StructError)
    ensures 0 < Remaining(r) < 28
  {
  }

  // ---------------------------------------------------------------------
  // Writing files

  predicate EntryFits(kind: FileKind, e: Entry)
  {
    && Encodable(CategoryOf(kind), e.date)
    && PriceFits(kind, e.open) && PriceFits(kind, e.high) && PriceFits(kind, e.low) && PriceFits(kind, e.close)
    && e.amount.bits < 0x1_0000_0000 && e.volume < 0x1_0000_0000
  }

  /** The 28 bytes of a record the reader looks at. */
  function EncodeFields(kind: FileKind, e: Entry): (bs: seq<byte>)
    requires EntryFits(kind, e)
    ensures |bs| == 28
  {
    EncodeDateTime(CategoryOf(kind), e.date)
    + (EncodeWords(Words(WordOf(e.open), WordOf(e.high), WordOf(e.low), WordOf(e.close)))
    + (EncodeF32(e.amount)
    + EncodeU32(e.volume)))
  }

  function EncodeWords(w: Words): (bs: seq<byte>)
    requires w.open < 0x1_0000_0000 && w.high < 0x1_0000_0000 && w.low < 0x1_0000_0000 && w.close < 0x1_0000_0000
    ensures |bs| == 16
  {
    EncodeU32(w.open) + (EncodeU32(w.high) + (EncodeU32(w.low) + EncodeU32(w.close)))
  }

  /** A whole record: the fields and 4 reserved zero bytes. */
  function EncodeEntry(kind: FileKind, e: Entry): (bs: seq<byte>)
    requires EntryFits(kind, e)
    ensures |bs| == 32
  {
    EncodeFields(kind, e) + Zeros(4)
  }

  predicate AllFit(kind: FileKind, es: seq<Entry>)
  {
    forall i :: 0 <= i < |es| ==> EntryFits(kind, es[i])
  }

  function EncodeFile(kind: FileKind, es: seq<Entry>): (bs: seq<byte>)
    requires AllFit(kind, es)
    ensures |bs| == 32 * |es|
  {
    if |es| == 0 then [] else EncodeEntry(kind, es[0]) + EncodeFile(kind, es[1..])
  }

  lemma WordsRoundTrip(r: Reader, w: Words)
    requires r.bigEndian
    requires w.open < 0x1_0000_0000 && w.high < 0x1_0000_0000 && w.low < 0x1_0000_0000 && w.close < 0x1_0000_0000
    requires At(r, EncodeWords(w))
    ensures ReadWords(r) == Ok(Step(w, Advance(r, 16)))
  {
    var a := EncodeU32(w.open);
    var b := EncodeU32(w.high);
    var c := EncodeU32(w.low);
    var d := EncodeU32(w.close);
    AtConcat(r, a, b + (c + d));
    AtConcat(Advance(r, 4), b, c + d);
    AtConcat(Advance(r, 8), c, d);
    U32RoundTrip(r, w.open);
    U32RoundTrip(Advance(r, 4), w.high);
    U32RoundTrip(Advance(r, 8), w.low);
    U32RoundTrip(Advance(r, 12), w.close);
  }

  /** A record's fields read back, whatever follows them. */
  lemma EntryRoundTrip(kind: FileKind, r: Reader, e: Entry)
    requires r.bigEndian && EntryFits(kind, e) && At(r, EncodeFields(kind, e))
    ensures ReadEntry(kind, r) == Ok(Step(e, Advance(r, 32)))
  {
    var w := Words(WordOf(e.open), WordOf(e.high), WordOf(e.low), WordOf(e.close));
    var date := EncodeDateTime(CategoryOf(kind), e.date);
    var words := EncodeWords(w);
    var amount := EncodeF32(e.amount);
    var volume := EncodeU32(e.volume);
    AtConcat(r, date, words + (amount + volume));
    var r1 := Advance(r, 4);
    AtConcat(r1, words, amount + volume);
    var r2 := Advance(r1, 16);
    AtConcat(r2, amount, volume);
    var r3 := Advance(r2, 4);
    var r4 := Advance(r3, 4);
    assert Skip(r4, 4) == Advance(r, 32);
    DateTimeRoundTrip(CategoryOf(kind), r, e.date);
    WordsRoundTrip(r1, w);
    F32RoundTrip(r2, e.amount);
    U32RoundTrip(r3, e.volume);
    PriceOfWord(kind, e.open);
    PriceOfWord(kind, e.high);
    PriceOfWord(kind, e.low);
    PriceOfWord(kind, e.close);
    EntryFromParts(kind, r, e, w, r1, r2, r3, r4);
  }

  lemma EntryFromParts(kind: FileKind, r: Reader, e: Entry, w: Words, r1: Reader, r2: Reader, r3: Reader, r4: Reader)
    requires GetDateTime(CategoryOf(kind), r) == Ok(Step(e.date, r1)) && ReadWords(r1) == Ok(Step(w, r2))
    requires ReadF32(r2) == Ok(Step(e.amount, r3)) && ReadU32(r3) == Ok(Step(e.volume, r4))
    requires PriceOf(kind, w.open) == e.open && PriceOf(kind, w.high) == e.high
    requires PriceOf(kind, w.low) == e.low && PriceOf(kind, w.close) == e.close
    ensures ReadEntry(kind, r) == Ok(Step(e, Skip(r4, 4)))
  {
  }

  /** The image of a file without its last `cut` bytes. */
  function Cut(bs: seq<byte>, cut: nat): seq<byte>
    requires cut <= |bs|
  {
    bs[.. |bs| - cut]
  }

  /** A file written from entries reads back, also when the last record's
      4 reserved bytes are cut off. */
  lemma {:induction false} RecordsRoundTrip(kind: FileKind, r: Reader, es: seq<Entry>, cut: nat)
    requires r.bigEndian && AllFit(kind, es)
    requires cut <= 4 && cut <= |EncodeFile(kind, es)|
    requires At(r, Cut(EncodeFile(kind, es), cut)) && r.pos + |EncodeFile(kind, es)| - cut == |r.data|
    ensures ReadRecords(kind, r) == Ok(es)
    decreases |es|
  {
    if |es| > 0 {
      var next := Advance(r, 32);
      RecordSplit(kind, r, es, cut);
      if |es| == 1 {
        EndOfFile(kind, next, es[1..]);
      } else {
        RecordsRoundTrip(kind, next, es[1..], cut);
      }
      RecordsStep(kind, r, es, next);
    }
  }

  lemma RecordsStep(kind: FileKind, r: Reader, es: seq<Entry>, next: Reader)
    requires |es| > 0 && !Eof(r) && ReadEntry(kind, r) == Ok(Step(es[0], next))
    requires ReadRecords(kind, next) == Ok(es[1..])
    ensures ReadRecords(kind, r) == Ok(es)
  {
    RecordsFromParts(kind, r, Step(es[0], next), es[1..]);
    HeadTail(es);
  }

  /** At the end of the file there are no more records. */
  lemma EndOfFile(kind: FileKind, r: Reader, rest: seq<Entry>)
    requires Eof(r) && |rest| == 0
    ensures ReadRecords(kind, r) == Ok(rest)
  {
  }

  lemma RecordSplit(kind: FileKind, r: Reader, es: seq<Entry>, cut: nat)
    requires r.bigEndian && AllFit(kind, es) && |es| > 0 && cut <= 4
    requires At(r, Cut(EncodeFile(kind, es), cut)) && r.pos + |EncodeFile(kind, es)| - cut == |r.data|
    ensures AllFit(kind, es[1..])
    ensures !Eof(r) && ReadEntry(kind, r) == Ok(Step(es[0], Advance(r, 32)))
    ensures |es| == 1 ==> Eof(Advance(r, 32))
    ensures |es| > 1 ==> cut <= |EncodeFile(kind, es[1..])|
    ensures |es| > 1 ==> At(Advance(r, 32), Cut(EncodeFile(kind, es[1..]), cut))
    ensures |es| > 1 ==> Advance(r, 32).pos + |EncodeFile(kind, es[1..])| - cut == |r.data|
  {
    SplitImage(kind, es);
    var head := EncodeEntry(kind, es[0]);
    var tail := EncodeFile(kind, es[1..]);
    CutSplit(r, head, tail, cut);
    assert head[..28] == EncodeFields(kind, es[0]);
    EntryRoundTrip(kind, r, es[0]);
  }

  lemma SplitImage(kind: FileKind, es: seq<Entry>)
    requires AllFit(kind, es) && |es| > 0
    ensures AllFit(kind, es[1..])
    ensures EncodeFile(kind, es) == EncodeEntry(kind, es[0]) + EncodeFile(kind, es[1..])
  {
    assert AllFit(kind, es[1..]) by {
      forall i | 0 <= i < |es| - 1 ensures es[1..][i] == es[i + 1] { }
    }
  }

  /** A record followed by the rest of a file cut short by `cut` bytes:
      the record's fields stand at the cursor, and then either the rest,
      equally cut, or the end of the file. */
  lemma CutSplit(r: Reader, head: seq<byte>, tail: seq<byte>, cut: nat)
    requires |head| == 32 && cut <= 4
    requires At(r, Cut(head + tail, cut)) && r.pos + |head + tail| - cut == |r.data|
    ensures At(r, head[..28])
    ensures |tail| == 0 ==> Eof(Advance(r, 32))
    ensures cut <= |tail| ==> At(Advance(r, 32), Cut(tail, cut))
    ensures cut <= |tail| ==> Advance(r, 32).pos + |tail| - cut == |r.data|
  {
    if cut <= |tail| {
      PrefixOfConcat(head, tail, |tail| - cut);
      AtConcat(r, head, tail[.. |tail| - cut]);
      AtPrefix(r, head, 28);
    } else {
      assert (head + tail)[.. 32 - cut] == head[.. 32 - cut];
      AtPrefix(r, head[.. 32 - cut], 28);
      PrefixOfPrefix(head, 32 - cut, 28);
    }
  }

  /** A file written from entries reads back, also with the last record's
      reserved bytes cut off. */
  lemma FileRoundTrip(kind: FileKind, es: seq<Entry>, cut: nat)
    requires AllFit(kind, es) && cut <= 4 && cut <= |EncodeFile(kind, es)|
    ensures ReadFile(kind, Cut(EncodeFile(kind, es), cut)) == Ok(es)
  {
    var image := Cut(EncodeFile(kind, es), cut);
    assert image[0 .. |image|] == image;
    RecordsRoundTrip(kind, Open(image), es, cut);
  }

  /** What the records loop makes of the bytes left: one entry per started
      record when it reads, a failure when its last record has fewer than
      28 bytes, and a struct.error only then. */
  lemma RecordsShape(kind: FileKind, r: Reader)
    ensures ReadRecords(kind, r).Ok? ==> |ReadRecords(kind, r).value| == Started(Remaining(r))
    ensures 0 < Remaining(r) % 32 < 28 ==> ReadRecords(kind, r).Err?
    ensures ReadRecords(kind, r) == Err(StructError) ==> 0 < Remaining(r) % 32 < 28
  {
    if ReadRecords(kind, r).Ok? {
      RecordCount(kind, r);
    }
    if 0 < Remaining(r) % 32 < 28 {
      ShortTailFails(kind, r);
    }
    if ReadRecords(kind, r) == Err(StructError) {
      StructErrorMeansShortTail(kind, r);
    }
  }
}

=== FILE: binary_reader.dfy ===
/** The cursor over a payload (binary_reader.py).

A `Reader` is the immutable state of the source's `BinaryReader`: the whole
buffer, the current position and the endianness flag given at construction.
Every read returns the value together with the reader after the read. As with
an in-memory stream, the position may stand past the end of the buffer; reads
there return nothing (raw `Read`) or fail (scalar reads).
 */
module BinaryReader {
  import opened Results
  import opened ByteOrder

  /** `bigEndian` is the constructor's flag. The source selects the struct
      byte-order character with `'><'[flag]`, so the default `true` selects
      little-endian and `false` big-endian; see `Decode`. */
  datatype Reader = Reader(data: seq<byte>, pos: nat, bigEndian: bool)

  /** A value read, and the reader positioned after it. */
  datatype Step<+T> = Step(value: T, next: Reader)

  /** A 32- or 64-bit float, kept as the bit pattern the reader decoded. */
  datatype Float32 = Float32(bits: nat)
  datatype Float64 = Float64(bits: nat)

  /** The reader the transport hands to every decoder: the default flag, at 0. */
  function Open(data: seq<byte>): (r: Reader)
    ensures r.data == data && r.pos == 0 && r.bigEndian
  {
    Reader(data, 0, true)
  }

  /** `len(reader)`: the buffer size captured at construction, whatever
      the cursor has done since. */
  function Len(r: Reader): (n: nat)
    ensures n == Remaining(Open(r.data))
    ensures Remaining(r) <= n
  {
    |r.data|
  }

  /** `eof`: the cursor is at or past the end. */
  predicate Eof(r: Reader)
    ensures Eof(r) <==> Remaining(r) == 0
  {
    r.pos >= |r.data|
  }

  /** Bytes left between the cursor and the end (none when past it). */
  function Remaining(r: Reader): nat
  {
    if r.pos < |r.data| then |r.data| - r.pos else 0
  }

  function Advance(r: Reader, n: nat): Reader
  {
    r.(pos := r.pos + n)
  }

  lemma RemainingAfter(r: Reader, n: nat)
    requires n <= Remaining(r)
    ensures Remaining(Advance(r, n)) == Remaining(r) - n
  {
  }

  lemma AdvanceAdd(r: Reader, a: nat, b: nat)
    ensures Advance(Advance(r, a), b) == Advance(r, a + b)
  {
  }

  /** The bytes `bs` stand at the cursor of `r`. */
  ghost predicate At(r: Reader, bs: seq<byte>)
  {
    r.pos + |bs| <= |r.data| && r.data[r.pos .. r.pos + |bs|] == bs
  }

  lemma AtConcat(r: Reader, a: seq<byte>, b: seq<byte>)
    requires At(r, a + b)
    ensures At(r, a) && At(Advance(r, |a|), b)
  {
    var p := r.pos;
    assert r.data[p .. p + |a|] == r.data[p .. p + |a| + |b|][..|a|];
    assert r.data[p + |a| .. p + |a| + |b|] == r.data[p .. p + |a| + |b|][|a|..];
  }

  /** What stands at the cursor, stands there in part too. */
  lemma AtPrefix(r: Reader, bs: seq<byte>, k: nat)
    requires At(r, bs) && k <= |bs|
    ensures At(r, bs[..k])
  {
    assert r.data[r.pos .. r.pos + k] == r.data[r.pos .. r.pos + |bs|][..k];
  }

  lemma AtJoin(r: Reader, a: seq<byte>, b: seq<byte>)
    requires At(r, a) && At(Advance(r, |a|), b)
    ensures At(r, a + b)
  {
    var p := r.pos;
    var whole := r.data[p .. p + |a| + |b|];
    assert whole[..|a|] == r.data[p .. p + |a|];
    assert whole[|a|..] == r.data[p + |a| .. p + |a| + |b|];
    assert whole == whole[..|a|] + whole[|a|..];
  }

  /** A buffer laid out as a header, a gap and a body: the header stands at
      the start and the body just after the gap. */
  lemma OpenFramed(head: seq<byte>, gap: seq<byte>, body: seq<byte>)
    ensures At(Open(head + gap + body), head)
    ensures At(Advance(Open(head + gap + body), |head|), gap)
    ensures At(Advance(Open(head + gap + body), |head| + |gap|), body)
  {
    var data := head + gap + body;
    assert data[..|head|] == head;
    assert data[|head| .. |head| + |gap|] == gap;
    assert data[|head| + |gap| ..] == body;
  }

  lemma AtPrepend(r: Reader, bs: seq<byte>)
    requires r.pos < |r.data| && At(Advance(r, 1), bs)
    ensures At(r, [r.data[r.pos]] + bs)
  {
    var p := r.pos;
    assert r.data[p .. p + 1 + |bs|] == [r.data[p]] + r.data[p + 1 .. p + 1 + |bs|];
  }

  /** `read(size)`: up to `size` bytes, fewer at the end, never a failure.
      A negative size reads everything that is left. */
  function Read(r: Reader, size: int): (res: Step<seq<byte>>)
    ensures |res.value| == if 0 <= size <= Remaining(r) then size else Remaining(r)
    ensures res.next == Advance(r, |res.value|)
    ensures forall i :: 0 <= i < |res.value| ==> res.value[i] == r.data[r.pos + i]
  {
    var n := if 0 <= size <= Remaining(r) then size else Remaining(r);
    Step(if n == 0 then [] else r.data[r.pos .. r.pos + n], Advance(r, n))
  }

  /** Bytes known to stand at the cursor read back whole. */
  lemma ReadAt(r: Reader, bs: seq<byte>)
    requires At(r, bs)
    ensures Read(r, |bs|) == Step(bs, Advance(r, |bs|))
  {
  }

  /** `skip(size)`: a relative seek; it may pass the end, and a move before
      the start stops at 0, as an in-memory stream does. */
  function Skip(r: Reader, size: int): (r': Reader)
    ensures r'.data == r.data && r'.bigEndian == r.bigEndian
    ensures r.pos + size >= 0 ==> r'.pos == r.pos + size
    ensures r.pos + size < 0 ==> r'.pos == 0
  {
    r.(pos := if r.pos + size < 0 then 0 else r.pos + size)
  }

  /** The `pos` setter: an absolute seek; a negative target is a ValueError. */
  function Seek(r: Reader, newPos: int): (res: Result<Reader>)
    ensures res.Ok? <==> newPos >= 0
    ensures res.Err? ==> res.error == ValueError
    ensures res.Ok? ==> res.value.data == r.data && res.value.bigEndian == r.bigEndian && res.value.pos == newPos
  {
    if newPos < 0 then Err(ValueError) else Ok(r.(pos := newPos))
  }

  /** Reading `n` bytes moves the cursor as skipping them does, as long as
      they are there; at or past the end every read comes back empty. */
  lemma ReadMovesLikeSkip(r: Reader, n: nat)
    ensures n <= Remaining(r) ==> Read(r, n).next == Skip(r, n) && |Read(r, n).value| == n
    ensures Eof(r) <==> (forall k: nat :: k > 0 ==> Read(r, k).value == [])
  {
    if !Eof(r) {
      assert |Read(r, 1).value| == 1;
    }
  }

  /** Seeking back to 0 gives the reader the transport handed over. */
  lemma SeekStartReopens(r: Reader)
    requires r.bigEndian
    ensures Seek(r, 0) == Ok(Open(r.data))
  {
  }

  /** The value of a fixed-width field under the reader's flag (inverted). */
  function Decode(bigEndian: bool, bs: seq<byte>): (v: nat)
    ensures v < Pow256(|bs|)
  {
    if bigEndian then LittleEndian(bs) else BigEndian(bs)
  }

  /** The flag picks the byte order a field was stored in: with `True` the
      bytes are the value least significant first, with `False` most
      significant first. */
  lemma DecodeIsStored(bigEndian: bool, bs: seq<byte>)
    ensures bigEndian ==> LeBytes(Decode(bigEndian, bs), |bs|) == bs
    ensures !bigEndian ==> BeBytes(Decode(bigEndian, bs), |bs|) == bs
  {
    if bigEndian {
      LeBytesInverse(bs);
    } else {
      BeBytesInverse(bs);
    }
  }

  /** `struct.unpack` of an unsigned field of `width` bytes. Exactly `width`
      bytes are consumed; fewer than `width` left is a struct.error. */
  function ReadUnsigned(r: Reader, width: nat): (res: Result<Step<nat>>)
    ensures res.Ok? <==> width <= Remaining(r)
    ensures res.Err? ==> res.error == StructError
    ensures res.Ok? ==> res.value.next == Advance(r, width) && res.value.value < Pow256(width)
  {
    var chunk := Read(r, width);
    if |chunk.value| < width then Err(StructError)
    else Ok(Step(Decode(r.bigEndian, chunk.value), chunk.next))
  }

  /** With the default flag a field is read least significant byte first. */
  lemma DefaultFlagReadsLittleEndian(r: Reader, v: nat, width: nat)
    requires r.bigEndian && v < Pow256(width) && At(r, LeBytes(v, width))
    ensures ReadUnsigned(r, width) == Ok(Step(v, Advance(r, width)))
  {
    assert Read(r, width).value == LeBytes(v, width);
    LittleEndianInverse(v, width);
  }

  /** With the flag `false` a field is read most significant byte first. */
  lemma FalseFlagReadsBigEndian(r: Reader, v: nat, width: nat)
    requires !r.bigEndian && v < Pow256(width) && At(r, BeBytes(v, width))
    ensures ReadUnsigned(r, width) == Ok(Step(v, Advance(r, width)))
  {
    assert Read(r, width).value == BeBytes(v, width);
    BigEndianInverse(v, width);
  }

  /** With the default flag a successful read is the little-endian value of
      the bytes at the cursor. */
  lemma DefaultFlagReadIsSlice(r: Reader, width: nat)
    requires r.bigEndian && width >= 1 && ReadUnsigned(r, width).Ok?
    ensures ReadUnsigned(r, width).value.value == LittleEndian(r.data[r.pos .. r.pos + width])
  {
    assert Read(r, width).value == r.data[r.pos .. r.pos + width];
  }

  /** A successful read with the default flag stored its value in
      little-endian order at the cursor. */
  lemma DefaultFlagReadIsStored(r: Reader, width: nat)
    requires r.bigEndian && width >= 1 && ReadUnsigned(r, width).Ok?
    ensures At(r, LeBytes(ReadUnsigned(r, width).value.value, width))
  {
    var bs := Read(r, width).value;
    assert bs == r.data[r.pos .. r.pos + width];
    LeBytesInverse(bs);
  }

  /** The two-byte word `[a, b]`: `a + 256 * b` by default, `256 * a + b`
      with the flag `false`. */
  lemma U16ByteOrder(a: byte, b: byte)
    ensures ReadUnsigned(Reader([a, b], 0, true), 2) == Ok(Step(a + 256 * b, Reader([a, b], 2, true)))
    ensures ReadUnsigned(Reader([a, b], 0, false), 2) == Ok(Step(256 * a + b, Reader([a, b], 2, false)))
  {
    assert [a, b][1..] == [b] && [b][1..] == [];
    assert [a, b][..1] == [a] && [a][..0] == [];
    assert LittleEndian([b]) == b;
    assert LittleEndian([a, b]) == a + 256 * b;
    assert BigEndian([a]) == a;
    assert BigEndian([a, b]) == 256 * a + b;
    assert Read(Reader([a, b], 0, true), 2).value == [a, b];
    assert Read(Reader([a, b], 0, false), 2).value == [a, b];
  }

  /** The scalar formats of `_SUPPORTED_TYPES`. */
  datatype ScalarKind = U8 | U16 | U32 | U64 | I8 | I16 | I32 | I64 | F32 | F64 {

    function Width(): nat
    {
      match this
      case U8 | I8 => 1
      case U16 | I16 => 2
      case U32 | I32 | F32 => 4
      case U64 | I64 | F64 => 8
    }

    predicate IsUnsigned()
    {
      this in {U8, U16, U32, U64}
    }

    predicate IsSigned()
    {
      this in {I8, I16, I32, I64}
    }
  }

  /** A decoded scalar: unsigned, two's-complement signed, or a float's bits. */
  datatype Scalar = Unsigned(n: nat) | Signed(i: int) | Float(bits: nat)

  /** `reader.<kind>` through `__getattr__`: `kind.Width()` bytes are consumed
      and decoded; fewer left is a struct.error. */
  function ReadScalar(r: Reader, kind: ScalarKind): (res: Result<Step<Scalar>>)
    ensures res.Ok? <==> r.pos + kind.Width() <= |r.data|
    ensures res.Err? ==> res.error == StructError
    ensures res.Ok? ==> res.value.next == Advance(r, kind.Width())
    ensures res.Ok? && kind.IsUnsigned() ==>
              res.value.value.Unsigned? && res.value.value.n < Pow256(kind.Width())
    ensures res.Ok? && kind.IsSigned() ==>
              res.value.value.Signed? &&
              -128 * Pow256(kind.Width() - 1) <= res.value.value.i < 128 * Pow256(kind.Width() - 1)
    ensures res.Ok? && !kind.IsUnsigned() && !kind.IsSigned() ==> res.value.value.Float?
  {
    var raw :- ReadUnsigned(r, kind.Width());
    var value :=
      if kind.IsUnsigned() then Unsigned(raw.value)
      else if kind.IsSigned() then Signed(ToSigned(raw.value, kind.Width()))
      else Float(raw.value);
    Ok(Step(value, raw.next))
  }

  /** Every format reads back the word stored at the cursor in the flag's
      byte order (least significant first under the default flag): an
      unsigned or float word as itself, a signed one through two's
      complement. */
  lemma ScalarRoundTrip(r: Reader, kind: ScalarKind, n: nat)
    requires n < Pow256(kind.Width())
    requires if r.bigEndian then At(r, LeBytes(n, kind.Width())) else At(r, BeBytes(n, kind.Width()))
    ensures kind.IsUnsigned() ==> ReadScalar(r, kind) == Ok(Step(Unsigned(n), Advance(r, kind.Width())))
    ensures kind.IsSigned() ==>
              ReadScalar(r, kind) == Ok(Step(Signed(ToSigned(n, kind.Width())), Advance(r, kind.Width())))
    ensures !kind.IsUnsigned() && !kind.IsSigned() ==>
              ReadScalar(r, kind) == Ok(Step(Float(n), Advance(r, kind.Width())))
  {
    if r.bigEndian {
      DefaultFlagReadsLittleEndian(r, n, kind.Width());
    } else {
      FalseFlagReadsBigEndian(r, n, kind.Width());
    }
  }

  /** Conversely, every successful read is of that form: the bytes at the
      cursor store, in the flag's byte order, the word the result carries. */
  lemma ScalarIsStored(r: Reader, kind: ScalarKind)
    requires ReadScalar(r, kind).Ok?
    ensures var n := Decode(r.bigEndian, r.data[r.pos .. r.pos + kind.Width()]);
      && (r.bigEndian ==> At(r, LeBytes(n, kind.Width())))
      && (!r.bigEndian ==> At(r, BeBytes(n, kind.Width())))
      && (kind.IsUnsigned() ==> ReadScalar(r, kind).value.value == Unsigned(n))
      && (kind.IsSigned() ==> ReadScalar(r, kind).value.value == Signed(ToSigned(n, kind.Width())))
      && (!kind.IsUnsigned() && !kind.IsSigned() ==> ReadScalar(r, kind).value.value == Float(n))
  {
    var bs := r.data[r.pos .. r.pos + kind.Width()];
    DecodeIsStored(r.bigEndian, bs);
    ScalarRoundTrip(r, kind, Decode(r.bigEndian, bs));
  }

  /** A signed value stored in two's complement reads back as itself. */
  lemma SignedScalarRoundTrip(r: Reader, kind: ScalarKind, i: int)
    requires kind.IsSigned() && -128 * Pow256(kind.Width() - 1) <= i < 128 * Pow256(kind.Width() - 1)
    requires r.bigEndian ==> At(r, LeBytes(FromSigned(i, kind.Width()), kind.Width()))
    requires !r.bigEndian ==> At(r, BeBytes(FromSigned(i, kind.Width()), kind.Width()))
    ensures ReadScalar(r, kind) == Ok(Step(Signed(i), Advance(r, kind.Width())))
  {
    var n := FromSigned(i, kind.Width());
    ScalarRoundTrip(r, kind, n);
    SignedRoundTrip(i, kind.Width());
  }

  /** `reader.u8`: the byte under the cursor, whatever the flag. */
  function ReadU8(r: Reader): (res: Result<Step<byte>>)
    ensures res.Ok? <==> r.pos < |r.data|
    ensures res.Err? ==> res.error == StructError
    ensures res.Ok? ==> res.value.next == Advance(r, 1) && res.value.value == r.data[r.pos]
  {
    var raw :- ReadUnsigned(r, 1);
    var bs := Read(r, 1).value;
    assert bs == [r.data[r.pos]] && bs[1..] == [] && bs[..0] == [];
    Ok(Step(raw.value, raw.next))
  }

  function ReadU16(r: Reader): (res: Result<Step<nat>>)
    ensures res.Ok? <==> r.pos + 2 <= |r.data|
    ensures res.Err? ==> res.error == StructError
    ensures res.Ok? ==> res.value.next == Advance(r, 2) && res.value.value < 0x1_0000
  {
    ReadUnsigned(r, 2)
  }

  function ReadU32(r: Reader): (res: Result<Step<nat>>)
    ensures res.Ok? <==> r.pos + 4 <= |r.data|
    ensures res.Err? ==> res.error == StructError
    ensures res.Ok? ==> res.value.next == Advance(r, 4) && res.value.value < 0x1_0000_0000
  {
    ReadUnsigned(r, 4)
  }

  function ReadI16(r: Reader): (res: Result<Step<int>>)
    ensures res.Ok? <==> r.pos + 2 <= |r.data|
    ensures res.Err? ==> res.error == StructError
    ensures res.Ok? ==> res.value.next == Advance(r, 2) && -0x8000 <= res.value.value < 0x8000
  {
    var raw :- ReadUnsigned(r, 2);
    Ok(Step(ToSigned(raw.value, 2), raw.next))
  }

  function ReadF32(r: Reader): (res: Result<Step<Float32>>)
    ensures res.Ok? <==> r.pos + 4 <= |r.data|
    ensures res.Err? ==> res.error == StructError
    ensures res.Ok? ==> res.value.next == Advance(r, 4) && res.value.value.bits < 0x1_0000_0000
  {
    var raw :- ReadUnsigned(r, 4);
    Ok(Step(Float32(raw.value), raw.next))
  }

  /** Bit 0x40 of the first vint byte: the sign. */
  predicate SignBit(b: byte)
  {
    (b / 64) % 2 == 1
  }

  /** The magnitude `m`, negated when the first byte's sign bit is set. */
  function ApplySign(first: byte, m: nat): (v: int)
    ensures v < 0 ==> SignBit(first)
    ensures v > 0 ==> !SignBit(first)
    ensures v == m || v == -(m as int)
  {
    if SignBit(first) then -(m as int) else m
  }

  /** Byte `j` of `data` exists and has its continuation bit set. */
  predicate Continued(data: seq<byte>, j: int)
  {
    0 <= j < |data| && data[j] >= 128
  }

  /** Byte `j` of `data` exists and has its continuation bit clear. */
  predicate Final(data: seq<byte>, j: int)
  {
    0 <= j < |data| && data[j] < 128
  }

  /** Some byte at or after the cursor has its continuation bit clear. */
  ghost predicate Terminated(r: Reader)
  {
    exists j :: r.pos <= j && Final(r.data, j)
  }

  /** `next` is `r` moved past a continuation chain: every byte but the last
      has bit 0x80 set, and the last has it clear. */
  ghost predicate ChainRead(r: Reader, next: Reader)
  {
    && next.data == r.data && next.bigEndian == r.bigEndian
    && r.pos < next.pos <= |r.data|
    && Final(r.data, next.pos - 1)
    && forall j :: r.pos <= j < next.pos - 1 ==> Continued(r.data, j)
  }

  /** A byte with the continuation bit set does not end a chain: a chain
      from `r` ends exactly where one from the next byte does. */
  lemma ContinuedChain(r: Reader)
    requires r.pos < |r.data| && r.data[r.pos] >= 128
    ensures Terminated(r) <==> Terminated(Advance(r, 1))
    ensures forall next :: ChainRead(Advance(r, 1), next) ==> ChainRead(r, next)
  {
    if Terminated(r) {
      var j :| r.pos <= j && Final(r.data, j);
      assert j != r.pos;
    }
  }

  /** The trailing bytes of a vint: each contributes its low 7 bits shifted
      left by `shift`, and `shift` grows by 7 per byte. */
  function VIntTail(r: Reader, shift: nat): (res: Result<Step<nat>>)
    ensures res.Ok? <==> Terminated(r)
    ensures res.Err? ==> res.error == StructError
    ensures res.Ok? ==> ChainRead(r, res.value.next)
    decreases Remaining(r)
  {
    var c :- ReadU8(r);
    var part := (c.value % 128) * Pow2(shift);
    if c.value >= 128 then
      ContinuedChain(r);
      var more :- VIntTail(c.next, shift + 7);
      Ok(Step(part + more.value, more.next))
    else
      assert Final(r.data, r.pos);
      Ok(Step(part, c.next))
  }

  /** `reader.vint`: the protocol's variable-length signed integer. */
  function ReadVInt(r: Reader): (res: Result<Step<int>>)
    ensures res.Ok? <==> Terminated(r)
    ensures res.Err? ==> res.error == StructError
    ensures res.Ok? ==> ChainRead(r, res.value.next)
    ensures r.pos < |r.data| && r.data[r.pos] < 128 ==>
              res.Ok? && res.value.next == Advance(r, 1) &&
              res.value.value == (if SignBit(r.data[r.pos]) then -(r.data[r.pos] as int % 64) else r.data[r.pos] % 64)
    ensures res.Ok? && res.value.value < 0 ==> SignBit(r.data[r.pos])
    ensures res.Ok? && res.value.value > 0 ==> !SignBit(r.data[r.pos])
  {
    var first :- ReadU8(r);
    var b := first.value;
    if b < 128 then
      assert Final(r.data, r.pos);
      Ok(Step(ApplySign(b, b % 64), first.next))
    else
      ContinuedChain(r);
      var tail :- VIntTail(first.next, 6);
      Ok(Step(ApplySign(b, b % 64 + tail.value), tail.next))
  }

  /** `cstr`: the bytes up to the first zero, which is consumed too. With no
      zero left, the one-byte read comes back empty and indexing it is an
      IndexError. */
  function ReadCStr(r: Reader): (res: Result<Step<seq<byte>>>)
    ensures res.Ok? <==> exists j :: r.pos <= j < |r.data| && r.data[j] == 0
    ensures res.Err? ==> res.error == IndexError
    ensures res.Ok? ==> 0 !in res.value.value && At(r, res.value.value + [0])
    ensures res.Ok? ==> res.value.next == Advance(r, |res.value.value| + 1)
    decreases Remaining(r)
  {
    if r.pos >= |r.data| then Err(IndexError)
    else if r.data[r.pos] == 0 then Ok(Step([], Advance(r, 1)))
    else
      var rest :- ReadCStr(Advance(r, 1));
      CStrPrepend(r, rest.value, rest.next);
      Ok(Step([r.data[r.pos]] + rest.value, rest.next))
  }

  /** A nonzero byte in front of a terminated string extends it by one. */
  lemma CStrPrepend(r: Reader, s: seq<byte>, next: Reader)
    requires r.pos < |r.data| && r.data[r.pos] != 0
    requires 0 !in s && At(Advance(r, 1), s + [0]) && next == Advance(Advance(r, 1), |s| + 1)
    ensures 0 !in [r.data[r.pos]] + s && At(r, [r.data[r.pos]] + s + [0])
    ensures next == Advance(r, |[r.data[r.pos]] + s| + 1)
  {
    AtPrepend(r, s + [0]);
    assert [r.data[r.pos]] + (s + [0]) == [r.data[r.pos]] + s + [0];
  }

  /** The bytes of `s` before its first zero. */
  function UntilZero(s: seq<byte>): (t: seq<byte>)
    ensures |t| <= |s| && 0 !in t
    ensures t == s[..|t|]
    ensures |t| < |s| ==> s[|t|] == 0
  {
    if |s| == 0 || s[0] == 0 then []
    else
      var rest := UntilZero(s[1..]);
      assert s[..1 + |rest|] == [s[0]] + s[1..][..|rest|];
      [s[0]] + rest
  }

  /** `rpad_str(size)`: a window of up to `size` bytes is consumed, and the
      part before its first zero is returned. */
  function ReadPadded(r: Reader, size: int): (res: Step<seq<byte>>)
    ensures res.next == Advance(r, if 0 <= size <= Remaining(r) then size else Remaining(r))
    ensures 0 !in res.value && |res.value| <= |Read(r, size).value|
    ensures res.value == Read(r, size).value[..|res.value|]
    ensures |res.value| < |Read(r, size).value| ==> Read(r, size).value[|res.value|] == 0
  {
    var window := Read(r, size);
    Step(UntilZero(window.value), window.next)
  }

  /** A name padded with zeros to its field width reads back unchanged. */
  lemma ReadPaddedRoundTrip(r: Reader, name: seq<byte>, width: nat)
    requires |name| <= width && 0 !in name
    requires At(r, name + Zeros(width - |name|))
    ensures ReadPadded(r, width) == Step(name, Advance(r, width))
  {
    var window := name + Zeros(width - |name|);
    assert Read(r, width).value == window;
    UntilZeroOfPadded(name, width - |name|);
  }

  lemma {:induction false} UntilZeroOfPadded(name: seq<byte>, pad: nat)
    requires 0 !in name
    ensures UntilZero(name + Zeros(pad)) == name
    decreases |name|
  {
    var window := name + Zeros(pad);
    if |name| == 0 {
      assert window == Zeros(pad);
    } else {
      assert window[0] == name[0] && window[1..] == name[1..] + Zeros(pad);
      UntilZeroOfPadded(name[1..], pad);
    }
  }
}

=== FILE: byte_order.dfy ===
/** Bytes, powers and the two byte orders a fixed-width field can be read in. */
module ByteOrder {

  /** One octet. The source's bit tests are written arithmetically on it:
      `b & 0x80` is set iff `b >= 128`, `b & 0x7f` is `b % 128`,
      `b & 0x40` is set iff `(b / 64) % 2 == 1`, and `b & 0x3f` is `b % 64`. */
  type byte = b: int | 0 <= b < 256

  function Pow2(n: nat): (p: nat)
    ensures p >= 1
  {
    if n == 0 then 1 else 2 * Pow2(n - 1)
  }

  function Pow256(n: nat): (p: nat)
    ensures p >= 1
  {
    if n == 0 then 1 else 256 * Pow256(n - 1)
  }

  /** The unsigned value of `bs` read least significant byte first. */
  function LittleEndian(bs: seq<byte>): (v: nat)
    ensures v < Pow256(|bs|)
  {
    if |bs| == 0 then 0 else bs[0] + 256 * LittleEndian(bs[1..])
  }

  /** The unsigned value of `bs` read most significant byte first. */
  function BigEndian(bs: seq<byte>): (v: nat)
    ensures v < Pow256(|bs|)
  {
    if |bs| == 0 then 0 else 256 * BigEndian(bs[..|bs| - 1]) + bs[|bs| - 1]
  }

  /** `v` written in `width` bytes, least significant first. */
  function LeBytes(v: nat, width: nat): (bs: seq<byte>)
    ensures |bs| == width
  {
    if width == 0 then [] else [v % 256] + LeBytes(v / 256, width - 1)
  }

  /** `v` written in `width` bytes, most significant first. */
  function BeBytes(v: nat, width: nat): (bs: seq<byte>)
    ensures |bs| == width
  {
    if width == 0 then [] else BeBytes(v / 256, width - 1) + [v % 256]
  }

  /** `width` zero bytes. */
  function Zeros(width: nat): (bs: seq<byte>)
    ensures |bs| == width
    ensures forall i :: 0 <= i < width ==> bs[i] == 0
  {
    seq(width, _ => 0)
  }

  lemma {:induction false} LittleEndianInverse(v: nat, width: nat)
    requires v < Pow256(width)
    ensures LittleEndian(LeBytes(v, width)) == v
    decreases width
  {
    if width > 0 {
      var bs := LeBytes(v, width);
      assert bs[1..] == LeBytes(v / 256, width - 1);
      LittleEndianInverse(v / 256, width - 1);
    }
  }

  lemma {:induction false} LeBytesInverse(bs: seq<byte>)
    ensures LeBytes(LittleEndian(bs), |bs|) == bs
    decreases |bs|
  {
    if |bs| > 0 {
      var v := LittleEndian(bs);
      assert v % 256 == bs[0] && v / 256 == LittleEndian(bs[1..]);
      LeBytesInverse(bs[1..]);
    }
  }

  lemma {:induction false} BigEndianInverse(v: nat, width: nat)
    requires v < Pow256(width)
    ensures BigEndian(BeBytes(v, width)) == v
    decreases width
  {
    if width > 0 {
      var bs := BeBytes(v, width);
      assert bs[..width - 1] == BeBytes(v / 256, width - 1);
      BigEndianInverse(v / 256, width - 1);
    }
  }

  lemma {:induction false} BeBytesInverse(bs: seq<byte>)
    ensures BeBytes(BigEndian(bs), |bs|) == bs
    decreases |bs|
  {
    if |bs| > 0 {
      var n := |bs| - 1;
      var v := BigEndian(bs);
      assert v % 256 == bs[n] && v / 256 == BigEndian(bs[..n]);
      BeBytesInverse(bs[..n]);
      assert bs == bs[..n] + [bs[n]];
    }
  }

  lemma {:induction false} Pow2Add(a: nat, b: nat)
    ensures Pow2(a + b) == Pow2(a) * Pow2(b)
    decreases a
  {
    if a > 0 {
      Pow2Add(a - 1, b);
    }
  }

  /** Two's-complement reading of an unsigned `width`-byte value. */
  function ToSigned(v: nat, width: nat): (s: int)
    requires width >= 1 && v < Pow256(width)
    ensures -128 * Pow256(width - 1) <= s < 128 * Pow256(width - 1)
    ensures s >= 0 <==> v < 128 * Pow256(width - 1)
    ensures s == v || s == v - Pow256(width)
  {
    if v >= 128 * Pow256(width - 1) then v - Pow256(width) else v
  }

  /** The unsigned pattern that stores `s` in two's complement. */
  function FromSigned(s: int, width: nat): (v: nat)
    requires width >= 1 && -128 * Pow256(width - 1) <= s < 128 * Pow256(width - 1)
    ensures v < Pow256(width)
  {
    if s < 0 then s + Pow256(width) else s
  }

  lemma SignedRoundTrip(s: int, width: nat)
    requires width >= 1 && -128 * Pow256(width - 1) <= s < 128 * Pow256(width - 1)
    ensures ToSigned(FromSigned(s, width), width) == s
  {
  }
}

=== FILE: company_info.dfy ===
/** The F10 company information (api.py, `get_company_info_entry` and
`get_company_info_content`).

The entry list is a two-byte count followed by 152-byte records: a name in a
64-byte NUL-padded field, a file name in an 80-byte one, and the start offset
and length (u32 each) of that section inside the file. The content response
carries 10 bytes the client ignores, a u16 length and then the text itself.
Text is kept as the stored bytes; its decoding is not part of this model.
 */
module CompanyInfo {
  import opened Results
  import opened ByteOrder
  import opened BinaryReader
  import opened Wire

  /** One section of the company file, fields in wire order. */
  datatype Entry = Entry(name: seq<byte>, fileName: seq<byte>, start: nat, length: nat)

  /** Every record is a fixed 152 bytes. */
  const EntrySize: nat := 64 + 80 + 4 + 4

  /** One record: the padded strings never fail, the two u32 fields can. */
  function ReadEntry(r: Reader): (res: Result<Step<Entry>>)
    ensures res.Ok? <==> Remaining(r) >= EntrySize
    ensures res.Err? ==> res.error == StructError
    ensures res.Ok? ==> res.value.next == Advance(r, EntrySize)
    ensures res.Ok? ==> var e := res.value.value;
                        0 !in e.name && |e.name| <= 64 && 0 !in e.fileName && |e.fileName| <= 80
                        && e.start < 0x1_0000_0000 && e.length < 0x1_0000_0000
  {
    var name := ReadPadded(r, 64);
    var fileName := ReadPadded(name.next, 80);
    var start :- ReadU32(fileName.next);
    var length :- ReadU32(start.next);
    Ok(Step(Entry(name.value, fileName.value, start.value, length.value), length.next))
  }

  /** `count` records in a row; the records being of one size, they decode
      exactly when the bytes left hold all of them. */
  function DecodeEntries(r: Reader, count: nat): (res: Result<Step<seq<Entry>>>)
    ensures res.Ok? <==> EntrySize * count <= Remaining(r)
    ensures res.Err? ==> res.error == StructError
    ensures res.Ok? ==> |res.value.value| == count && res.value.next == Advance(r, EntrySize * count)
    decreases count
  {
    if count == 0 then Ok(Step([], r))
    else
      var first :- ReadEntry(r);
      var rest :- DecodeEntries(first.next, count - 1);
      Ok(Step([first.value] + rest.value, rest.next))
  }

  /** `get_company_info_entry`, from the inflated payload on. */
  function GetCompanyInfoEntry(payload: seq<byte>): (res: Result<seq<Entry>>)
    ensures res.Ok? <==> |payload| >= 2 && 2 + EntrySize * LittleEndian(payload[0..2]) <= |payload|
    ensures res.Err? ==> res.error == StructError
    ensures res.Ok? ==> |res.value| == LittleEndian(payload[0..2])
  {
    var count :- ReadCount(payload, 0);
    var entries :- DecodeEntries(count.next, count.value);
    Ok(entries.value)
  }

  /** `get_company_info_content`: the text after the ignored 10 bytes and
      the u16 length; a payload that stops early gives the text up to its
      end, as a short `read` does. */
  function GetCompanyInfoContent(payload: seq<byte>): (res: Result<seq<byte>>)
    ensures res.Ok? <==> |payload| >= 12
    ensures res.Err? ==> res.error == StructError
    ensures res.Ok? ==> var n := LittleEndian(payload[10..12]);
                        res.value == payload[12 .. if 12 + n <= |payload| then 12 + n else |payload|]
  {
    var ignored := Read(Open(payload), 10);
    var length :- ReadU16(ignored.next);
    DefaultFlagReadIsSlice(ignored.next, 2);
    Ok(Read(length.next, length.value).value)
  }

  // ---------------------------------------------------------------------
  // Writing records

  predicate EntryFits(e: Entry)
  {
    && 0 !in e.name && |e.name| <= 64 && 0 !in e.fileName && |e.fileName| <= 80
    && e.start < 0x1_0000_0000 && e.length < 0x1_0000_0000
  }

  function EncodeEntry(e: Entry): (bs: seq<byte>)
    requires EntryFits(e)
    ensures |bs| == EntrySize
  {
    (e.name + Zeros(64 - |e.name|))
    + ((e.fileName + Zeros(80 - |e.fileName|))
    + (EncodeU32(e.start)
    + EncodeU32(e.length)))
  }

  predicate AllFit(es: seq<Entry>)
  {
    forall i :: 0 <= i < |es| ==> EntryFits(es[i])
  }

  function EncodeEntries(es: seq<Entry>): (bs: seq<byte>)
    requires AllFit(es)
    ensures |bs| == EntrySize * |es|
  {
    if |es| == 0 then [] else EncodeEntry(es[0]) + EncodeEntries(es[1..])
  }

  lemma EntryRoundTrip(r: Reader, e: Entry)
    requires r.bigEndian && EntryFits(e) && At(r, EncodeEntry(e))
    ensures ReadEntry(r) == Ok(Step(e, Advance(r, EntrySize)))
  {
    var name := e.name + Zeros(64 - |e.name|);
    var fileName := e.fileName + Zeros(80 - |e.fileName|);
    var start := EncodeU32(e.start);
    var length := EncodeU32(e.length);
    AtConcat(r, name, fileName + (start + length));
    var r1 := Advance(r, 64);
    AtConcat(r1, fileName, start + length);
    var r2 := Advance(r1, 80);
    AtConcat(r2, start, length);
    var r3 := Advance(r2, 4);
    var r4 := Advance(r3, 4);
    assert r4 == Advance(r, EntrySize);
    ReadPaddedRoundTrip(r, e.name, 64);
    ReadPaddedRoundTrip(r1, e.fileName, 80);
    U32RoundTrip(r2, e.start);
    U32RoundTrip(r3, e.length);
    EntryFromParts(r, e, r1, r2, r3, r4);
  }

  lemma EntryFromParts(r: Reader, e: Entry, r1: Reader, r2: Reader, r3: Reader, r4: Reader)
    requires ReadPadded(r, 64) == Step(e.name, r1) && ReadPadded(r1, 80) == Step(e.fileName, r2)
    requires ReadU32(r2) == Ok(Step(e.start, r3)) && ReadU32(r3) == Ok(Step(e.length, r4))
    ensures ReadEntry(r) == Ok(Step(e, r4))
  {
  }

  lemma {:induction false} EntriesRoundTrip(r: Reader, es: seq<Entry>)
    requires r.bigEndian && AllFit(es) && At(r, EncodeEntries(es))
    ensures DecodeEntries(r, |es|) == Ok(Step(es, Advance(r, EntrySize * |es|)))
    decreases |es|
  {
    if |es| > 0 {
      var mid := Advance(r, EntrySize);
      var after := Advance(r, EntrySize * |es|);
      EntriesSplit(r, es);
      EntriesRoundTrip(mid, es[1..]);
      assert Advance(mid, EntrySize * |es[1..]|) == after;
      EntriesStep(r, es, mid, after);
    }
  }

  lemma EntriesSplit(r: Reader, es: seq<Entry>)
    requires r.bigEndian && |es| > 0 && AllFit(es) && At(r, EncodeEntries(es))
    ensures AllFit(es[1..])
    ensures ReadEntry(r) == Ok(Step(es[0], Advance(r, EntrySize)))
    ensures At(Advance(r, EntrySize), EncodeEntries(es[1..]))
  {
    assert AllFit(es[1..]) by {
      forall i | 0 <= i < |es| - 1 ensures es[1..][i] == es[i + 1] { }
    }
    assert EncodeEntries(es) == EncodeEntry(es[0]) + EncodeEntries(es[1..]);
    AtConcat(r, EncodeEntry(es[0]), EncodeEntries(es[1..]));
    EntryRoundTrip(r, es[0]);
  }

  lemma EntriesStep(r: Reader, es: seq<Entry>, mid: Reader, after: Reader)
    requires |es| > 0 && ReadEntry(r) == Ok(Step(es[0], mid))
    requires DecodeEntries(mid, |es[1..]|) == Ok(Step(es[1..], after))
    ensures DecodeEntries(r, |es|) == Ok(Step(es, after))
  {
    EntriesFromParts(r, |es|, Step(es[0], mid), Step(es[1..], after));
    HeadTail(es);
  }

  lemma EntriesFromParts(r: Reader, count: nat, first: Step<Entry>, rest: Step<seq<Entry>>)
    requires count > 0 && ReadEntry(r) == Ok(first) && DecodeEntries(first.next, count - 1) == Ok(rest)
    ensures DecodeEntries(r, count) == Ok(Step([first.value] + rest.value, rest.next))
  {
  }

  /** An entry list written as a count and its records decodes to those
      records. */
  lemma CompanyInfoEntryRoundTrip(es: seq<Entry>)
    requires |es| < 0x1_0000 && AllFit(es)
    ensures GetCompanyInfoEntry(EncodeU16(|es|) + EncodeEntries(es)) == Ok(es)
  {
    var payload := EncodeU16(|es|) + EncodeEntries(es);
    var body := Advance(Open(payload), 2);
    LeadingCountRoundTrip(|es|, EncodeEntries(es));
    EntriesRoundTrip(body, es);
    EntryResponseFromParts(payload, Step(|es|, body), Step(es, Advance(body, EntrySize * |es|)));
  }

  lemma EntryResponseFromParts(payload: seq<byte>, count: Step<nat>, entries: Step<seq<Entry>>)
    requires ReadCount(payload, 0) == Ok(count) && DecodeEntries(count.next, count.value) == Ok(entries)
    ensures GetCompanyInfoEntry(payload) == Ok(entries.value)
  {
  }

  /** Content written after any 10 bytes with its length in front reads
      back, whatever the server appends after it. */
  lemma CompanyInfoContentRoundTrip(lead: seq<byte>, text: seq<byte>, trailing: seq<byte>)
    requires |lead| == 10 && |text| < 0x1_0000
    ensures GetCompanyInfoContent(lead + EncodeU16(|text|) + text + trailing) == Ok(text)
  {
    var head := lead + EncodeU16(|text|);
    var payload := head + text + trailing;
    assert head[10..12] == EncodeU16(|text|);
    assert payload[10..12] == head[10..12];
    LittleEndianInverse(|text|, 2);
    assert payload[12 .. 12 + |text|] == text;
  }
}

=== FILE: dates.dfy ===
/** The packed timestamps of api.py (`_get_datetime`, `_get_time`).

A bar timestamp takes four bytes in one of two layouts chosen only by the
K-line category: two 16-bit words (a "zipday" with the year offset from 2004
in its top 5 bits and month*100+day below, then minutes since midnight), or
one 32-bit decimal YYYYMMDD with the time fixed at 15:00. Tick records carry
a single 16-bit minutes-since-midnight word. The decoded fields go through
Python's `datetime`/`time` constructors, which reject impossible values with
a ValueError; that check is `ValidDateTime` here.
 */
module Dates {
  import opened Results
  import opened ByteOrder
  import opened BinaryReader

  /** `Api.KLineCategory`, with the enum values of the source. */
  datatype KLineCategory =
    | K5 | K15 | K30 | K60 | KDaily | KWeek | KMonth | PerMinute | K1 | KDay | KSeason | KYear
  {
    function Value(): nat
    {
      match this
      case K5 => 0
      case K15 => 1
      case K30 => 2
      case K60 => 3
      case KDaily => 4
      case KWeek => 5
      case KMonth => 6
      case PerMinute => 7
      case K1 => 8
      case KDay => 9
      case KSeason => 10
      case KYear => 11
    }
  }

  /** The test `_get_datetime` uses to pick the zipday/minutes layout. */
  /** Exactly the sub-daily categories pass it. */
  predicate UsesMinuteStamp(c: KLineCategory)
    ensures UsesMinuteStamp(c) <==> c in {K5, K15, K30, K60, PerMinute, K1}
  {
    c.Value() < KDaily.Value() || c == PerMinute || c == K1
  }

  datatype DateTime = DateTime(year: int, month: int, day: int, hour: int, minute: int)
  datatype TimeOfDay = TimeOfDay(hour: int, minute: int)

  predicate IsLeapYear(y: int)
  {
    y % 4 == 0 && (y % 100 != 0 || y % 400 == 0)
  }

  function DaysInMonth(y: int, m: int): int
    requires 1 <= m <= 12
  {
    if m == 2 then (if IsLeapYear(y) then 29 else 28)
    else if m in {4, 6, 9, 11} then 30
    else 31
  }

  predicate ValidTime(hour: int, minute: int)
  {
    0 <= hour < 24 && 0 <= minute < 60
  }

  /** What Python's `datetime` constructor accepts. */
  predicate ValidDateTime(dt: DateTime)
    ensures ValidDateTime(dt) ==> 1 <= dt.day <= 31 && 0 <= dt.hour < 24 && 0 <= dt.minute < 60
    ensures ValidDateTime(dt) && dt.month == 2 ==> dt.day <= 29
    ensures ValidDateTime(dt) && dt.month == 2 && dt.day == 29 ==> dt.year % 4 == 0 && (dt.year % 100 == 0 ==> dt.year % 400 == 0)
    ensures ValidDateTime(dt) && dt.month in {4, 6, 9, 11} ==> dt.day <= 30
  {
    && 1 <= dt.year <= 9999
    && 1 <= dt.month <= 12
    && 1 <= dt.day <= DaysInMonth(dt.year, dt.month)
    && ValidTime(dt.hour, dt.minute)
  }

  /** `datetime.datetime(y, mo, d, h, mi)`. */
  function MakeDateTime(y: int, mo: int, d: int, h: int, mi: int): (res: Result<DateTime>)
    ensures res.Ok? <==> ValidDateTime(DateTime(y, mo, d, h, mi))
    ensures res.Ok? ==> res.value == DateTime(y, mo, d, h, mi)
    ensures res.Err? ==> res.error == ValueError
  {
    var dt := DateTime(y, mo, d, h, mi);
    if ValidDateTime(dt) then Ok(dt) else Err(ValueError)
  }

  /** `datetime.time(h, mi)`. */
  function MakeTime(h: int, mi: int): (res: Result<TimeOfDay>)
    ensures res.Ok? <==> ValidTime(h, mi)
    ensures res.Ok? ==> res.value == TimeOfDay(h, mi)
    ensures res.Err? ==> res.error == ValueError
  {
    if ValidTime(h, mi) then Ok(TimeOfDay(h, mi)) else Err(ValueError)
  }

  /** `_get_time`: one 16-bit word of minutes since midnight. */
  function GetTime(r: Reader): (res: Result<Step<TimeOfDay>>)
    ensures res.Err? && res.error == StructError <==> r.pos + 2 > |r.data|
    ensures res.Err? ==> res.error in {StructError, ValueError}
    ensures res.Ok? ==> res.value.next == Advance(r, 2) && ValidTime(res.value.value.hour, res.value.value.minute)
  {
    var word :- ReadU16(r);
    var t :- MakeTime(word.value / 60, word.value % 60);
    Ok(Step(t, word.next))
  }

  /** `_get_datetime`: four bytes in the layout the category selects. A
      short buffer is a struct.error before any field is interpreted; an
      impossible calendar value is a ValueError. */
  function GetDateTime(c: KLineCategory, r: Reader): (res: Result<Step<DateTime>>)
    ensures res.Err? && res.error == StructError <==> r.pos + 4 > |r.data|
    ensures res.Err? ==> res.error in {StructError, ValueError}
    ensures res.Ok? ==> res.value.next == Advance(r, 4) && ValidDateTime(res.value.value)
    ensures res.Ok? && UsesMinuteStamp(c) ==> 2004 <= res.value.value.year <= 2035
    ensures res.Ok? && !UsesMinuteStamp(c) ==> res.value.value.hour == 15 && res.value.value.minute == 0
  {
    if UsesMinuteStamp(c) then
      var zipday :- ReadU16(r);
      var tminutes :- ReadU16(zipday.next);
      var dt :- MakeDateTime(zipday.value / 2048 + 2004,
                             (zipday.value % 2048) / 100,
                             (zipday.value % 2048) % 100,
                             tminutes.value / 60,
                             tminutes.value % 60);
      Ok(Step(dt, tminutes.next))
    else
      var ymd :- ReadU32(r);
      var dt :- MakeDateTime(ymd.value / 10000, (ymd.value % 10000) / 100, ymd.value % 100, 15, 0);
      Ok(Step(dt, ymd.next))
  }

  /** The timestamps the category's layout can carry. */
  predicate Encodable(c: KLineCategory, dt: DateTime)
  {
    && ValidDateTime(dt)
    && (UsesMinuteStamp(c) ==> 2004 <= dt.year <= 2035)
    && (!UsesMinuteStamp(c) ==> dt.hour == 15 && dt.minute == 0)
  }

  /** The four bytes that carry `dt` under category `c`, in the layout
      `GetDateTime` reads. */
  function EncodeDateTime(c: KLineCategory, dt: DateTime): (bs: seq<byte>)
    requires Encodable(c, dt)
    ensures |bs| == 4
  {
    if UsesMinuteStamp(c) then
      LeBytes((dt.year - 2004) * 2048 + dt.month * 100 + dt.day, 2) + LeBytes(dt.hour * 60 + dt.minute, 2)
    else
      LeBytes(dt.year * 10000 + dt.month * 100 + dt.day, 4)
  }

  function EncodeTime(t: TimeOfDay): (bs: seq<byte>)
    requires ValidTime(t.hour, t.minute)
    ensures |bs| == 2
  {
    LeBytes(t.hour * 60 + t.minute, 2)
  }

  lemma ZipDayFields(y: int, m: int, d: int)
    requires 0 <= y < 32 && 1 <= m <= 12 && 1 <= d <= 31
    ensures var z := y * 2048 + m * 100 + d;
            z / 2048 == y && (z % 2048) / 100 == m && (z % 2048) % 100 == d
  {
  }

  lemma DecimalDateFields(y: int, m: int, d: int)
    requires 1 <= y <= 9999 && 1 <= m <= 12 && 1 <= d <= 31
    ensures var z := y * 10000 + m * 100 + d;
            z / 10000 == y && (z % 10000) / 100 == m && z % 100 == d
  {
  }

  /** Every timestamp the layout can carry decodes back from its bytes. */
  lemma DateTimeRoundTrip(c: KLineCategory, r: Reader, dt: DateTime)
    requires r.bigEndian && Encodable(c, dt) && At(r, EncodeDateTime(c, dt))
    ensures GetDateTime(c, r) == Ok(Step(dt, Advance(r, 4)))
  {
    if UsesMinuteStamp(c) {
      MinuteStampRoundTrip(c, r, dt);
    } else {
      DecimalStampRoundTrip(c, r, dt);
    }
  }

  lemma MinuteStampRoundTrip(c: KLineCategory, r: Reader, dt: DateTime)
    requires r.bigEndian && UsesMinuteStamp(c) && Encodable(c, dt) && At(r, EncodeDateTime(c, dt))
    ensures GetDateTime(c, r) == Ok(Step(dt, Advance(r, 4)))
  {
    var z := (dt.year - 2004) * 2048 + dt.month * 100 + dt.day;
    var t := dt.hour * 60 + dt.minute;
    ReadTwoWords(r, z, t);
    MinuteStampMakes(dt, z, t);
    MinuteStampFromParts(c, r, z, t, dt);
  }

  lemma MinuteStampMakes(dt: DateTime, z: int, t: int)
    requires ValidDateTime(dt) && 2004 <= dt.year <= 2035
    requires z == (dt.year - 2004) * 2048 + dt.month * 100 + dt.day && t == dt.hour * 60 + dt.minute
    ensures MakeDateTime(z / 2048 + 2004, (z % 2048) / 100, (z % 2048) % 100, t / 60, t % 60) == Ok(dt)
  {
    ZipDayFields(dt.year - 2004, dt.month, dt.day);
  }

  lemma MinuteStampFromParts(c: KLineCategory, r: Reader, z: nat, t: nat, dt: DateTime)
    requires UsesMinuteStamp(c)
    requires ReadU16(r) == Ok(Step(z, Advance(r, 2))) && ReadU16(Advance(r, 2)) == Ok(Step(t, Advance(r, 4)))
    requires MakeDateTime(z / 2048 + 2004, (z % 2048) / 100, (z % 2048) % 100, t / 60, t % 60) == Ok(dt)
    ensures GetDateTime(c, r) == Ok(Step(dt, Advance(r, 4)))
  {
  }

  lemma ReadTwoWords(r: Reader, z: nat, t: nat)
    requires r.bigEndian && z < 0x1_0000 && t < 0x1_0000 && At(r, LeBytes(z, 2) + LeBytes(t, 2))
    ensures ReadU16(r) == Ok(Step(z, Advance(r, 2)))
    ensures ReadU16(Advance(r, 2)) == Ok(Step(t, Advance(r, 4)))
  {
    AtConcat(r, LeBytes(z, 2), LeBytes(t, 2));
    DefaultFlagReadsLittleEndian(r, z, 2);
    DefaultFlagReadsLittleEndian(Advance(r, 2), t, 2);
  }

  lemma DecimalStampRoundTrip(c: KLineCategory, r: Reader, dt: DateTime)
    requires r.bigEndian && !UsesMinuteStamp(c) && Encodable(c, dt) && At(r, EncodeDateTime(c, dt))
    ensures GetDateTime(c, r) == Ok(Step(dt, Advance(r, 4)))
  {
    var z := dt.year * 10000 + dt.month * 100 + dt.day;
    DefaultFlagReadsLittleEndian(r, z, 4);
    assert MakeDateTime(z / 10000, (z % 10000) / 100, z % 100, 15, 0) == Ok(dt) by {
      DecimalDateFields(dt.year, dt.month, dt.day);
    }
    DecimalStampFromParts(c, r, z, dt);
  }

  lemma DecimalStampFromParts(c: KLineCategory, r: Reader, z: nat, dt: DateTime)
    requires !UsesMinuteStamp(c)
    requires ReadU32(r) == Ok(Step(z, Advance(r, 4)))
    requires MakeDateTime(z / 10000, (z % 10000) / 100, z % 100, 15, 0) == Ok(dt)
    ensures GetDateTime(c, r) == Ok(Step(dt, Advance(r, 4)))
  {
  }

  /** Conversely, four bytes that decode are exactly the encoding of what they
      decode to: the layout is a bijection onto the encodable timestamps. */
  lemma DateTimeDecodeIsEncoding(c: KLineCategory, r: Reader)
    requires r.bigEndian && GetDateTime(c, r).Ok?
    ensures Encodable(c, GetDateTime(c, r).value.value)
    ensures At(r, EncodeDateTime(c, GetDateTime(c, r).value.value))
  {
    if UsesMinuteStamp(c) {
      MinuteStampIsEncoding(c, r);
    } else {
      DecimalStampIsEncoding(c, r);
    }
  }

  lemma MinuteStampIsEncoding(c: KLineCategory, r: Reader)
    requires r.bigEndian && UsesMinuteStamp(c) && GetDateTime(c, r).Ok?
    ensures Encodable(c, GetDateTime(c, r).value.value)
    ensures At(r, EncodeDateTime(c, GetDateTime(c, r).value.value))
  {
    var dt := GetDateTime(c, r).value.value;
    MinuteStampFields(c, r);
    var z := ReadU16(r).value.value;
    var t := ReadU16(Advance(r, 2)).value.value;
    MinuteStampRejoin(z, t, dt);
    MinuteStampImage(c, dt, z, t);
    DefaultFlagReadIsStored(r, 2);
    DefaultFlagReadIsStored(Advance(r, 2), 2);
    AtJoin(r, LeBytes(z, 2), LeBytes(t, 2));
  }

  /** The two words a minute stamp was decoded from. */
  lemma MinuteStampFields(c: KLineCategory, r: Reader)
    requires UsesMinuteStamp(c) && GetDateTime(c, r).Ok?
    ensures ReadU16(r).Ok? && ReadU16(Advance(r, 2)).Ok?
    ensures var z := ReadU16(r).value.value;
            var t := ReadU16(Advance(r, 2)).value.value;
            GetDateTime(c, r).value.value == DateTime(z / 2048 + 2004, (z % 2048) / 100, (z % 2048) % 100, t / 60, t % 60)
  {
  }

  lemma MinuteStampImage(c: KLineCategory, dt: DateTime, z: nat, t: nat)
    requires UsesMinuteStamp(c) && Encodable(c, dt)
    requires (dt.year - 2004) * 2048 + dt.month * 100 + dt.day == z && dt.hour * 60 + dt.minute == t
    ensures EncodeDateTime(c, dt) == LeBytes(z, 2) + LeBytes(t, 2)
  {
  }

  lemma MinuteStampRejoin(z: nat, t: nat, dt: DateTime)
    requires dt == DateTime(z / 2048 + 2004, (z % 2048) / 100, (z % 2048) % 100, t / 60, t % 60)
    ensures (dt.year - 2004) * 2048 + dt.month * 100 + dt.day == z
    ensures dt.hour * 60 + dt.minute == t
  {
  }

  lemma DecimalStampIsEncoding(c: KLineCategory, r: Reader)
    requires r.bigEndian && !UsesMinuteStamp(c) && GetDateTime(c, r).Ok?
    ensures Encodable(c, GetDateTime(c, r).value.value)
    ensures At(r, EncodeDateTime(c, GetDateTime(c, r).value.value))
  {
    var dt := GetDateTime(c, r).value.value;
    DecimalStampFields(c, r);
    var z := ReadU32(r).value.value;
    DecimalStampRejoin(z, dt);
    assert EncodeDateTime(c, dt) == LeBytes(z, 4);
    DefaultFlagReadIsStored(r, 4);
  }

  /** The word a decimal stamp was decoded from. */
  lemma DecimalStampFields(c: KLineCategory, r: Reader)
    requires !UsesMinuteStamp(c) && GetDateTime(c, r).Ok?
    ensures ReadU32(r).Ok?
    ensures var z := ReadU32(r).value.value;
            GetDateTime(c, r).value.value == DateTime(z / 10000, (z % 10000) / 100, z % 100, 15, 0)
  {
  }

  lemma DecimalStampRejoin(z: nat, dt: DateTime)
    requires dt == DateTime(z / 10000, (z % 10000) / 100, z % 100, 15, 0)
    ensures dt.year * 10000 + dt.month * 100 + dt.day == z
  {
  }

  lemma TimeRoundTrip(r: Reader, t: TimeOfDay)
    requires r.bigEndian && ValidTime(t.hour, t.minute) && At(r, EncodeTime(t))
    ensures GetTime(r) == Ok(Step(t, Advance(r, 2)))
  {
    var w := t.hour * 60 + t.minute;
    DefaultFlagReadsLittleEndian(r, w, 2);
    MinutesOfDay(t.hour, t.minute);
    TimeFromWord(r, w, t);
  }

  lemma MinutesOfDay(hour: int, minute: int)
    requires ValidTime(hour, minute)
    ensures (hour * 60 + minute) / 60 == hour && (hour * 60 + minute) % 60 == minute
  {
  }

  lemma TimeFromWord(r: Reader, w: nat, t: TimeOfDay)
    requires ReadU16(r) == Ok(Step(w, Advance(r, 2))) && MakeTime(w / 60, w % 60) == Ok(t)
    ensures GetTime(r) == Ok(Step(t, Advance(r, 2)))
  {
  }

  lemma TimeDecodeIsEncoding(r: Reader)
    requires r.bigEndian && GetTime(r).Ok?
    ensures At(r, EncodeTime(GetTime(r).value.value))
  {
    DefaultFlagReadIsStored(r, 2);
  }

  /** 2024-03-15 09:30 in the zipday/minutes layout: zipday 20 * 2048 + 315
      = 0xA13B and 570 = 0x023A minutes, both little-endian. */
  lemma ZipDayExample()
    ensures GetDateTime(K5, Open([0x3B, 0xA1, 0x3A, 0x02])) == Ok(Step(DateTime(2024, 3, 15, 9, 30), Advance(Open([0x3B, 0xA1, 0x3A, 0x02]), 4)))
  {
    var dt := DateTime(2024, 3, 15, 9, 30);
    assert LeBytes(41275, 2) == [0x3B, 0xA1];
    assert LeBytes(570, 2) == [0x3A, 0x02];
    assert EncodeDateTime(K5, dt) == [0x3B, 0xA1, 0x3A, 0x02];
    DateTimeRoundTrip(K5, Open([0x3B, 0xA1, 0x3A, 0x02]), dt);
  }
}

=== FILE: finance.dfy ===
/** The financial snapshot of one security (api.py, `get_finance_info`).

After two skipped bytes come the market byte, the 6-byte code, the floating
share count (f32), the province and industry codes (u16 each), the update
and listing dates (u32 each as YYYYMMDD, kept undecoded), 28 figures (f32)
and two more f32 values: 145 bytes in all. The source multiplies the share
count and the 28 figures by 10000 as floats; this model keeps the raw bit
patterns.
 */
module Finance {
  import opened Results
  import opened ByteOrder
  import opened BinaryReader
  import opened Wire
  import opened Markets

  const FigureCount: nat := 28
  const SnapshotSize: nat := 2 + 1 + 6 + 4 + 2 + 2 + 4 + 4 + 4 * FigureCount + 4 + 4

  datatype Snapshot = Snapshot(market: Market, code: seq<byte>, floatShares: Float32,
                               province: nat, industry: nat, updated: nat, listed: nat,
                               figures: seq<Float32>, netAssetsPerShare: Float32, reserved: Float32)

  /** Everything after the code: 136 bytes of numbers, any of which can be
      the short one. */
  datatype Numbers = Numbers(floatShares: Float32, province: nat, industry: nat, updated: nat,
                             listed: nat, figures: seq<Float32>, netAssetsPerShare: Float32,
                             reserved: Float32)

  function ReadNumbers(r: Reader): (res: Result<Step<Numbers>>)
    ensures res.Ok? <==> Remaining(r) >= 136
    ensures res.Err? ==> res.error == StructError
    ensures res.Ok? ==> res.value.next == Advance(r, 136) && |res.value.value.figures| == FigureCount
  {
    var floatShares :- ReadF32(r);
    var province :- ReadU16(floatShares.next);
    var industry :- ReadU16(province.next);
    var updated :- ReadU32(industry.next);
    var listed :- ReadU32(updated.next);
    var figures :- ReadF32s(listed.next, FigureCount);
    var perShare :- ReadF32(figures.next);
    var reserved :- ReadF32(perShare.next);
    Ok(Step(Numbers(floatShares.value, province.value, industry.value, updated.value, listed.value,
                    figures.value, perShare.value, reserved.value), reserved.next))
  }

  /** `get_finance_info`, from the inflated payload on: a bad market byte is
      a ValueError, any short field a struct.error. */
  function GetFinanceInfo(payload: seq<byte>): (res: Result<Snapshot>)
    ensures res.Ok? <==> |payload| >= SnapshotSize && payload[2] < 2
    ensures res.Err? ==> (res.error == ValueError <==> |payload| >= 3 && payload[2] >= 2)
    ensures res.Err? ==> res.error in {StructError, ValueError}
    ensures res.Ok? ==> MarketCode(res.value.market) == payload[2] && res.value.code == payload[3..9]
  {
    var market :- ReadMarket(Skip(Open(payload), 2));
    var code := Read(market.next, 6);
    var numbers :- ReadNumbers(code.next);
    var n := numbers.value;
    Ok(Snapshot(market.value, code.value, n.floatShares, n.province, n.industry, n.updated, n.listed,
                n.figures, n.netAssetsPerShare, n.reserved))
  }

  // ---------------------------------------------------------------------
  // Writing a snapshot

  predicate NumbersFit(n: Numbers)
  {
    && n.floatShares.bits < 0x1_0000_0000 && n.province < 0x1_0000 && n.industry < 0x1_0000
    && n.updated < 0x1_0000_0000 && n.listed < 0x1_0000_0000
    && |n.figures| == FigureCount && FitF32s(n.figures)
    && n.netAssetsPerShare.bits < 0x1_0000_0000 && n.reserved.bits < 0x1_0000_0000
  }

  function EncodeNumbers(n: Numbers): (bs: seq<byte>)
    requires NumbersFit(n)
    ensures |bs| == 136
  {
    EncodeF32(n.floatShares)
    + (EncodeU16(n.province)
    + (EncodeU16(n.industry)
    + (EncodeU32(n.updated)
    + (EncodeU32(n.listed)
    + (EncodeF32s(n.figures)
    + (EncodeF32(n.netAssetsPerShare)
    + EncodeF32(n.reserved)))))))
  }

  lemma NumbersRoundTrip(r: Reader, n: Numbers)
    requires r.bigEndian && NumbersFit(n) && At(r, EncodeNumbers(n))
    ensures ReadNumbers(r) == Ok(Step(n, Advance(r, 136)))
  {
    var a := EncodeF32(n.floatShares);
    var b := EncodeU16(n.province);
    var c := EncodeU16(n.industry);
    var d := EncodeU32(n.updated);
    var e := EncodeU32(n.listed);
    var f := EncodeF32s(n.figures);
    var g := EncodeF32(n.netAssetsPerShare);
    var h := EncodeF32(n.reserved);
    AtConcat(r, a, b + (c + (d + (e + (f + (g + h))))));
    var r1 := Advance(r, 4);
    AtConcat(r1, b, c + (d + (e + (f + (g + h)))));
    var r2 := Advance(r1, 2);
    AtConcat(r2, c, d + (e + (f + (g + h))));
    var r3 := Advance(r2, 2);
    AtConcat(r3, d, e + (f + (g + h)));
    var r4 := Advance(r3, 4);
    AtConcat(r4, e, f + (g + h));
    var r5 := Advance(r4, 4);
    AtConcat(r5, f, g + h);
    var r6 := Advance(r5, 4 * FigureCount);
    AtConcat(r6, g, h);
    var r7 := Advance(r6, 4);
    var r8 := Advance(r7, 4);
    assert r8 == Advance(r, 136);
    F32RoundTrip(r, n.floatShares);
    U16RoundTrip(r1, n.province);
    U16RoundTrip(r2, n.industry);
    U32RoundTrip(r3, n.updated);
    U32RoundTrip(r4, n.listed);
    F32sRoundTrip(r5, n.figures);
    F32RoundTrip(r6, n.netAssetsPerShare);
    F32RoundTrip(r7, n.reserved);
    NumbersFromParts(r, n, r1, r2, r3, r4, r5, r6, r7, r8);
  }

  lemma NumbersFromParts(r: Reader, n: Numbers, r1: Reader, r2: Reader, r3: Reader, r4: Reader,
                         r5: Reader, r6: Reader, r7: Reader, r8: Reader)
    requires ReadF32(r) == Ok(Step(n.floatShares, r1)) && ReadU16(r1) == Ok(Step(n.province, r2))
    requires ReadU16(r2) == Ok(Step(n.industry, r3)) && ReadU32(r3) == Ok(Step(n.updated, r4))
    requires ReadU32(r4) == Ok(Step(n.listed, r5)) && ReadF32s(r5, FigureCount) == Ok(Step(n.figures, r6))
    requires ReadF32(r6) == Ok(Step(n.netAssetsPerShare, r7)) && ReadF32(r7) == Ok(Step(n.reserved, r8))
    ensures ReadNumbers(r) == Ok(Step(n, r8))
  {
  }

  /** The snapshot a response carries, split into its header and numbers. */
  function NumbersOf(s: Snapshot): Numbers
  {
    Numbers(s.floatShares, s.province, s.industry, s.updated, s.listed, s.figures,
            s.netAssetsPerShare, s.reserved)
  }

  /** A snapshot written after any two bytes reads back. */
  lemma FinanceInfoRoundTrip(lead: seq<byte>, s: Snapshot)
    requires |lead| == 2 && |s.code| == 6 && NumbersFit(NumbersOf(s))
    ensures GetFinanceInfo(lead + [MarketCode(s.market)] + s.code + EncodeNumbers(NumbersOf(s))) == Ok(s)
  {
    var head := lead + [MarketCode(s.market)] + s.code;
    var payload := head + EncodeNumbers(NumbersOf(s));
    var r := Open(payload);
    var r1 := Advance(r, 3);
    var r2 := Advance(r, 9);
    assert payload[2] == MarketCode(s.market);
    assert Skip(r, 2) == Advance(r, 2);
    ReadMarketRoundTrip(Advance(r, 2), s.market);
    OpenFramed(head, [], EncodeNumbers(NumbersOf(s)));
    EmptyGap(head, EncodeNumbers(NumbersOf(s)));
    assert payload[3..9] == s.code;
    assert Read(r1, 6) == Step(s.code, r2);
    NumbersRoundTrip(r2, NumbersOf(s));
    FinanceFromParts(payload, s, r1, r2);
  }

  lemma FinanceFromParts(payload: seq<byte>, s: Snapshot, r1: Reader, r2: Reader)
    requires ReadMarket(Skip(Open(payload), 2)) == Ok(Step(s.market, r1)) && Read(r1, 6) == Step(s.code, r2)
    requires ReadNumbers(r2).Ok? && ReadNumbers(r2).value.value == NumbersOf(s)
    ensures GetFinanceInfo(payload) == Ok(s)
  {
  }
}

=== FILE: framing.dfy ===
/** The response framing of `Api._req` (api.py): a 16-byte header unpacked as
`<IIIHH`, whose last two fields are the size of the body on the wire and its
size once inflated, then the body, inflated exactly when the two sizes
differ. Receiving the body is socket I/O and is not part of this model; the
inflater is a parameter.
 */
module Framing {
  import opened Results
  import opened ByteOrder
  import opened BinaryReader

  datatype Header = Header(r1: nat, r2: nat, r3: nat, zippedSize: nat, unzippedSize: nat)

  /** `struct.unpack('<IIIHH', recv)`: any other length than 16 is a
      struct.error; the fields are little-endian whatever the reader's
      flag. */
  function ParseHeader(recv: seq<byte>): (res: Result<Header>)
    ensures res.Ok? <==> |recv| == 16
    ensures res.Err? ==> res.error == StructError
    ensures res.Ok? ==> res.value.zippedSize < 0x1_0000 && res.value.unzippedSize < 0x1_0000
  {
    if |recv| != 16 then Err(StructError)
    else
      Ok(Header(LittleEndian(recv[0..4]), LittleEndian(recv[4..8]), LittleEndian(recv[8..12]),
                LittleEndian(recv[12..14]), LittleEndian(recv[14..16])))
  }

  predicate HeaderFits(h: Header)
  {
    && h.r1 < 0x1_0000_0000 && h.r2 < 0x1_0000_0000 && h.r3 < 0x1_0000_0000
    && h.zippedSize < 0x1_0000 && h.unzippedSize < 0x1_0000
  }

  /** `struct.pack('<IIIHH', ...)`, as the server writes the header. */
  function EncodeHeader(h: Header): (bs: seq<byte>)
    requires HeaderFits(h)
    ensures |bs| == 16
  {
    LeBytes(h.r1, 4) + LeBytes(h.r2, 4) + LeBytes(h.r3, 4) + LeBytes(h.zippedSize, 2) + LeBytes(h.unzippedSize, 2)
  }

  /** A header written by the server parses back. */
  lemma HeaderRoundTrip(h: Header)
    requires HeaderFits(h)
    ensures ParseHeader(EncodeHeader(h)) == Ok(h)
  {
    var bs := EncodeHeader(h);
    assert bs[0..4] == LeBytes(h.r1, 4);
    assert bs[4..8] == LeBytes(h.r2, 4);
    assert bs[8..12] == LeBytes(h.r3, 4);
    assert bs[12..14] == LeBytes(h.zippedSize, 2);
    assert bs[14..16] == LeBytes(h.unzippedSize, 2);
    LittleEndianInverse(h.r1, 4);
    LittleEndianInverse(h.r2, 4);
    LittleEndianInverse(h.r3, 4);
    LittleEndianInverse(h.zippedSize, 2);
    LittleEndianInverse(h.unzippedSize, 2);
  }

  /** And every 16 bytes are the encoding of the header they parse to. */
  lemma HeaderBytesRoundTrip(recv: seq<byte>)
    requires |recv| == 16
    ensures HeaderFits(ParseHeader(recv).value) && EncodeHeader(ParseHeader(recv).value) == recv
  {
    LeBytesInverse(recv[0..4]);
    LeBytesInverse(recv[4..8]);
    LeBytesInverse(recv[8..12]);
    LeBytesInverse(recv[12..14]);
    LeBytesInverse(recv[14..16]);
    assert recv == recv[0..4] + recv[4..8] + recv[8..12] + recv[12..14] + recv[14..16];
  }

  /** The body after the header: `zlib.decompress` when the sizes differ,
      the bytes as received when they agree. The inflated length is not
      compared with the header. */
  function Unframe(h: Header, body: seq<byte>, inflate: seq<byte> -> Option<seq<byte>>): (res: Result<seq<byte>>)
    ensures h.zippedSize == h.unzippedSize ==> res == Ok(body)
    ensures h.zippedSize != h.unzippedSize ==> (res.Ok? <==> inflate(body).Some?)
    ensures res.Err? ==> res.error == DecompressError
  {
    if h.zippedSize != h.unzippedSize then
      match inflate(body)
      case None => Err(DecompressError)
      case Some(data) => Ok(data)
    else Ok(body)
  }

  /** `_req` after the request is sent: the header, then the body. */
  function Response(recv: seq<byte>, body: seq<byte>, inflate: seq<byte> -> Option<seq<byte>>): (res: Result<seq<byte>>)
    ensures |recv| != 16 ==> res == Err(StructError)
    ensures res.Err? ==> res.error in {StructError, DecompressError}
  {
    var h :- ParseHeader(recv);
    Unframe(h, body, inflate)
  }

  /** A body sent compressed, with sizes that differ, comes back as the
      server's data. */
  lemma CompressedRoundTrip(r1: nat, r2: nat, r3: nat, data: seq<byte>, packed: seq<byte>,
                            inflate: seq<byte> -> Option<seq<byte>>)
    requires r1 < 0x1_0000_0000 && r2 < 0x1_0000_0000 && r3 < 0x1_0000_0000
    requires |packed| < 0x1_0000 && |data| < 0x1_0000 && |packed| != |data|
    requires inflate(packed) == Some(data)
    ensures Response(EncodeHeader(Header(r1, r2, r3, |packed|, |data|)), packed, inflate) == Ok(data)
  {
    HeaderRoundTrip(Header(r1, r2, r3, |packed|, |data|));
  }

  /** A body sent as is, both sizes its length, comes back unchanged
      whatever the inflater. */
  lemma StoredRoundTrip(r1: nat, r2: nat, r3: nat, data: seq<byte>, inflate: seq<byte> -> Option<seq<byte>>)
    requires r1 < 0x1_0000_0000 && r2 < 0x1_0000_0000 && r3 < 0x1_0000_0000 && |data| < 0x1_0000
    ensures Response(EncodeHeader(Header(r1, r2, r3, |data|, |data|)), data, inflate) == Ok(data)
  {
    HeaderRoundTrip(Header(r1, r2, r3, |data|, |data|));
  }

  /** Equal sizes are taken to mean "stored": a body compressed to exactly
      its own length is handed on still compressed. */
  lemma EqualSizesSkipInflate(h: Header, body: seq<byte>, inflate: seq<byte> -> Option<seq<byte>>)
    requires h.zippedSize == h.unzippedSize && inflate(body).Some? && inflate(body).value != body
    ensures Unframe(h, body, inflate).Ok? && Unframe(h, body, inflate).value != inflate(body).value
  {
  }

  /** The inflated data is accepted whatever its length: the size the header
      announces is never compared with it. */
  lemma InflatedSizeUnchecked(h: Header, body: seq<byte>, inflate: seq<byte> -> Option<seq<byte>>)
    requires h.zippedSize != h.unzippedSize && inflate(body).Some?
    ensures Unframe(h, body, inflate) == Ok(inflate(body).value)
  {
  }
}

=== FILE: kline.dfy ===
/** K-line bars (api.py `get_k_line`).

A response is a 16-bit bar count followed by the bars. Each bar is a packed
timestamp, four vint price deltas and two float fields; bars of an index add
two 16-bit counts of rising and falling issues. Prices are in thousandths and
chained: the first delta is taken from a carry (0 before the first bar), the
other three from the bar's own open, and the carry handed to the next bar is
this bar's close.

Nothing in the response says which of the two shapes it has. The source
first parses the index shape and, when that raises a ValueError, moves the
cursor back to 0 and parses the equity shape.
 */
module KLine {
  import opened Results
  import opened ByteOrder
  import opened BinaryReader
  import opened VarInt
  import opened Wire
  import opened Dates
  import opened Prices

  /** The advancing and declining issue counts of an index bar. */
  datatype Breadth = Breadth(rising: nat, falling: nat)

  /** One bar, prices in thousandths. `breadth` is present exactly for the
      index shape. */
  datatype Bar = Bar(time: DateTime, open: int, close: int, high: int, low: int,
                     volume: Float32, amount: Float32, breadth: Option<Breadth>)

  datatype Shape = IndexShape | EquityShape

  predicate HasShape(b: Bar, shape: Shape)
  {
    b.breadth.Some? <==> shape == IndexShape
  }

  /** The four price deltas of a bar as they travel. */
  datatype Deltas = Deltas(open: int, close: int, high: int, low: int)

  /** The two float fields of a bar. */
  datatype Turnover = Turnover(volume: Float32, amount: Float32)

  function ReadDeltas(r: Reader): (res: Result<Step<Deltas>>)
    ensures res.Err? ==> res.error == StructError
    ensures res.Ok? ==> res.value.next.data == r.data && res.value.next.bigEndian == r.bigEndian
    ensures res.Ok? ==> r.pos + 4 <= res.value.next.pos <= |r.data|
  {
    var dOpen :- ReadVInt(r);
    var dClose :- ReadVInt(dOpen.next);
    var dHigh :- ReadVInt(dClose.next);
    var dLow :- ReadVInt(dHigh.next);
    Ok(Step(Deltas(dOpen.value, dClose.value, dHigh.value, dLow.value), dLow.next))
  }

  function ReadTurnover(r: Reader): (res: Result<Step<Turnover>>)
    ensures res.Ok? <==> r.pos + 8 <= |r.data|
    ensures res.Err? ==> res.error == StructError
    ensures res.Ok? ==> res.value.next == Advance(r, 8)
  {
    var volume :- ReadF32(r);
    var amount :- ReadF32(volume.next);
    Ok(Step(Turnover(volume.value, amount.value), amount.next))
  }

  /** The prices of a bar: the open from the carry, the rest from the open. */
  function Resolve(time: DateTime, d: Deltas, t: Turnover, carry: int): (b: Bar)
    ensures b.open - carry == d.open && b.close - b.open == d.close
    ensures b.high - b.open == d.high && b.low - b.open == d.low
    ensures b.time == time && b.volume == t.volume && b.amount == t.amount && b.breadth == None
  {
    var open := carry + d.open;
    Bar(time, open, open + d.close, open + d.high, open + d.low, t.volume, t.amount, None)
  }

  /** The prices the source reports for a bar are the resolved fields
      taken as thousandths: the open is `_calc_price1k(Δopen, carry)`, the
      others `_calc_price1k(Δopen + carry, Δ)`, and the carry handed to the
      next bar, `Δopen + carry + Δclose`, is the close. */
  lemma ResolvedPrices(time: DateTime, d: Deltas, t: Turnover, carry: int)
    ensures var b := Resolve(time, d, t, carry);
      && CalcPrice1k(d.open, carry) == b.open as real / 1000.0
      && CalcPrice1k(d.open + carry, d.close) == b.close as real / 1000.0
      && CalcPrice1k(d.open + carry, d.high) == b.high as real / 1000.0
      && CalcPrice1k(d.open + carry, d.low) == b.low as real / 1000.0
      && d.open + carry + d.close == b.close
  {
  }

  /** The fields both shapes share, with prices resolved against `carry`. */
  function DecodeEquityBar(c: KLineCategory, r: Reader, carry: int): (res: Result<Step<Bar>>)
    ensures res.Err? ==> res.error in {StructError, ValueError}
    ensures res.Err? && res.error == ValueError ==> GetDateTime(c, r) == Err(ValueError)
    ensures res.Ok? ==> res.value.value.breadth == None
    ensures res.Ok? ==> res.value.next.data == r.data && res.value.next.bigEndian == r.bigEndian
    ensures res.Ok? ==> r.pos + 16 <= res.value.next.pos <= |r.data|
  {
    var date :- GetDateTime(c, r);
    var deltas :- ReadDeltas(date.next);
    var turnover :- ReadTurnover(deltas.next);
    Ok(Step(Resolve(date.value, deltas.value, turnover.value, carry), turnover.next))
  }

  /** One bar of the given shape: the index shape reads the two counts after
      the shared fields, 4 bytes more. */
  function DecodeBar(c: KLineCategory, shape: Shape, r: Reader, carry: int): (res: Result<Step<Bar>>)
    ensures res.Err? ==> res.error in {StructError, ValueError}
    ensures res.Ok? ==> HasShape(res.value.value, shape)
    ensures res.Ok? ==> res.value.next.data == r.data && res.value.next.bigEndian == r.bigEndian
    ensures res.Ok? ==> r.pos + 16 <= res.value.next.pos <= |r.data|
  {
    var bar :- DecodeEquityBar(c, r, carry);
    if shape == EquityShape then Ok(bar)
    else
      var rising :- ReadU16(bar.next);
      var falling :- ReadU16(rising.next);
      Ok(Step(bar.value.(breadth := Some(Breadth(rising.value, falling.value))), falling.next))
  }

  /** `count` bars, the carry threaded from each bar's close to the next. */
  function DecodeBars(c: KLineCategory, shape: Shape, r: Reader, count: nat, carry: int)
    : (res: Result<Step<seq<Bar>>>)
    ensures res.Err? ==> res.error in {StructError, ValueError}
    ensures res.Ok? ==> |res.value.value| == count
    ensures res.Ok? ==> forall i :: 0 <= i < count ==> HasShape(res.value.value[i], shape)
    decreases count
  {
    if count == 0 then Ok(Step([], r))
    else
      var first :- DecodeBar(c, shape, r, carry);
      var rest :- DecodeBars(c, shape, first.next, count - 1, first.value.close);
      ShapesPrepend(first.value, rest.value, shape);
      Ok(Step([first.value] + rest.value, rest.next))
  }

  lemma ShapesPrepend(b: Bar, bars: seq<Bar>, shape: Shape)
    requires HasShape(b, shape) && forall i :: 0 <= i < |bars| ==> HasShape(bars[i], shape)
    ensures forall i :: 0 <= i < |[b] + bars| ==> HasShape(([b] + bars)[i], shape)
  {
  }

  /** One attempt at the whole response under one shape hypothesis. */
  function ParseKLine(c: KLineCategory, shape: Shape, r: Reader): (res: Result<seq<Bar>>)
    ensures r.pos + 2 > |r.data| ==> res == Err(StructError)
    ensures res.Err? ==> res.error in {StructError, ValueError}
    ensures res.Ok? ==> |res.value| == ReadU16(r).value.value
    ensures res.Ok? ==> forall i :: 0 <= i < |res.value| ==> HasShape(res.value[i], shape)
  {
    var count :- ReadU16(r);
    var bars :- DecodeBars(c, shape, count.next, count.value, 0);
    Ok(bars.value)
  }

  /** `get_k_line` as written: the index parse, and the equity parse from
      position 0 only when the index parse raised a ValueError. Any other
      failure of the index parse is the result. */
  function GetKLine(c: KLineCategory, payload: seq<byte>): (res: Result<seq<Bar>>)
    ensures ParseKLine(c, IndexShape, Open(payload)).Ok? ==> res == ParseKLine(c, IndexShape, Open(payload))
    ensures ParseKLine(c, IndexShape, Open(payload)) == Err(ValueError) ==>
              res == ParseKLine(c, EquityShape, Open(payload))
    ensures ParseKLine(c, IndexShape, Open(payload)) == Err(StructError) ==> res == Err(StructError)
    ensures res.Ok? ==>
              || (forall i :: 0 <= i < |res.value| ==> HasShape(res.value[i], IndexShape))
              || (forall i :: 0 <= i < |res.value| ==> HasShape(res.value[i], EquityShape))
  {
    var r := Open(payload);
    match ParseKLine(c, IndexShape, r)
    case Ok(bars) => Ok(bars)
    case Err(e) =>
      if e == ValueError then
        // `reader.pos = 0` on the reader the failed attempt left behind;
        // only the position differs from `r`, and the seek replaces it.
        ParseKLine(c, EquityShape, Seek(r, 0).value)
      else
        Err(e)
  }

  /** `get_k_line` with the rollback the layout calls for: the equity parse
      is tried whenever the index parse fails, whatever the failure. */
  function GetKLineRecovering(c: KLineCategory, payload: seq<byte>): (res: Result<seq<Bar>>)
    ensures ParseKLine(c, IndexShape, Open(payload)).Ok? ==> res == ParseKLine(c, IndexShape, Open(payload))
    ensures ParseKLine(c, IndexShape, Open(payload)).Err? ==> res == ParseKLine(c, EquityShape, Open(payload))
  {
    var r := Open(payload);
    match ParseKLine(c, IndexShape, r)
    case Ok(bars) => Ok(bars)
    case Err(_) =>
      ParseKLine(c, EquityShape, Seek(r, 0).value)
  }

  // ---------------------------------------------------------------------
  // The layout written forwards: deltas are taken from the carry and from
  // the bar's own open, the inverse of the chaining above.

  predicate EncodableBar(c: KLineCategory, shape: Shape, b: Bar)
  {
    && Encodable(c, b.time)
    && b.volume.bits < 0x1_0000_0000 && b.amount.bits < 0x1_0000_0000
    && HasShape(b, shape)
    && (b.breadth.Some? ==> b.breadth.value.rising < 0x1_0000 && b.breadth.value.falling < 0x1_0000)
  }

  predicate EncodableBars(c: KLineCategory, shape: Shape, bars: seq<Bar>)
    decreases |bars|
  {
    |bars| == 0 || (EncodableBar(c, shape, bars[0]) && EncodableBars(c, shape, bars[1..]))
  }

  function EncodeDeltas(d: Deltas): (bs: seq<byte>)
  {
    EncodeVInt(d.open) + (EncodeVInt(d.close) + (EncodeVInt(d.high) + EncodeVInt(d.low)))
  }

  function EncodeTurnover(t: Turnover): (bs: seq<byte>)
    requires t.volume.bits < 0x1_0000_0000 && t.amount.bits < 0x1_0000_0000
    ensures |bs| == 8
  {
    EncodeF32(t.volume) + EncodeF32(t.amount)
  }

  /** The deltas the encoder writes for `b` after a bar closing at `carry`. */
  function DeltasOf(b: Bar, carry: int): Deltas
  {
    Deltas(b.open - carry, b.close - b.open, b.high - b.open, b.low - b.open)
  }

  function EncodeEquityBar(c: KLineCategory, b: Bar, carry: int): (bs: seq<byte>)
    requires Encodable(c, b.time) && b.volume.bits < 0x1_0000_0000 && b.amount.bits < 0x1_0000_0000
  {
    EncodeDateTime(c, b.time) + (EncodeDeltas(DeltasOf(b, carry)) + EncodeTurnover(Turnover(b.volume, b.amount)))
  }

  function EncodeBreadth(x: Option<Breadth>): (bs: seq<byte>)
    requires x.Some? ==> x.value.rising < 0x1_0000 && x.value.falling < 0x1_0000
    ensures |bs| == if x.Some? then 4 else 0
  {
    match x
    case None => []
    case Some(b) => EncodeU16(b.rising) + EncodeU16(b.falling)
  }

  function EncodeBar(c: KLineCategory, shape: Shape, b: Bar, carry: int): (bs: seq<byte>)
    requires EncodableBar(c, shape, b)
  {
    EncodeEquityBar(c, b, carry) + EncodeBreadth(b.breadth)
  }

  function EncodeBars(c: KLineCategory, shape: Shape, bars: seq<Bar>, carry: int): (bs: seq<byte>)
    requires EncodableBars(c, shape, bars)
    decreases |bars|
  {
    if |bars| == 0 then []
    else EncodeBar(c, shape, bars[0], carry) + EncodeBars(c, shape, bars[1..], bars[0].close)
  }

  /** A whole response: the count, then the bars from carry 0. */
  function EncodeKLine(c: KLineCategory, shape: Shape, bars: seq<Bar>): (bs: seq<byte>)
    requires |bars| < 0x1_0000 && EncodableBars(c, shape, bars)
  {
    EncodeU16(|bars|) + EncodeBars(c, shape, bars, 0)
  }

  lemma DeltasRoundTrip(r: Reader, d: Deltas)
    requires At(r, EncodeDeltas(d))
    ensures ReadDeltas(r) == Ok(Step(d, Advance(r, |EncodeDeltas(d)|)))
  {
    var e0, e1, e2, e3 := EncodeVInt(d.open), EncodeVInt(d.close), EncodeVInt(d.high), EncodeVInt(d.low);
    AtConcat(r, e0, e1 + (e2 + e3));
    VIntRoundTrip(r, d.open);
    var r1 := Advance(r, |e0|);
    AtConcat(r1, e1, e2 + e3);
    VIntRoundTrip(r1, d.close);
    var r2 := Advance(r1, |e1|);
    AtConcat(r2, e2, e3);
    VIntRoundTrip(r2, d.high);
    var r3 := Advance(r2, |e2|);
    VIntRoundTrip(r3, d.low);
    var r4 := Advance(r3, |e3|);
    assert ReadVInt(r) == Ok(Step(d.open, r1));
    assert ReadVInt(r1) == Ok(Step(d.close, r2));
    assert ReadVInt(r2) == Ok(Step(d.high, r3));
    assert ReadVInt(r3) == Ok(Step(d.low, r4));
    assert r4 == Advance(r, |EncodeDeltas(d)|);
  }

  lemma TurnoverRoundTrip(r: Reader, t: Turnover)
    requires r.bigEndian && t.volume.bits < 0x1_0000_0000 && t.amount.bits < 0x1_0000_0000
    requires At(r, EncodeTurnover(t))
    ensures ReadTurnover(r) == Ok(Step(t, Advance(r, 8)))
  {
    AtConcat(r, EncodeF32(t.volume), EncodeF32(t.amount));
    F32RoundTrip(r, t.volume);
    F32RoundTrip(Advance(r, 4), t.amount);
  }

  lemma EquityBarRoundTrip(c: KLineCategory, r: Reader, b: Bar, carry: int)
    requires r.bigEndian && Encodable(c, b.time) && b.volume.bits < 0x1_0000_0000 && b.amount.bits < 0x1_0000_0000
    requires At(r, EncodeEquityBar(c, b, carry))
    ensures DecodeEquityBar(c, r, carry) == Ok(Step(b.(breadth := None), Advance(r, |EncodeEquityBar(c, b, carry)|)))
  {
    var e0 := EncodeDateTime(c, b.time);
    var d := DeltasOf(b, carry);
    var t := Turnover(b.volume, b.amount);
    AtConcat(r, e0, EncodeDeltas(d) + EncodeTurnover(t));
    DateTimeRoundTrip(c, r, b.time);
    var r1 := Advance(r, |e0|);
    AtConcat(r1, EncodeDeltas(d), EncodeTurnover(t));
    DeltasRoundTrip(r1, d);
    var r2 := Advance(r1, |EncodeDeltas(d)|);
    TurnoverRoundTrip(r2, t);
    assert GetDateTime(c, r) == Ok(Step(b.time, r1));
    assert ReadDeltas(r1) == Ok(Step(d, r2));
    assert ReadTurnover(r2) == Ok(Step(t, Advance(r2, 8)));
    assert Advance(r2, 8) == Advance(r, |EncodeEquityBar(c, b, carry)|);
    assert Resolve(b.time, d, t, carry) == b.(breadth := None);
  }

  /** The index shape is the equity shape plus the two counts: it reads the
      same bar 4 bytes further, and it fails wherever the equity shape does. */
  lemma IndexShapeExtendsEquityShape(c: KLineCategory, r: Reader, carry: int)
    ensures DecodeBar(c, EquityShape, r, carry).Err? ==>
              DecodeBar(c, IndexShape, r, carry) == DecodeBar(c, EquityShape, r, carry)
    ensures DecodeBar(c, IndexShape, r, carry).Ok? ==>
              var index := DecodeBar(c, IndexShape, r, carry).value;
              var equity := DecodeBar(c, EquityShape, r, carry).value;
              && DecodeBar(c, EquityShape, r, carry).Ok?
              && index.value.(breadth := None) == equity.value
              && index.next == Advance(equity.next, 4)
  {
    EquityShapeIsEquityBar(c, r, carry);
    if DecodeBar(c, IndexShape, r, carry).Ok? {
      IndexBarParts(c, r, carry);
      var bar := DecodeEquityBar(c, r, carry).value;
      BreadthIsDropped(bar.value, Breadth(ReadU16(bar.next).value.value, ReadU16(Advance(bar.next, 2)).value.value));
    }
  }

  lemma EquityShapeIsEquityBar(c: KLineCategory, r: Reader, carry: int)
    ensures DecodeBar(c, EquityShape, r, carry) == DecodeEquityBar(c, r, carry)
    ensures DecodeEquityBar(c, r, carry).Err? ==> DecodeBar(c, IndexShape, r, carry) == DecodeEquityBar(c, r, carry)
  {
  }

  /** An index bar is the equity bar and the two counts after it. */
  lemma IndexBarParts(c: KLineCategory, r: Reader, carry: int)
    requires DecodeBar(c, IndexShape, r, carry).Ok?
    ensures DecodeEquityBar(c, r, carry).Ok?
    ensures var bar := DecodeEquityBar(c, r, carry).value;
            && ReadU16(bar.next).Ok? && ReadU16(Advance(bar.next, 2)).Ok?
            && DecodeBar(c, IndexShape, r, carry).value
               == Step(bar.value.(breadth := Some(Breadth(ReadU16(bar.next).value.value, ReadU16(Advance(bar.next, 2)).value.value))),
                       Advance(bar.next, 4))
  {
  }

  lemma BreadthIsDropped(b: Bar, x: Breadth)
    requires b.breadth == None
    ensures b.(breadth := Some(x)).(breadth := None) == b
  {
  }

  lemma BarRoundTrip(c: KLineCategory, shape: Shape, r: Reader, b: Bar, carry: int)
    requires r.bigEndian && EncodableBar(c, shape, b) && At(r, EncodeBar(c, shape, b, carry))
    ensures DecodeBar(c, shape, r, carry) == Ok(Step(b, Advance(r, |EncodeBar(c, shape, b, carry)|)))
  {
    if shape == IndexShape {
      IndexBarRoundTrip(c, r, b, carry);
    } else {
      assert EncodeBar(c, EquityShape, b, carry) == EncodeEquityBar(c, b, carry);
      EquityShapeRoundTrip(c, r, b, carry);
    }
  }

  lemma EquityShapeRoundTrip(c: KLineCategory, r: Reader, b: Bar, carry: int)
    requires r.bigEndian && EncodableBar(c, EquityShape, b) && At(r, EncodeEquityBar(c, b, carry))
    ensures DecodeBar(c, EquityShape, r, carry) == Ok(Step(b, Advance(r, |EncodeEquityBar(c, b, carry)|)))
  {
    EquityBarRoundTrip(c, r, b, carry);
    var shared := Step(b.(breadth := None), Advance(r, |EncodeEquityBar(c, b, carry)|));
    assert shared.value == b;
    EquityBarFromParts(c, r, carry, shared);
  }

  lemma IndexBarRoundTrip(c: KLineCategory, r: Reader, b: Bar, carry: int)
    requires r.bigEndian && EncodableBar(c, IndexShape, b) && At(r, EncodeBar(c, IndexShape, b, carry))
    ensures DecodeBar(c, IndexShape, r, carry) == Ok(Step(b, Advance(r, |EncodeBar(c, IndexShape, b, carry)|)))
  {
    var e := EncodeEquityBar(c, b, carry);
    var x := b.breadth.value;
    assert EncodeBar(c, IndexShape, b, carry) == e + EncodeBreadth(Some(x));
    AtConcat(r, e, EncodeBreadth(Some(x)));
    EquityBarRoundTrip(c, r, b, carry);
    var shared := Step(b.(breadth := None), Advance(r, |e|));
    BreadthRoundTrip(c, r, carry, shared, x);
    assert shared.value.(breadth := Some(x)) == b;
    assert |EncodeBar(c, IndexShape, b, carry)| == |e| + 4;
    assert Advance(shared.next, 4) == Advance(r, |EncodeBar(c, IndexShape, b, carry)|);
  }

  lemma BreadthRoundTrip(c: KLineCategory, r: Reader, carry: int, shared: Step<Bar>, x: Breadth)
    requires x.rising < 0x1_0000 && x.falling < 0x1_0000
    requires DecodeEquityBar(c, r, carry) == Ok(shared)
    requires shared.next.bigEndian && At(shared.next, EncodeBreadth(Some(x)))
    ensures DecodeBar(c, IndexShape, r, carry) == Ok(Step(shared.value.(breadth := Some(x)), Advance(shared.next, 4)))
  {
    BreadthWords(shared.next, x);
    IndexBarFromParts(c, r, carry, shared, x.rising, x.falling);
  }

  /** The two counters of an index bar read back as written. */
  lemma BreadthWords(r: Reader, x: Breadth)
    requires x.rising < 0x1_0000 && x.falling < 0x1_0000
    requires r.bigEndian && At(r, EncodeBreadth(Some(x)))
    ensures ReadU16(r) == Ok(Step(x.rising, Advance(r, 2)))
    ensures ReadU16(Advance(r, 2)) == Ok(Step(x.falling, Advance(r, 4)))
  {
    AtConcat(r, EncodeU16(x.rising), EncodeU16(x.falling));
    U16RoundTrip(r, x.rising);
    U16RoundTrip(Advance(r, 2), x.falling);
  }

  lemma IndexBarFromParts(c: KLineCategory, r: Reader, carry: int, shared: Step<Bar>, rising: nat, falling: nat)
    requires DecodeEquityBar(c, r, carry) == Ok(shared)
    requires ReadU16(shared.next) == Ok(Step(rising, Advance(shared.next, 2)))
    requires ReadU16(Advance(shared.next, 2)) == Ok(Step(falling, Advance(shared.next, 4)))
    ensures DecodeBar(c, IndexShape, r, carry)
            == Ok(Step(shared.value.(breadth := Some(Breadth(rising, falling))), Advance(shared.next, 4)))
  {
  }

  lemma EquityBarFromParts(c: KLineCategory, r: Reader, carry: int, shared: Step<Bar>)
    requires DecodeEquityBar(c, r, carry) == Ok(shared)
    ensures DecodeBar(c, EquityShape, r, carry) == Ok(shared)
  {
  }

  /** Decoding inverts the encoder: the carry chain reconstructs every price
      from the deltas the encoder took. */
  lemma {:induction false} BarsRoundTrip(c: KLineCategory, shape: Shape, r: Reader, bars: seq<Bar>, carry: int)
    requires r.bigEndian && EncodableBars(c, shape, bars) && At(r, EncodeBars(c, shape, bars, carry))
    ensures DecodeBars(c, shape, r, |bars|, carry)
            == Ok(Step(bars, Advance(r, |EncodeBars(c, shape, bars, carry)|)))
    decreases |bars|
  {
    if |bars| > 0 {
      var mid := Advance(r, |EncodeBar(c, shape, bars[0], carry)|);
      var after := Advance(r, |EncodeBars(c, shape, bars, carry)|);
      BarsSplit(c, shape, r, bars, carry);
      BarsRoundTrip(c, shape, mid, bars[1..], bars[0].close);
      assert Advance(mid, |EncodeBars(c, shape, bars[1..], bars[0].close)|) == after;
      BarsStep(c, shape, r, bars, carry, mid, after);
    }
  }

  /** The first encoded bar reads back, and the others follow it. */
  lemma BarsSplit(c: KLineCategory, shape: Shape, r: Reader, bars: seq<Bar>, carry: int)
    requires r.bigEndian && |bars| > 0 && EncodableBars(c, shape, bars) && At(r, EncodeBars(c, shape, bars, carry))
    ensures EncodableBars(c, shape, bars[1..])
    ensures DecodeBar(c, shape, r, carry) == Ok(Step(bars[0], Advance(r, |EncodeBar(c, shape, bars[0], carry)|)))
    ensures At(Advance(r, |EncodeBar(c, shape, bars[0], carry)|), EncodeBars(c, shape, bars[1..], bars[0].close))
    ensures |EncodeBars(c, shape, bars, carry)|
            == |EncodeBar(c, shape, bars[0], carry)| + |EncodeBars(c, shape, bars[1..], bars[0].close)|
  {
    var head := EncodeBar(c, shape, bars[0], carry);
    var tail := EncodeBars(c, shape, bars[1..], bars[0].close);
    assert EncodeBars(c, shape, bars, carry) == head + tail;
    AtConcat(r, head, tail);
    BarRoundTrip(c, shape, r, bars[0], carry);
  }

  lemma BarsStep(c: KLineCategory, shape: Shape, r: Reader, bars: seq<Bar>, carry: int, mid: Reader, after: Reader)
    requires |bars| > 0 && DecodeBar(c, shape, r, carry) == Ok(Step(bars[0], mid))
    requires DecodeBars(c, shape, mid, |bars[1..]|, bars[0].close) == Ok(Step(bars[1..], after))
    ensures DecodeBars(c, shape, r, |bars|, carry) == Ok(Step(bars, after))
  {
    BarsFromParts(c, shape, r, |bars|, carry, Step(bars[0], mid), bars[1..], after);
    HeadTail(bars);
  }

  /** One bar, then the rest from its close: the step `DecodeBars` takes. */
  lemma BarsFromParts(c: KLineCategory, shape: Shape, r: Reader, count: nat, carry: int,
                      first: Step<Bar>, rest: seq<Bar>, after: Reader)
    requires count > 0
    requires DecodeBar(c, shape, r, carry) == Ok(first)
    requires DecodeBars(c, shape, first.next, count - 1, first.value.close) == Ok(Step(rest, after))
    ensures DecodeBars(c, shape, r, count, carry) == Ok(Step([first.value] + rest, after))
  {
  }

  lemma ParseRoundTrip(c: KLineCategory, shape: Shape, bars: seq<Bar>)
    requires |bars| < 0x1_0000 && EncodableBars(c, shape, bars)
    ensures ParseKLine(c, shape, Open(EncodeKLine(c, shape, bars))) == Ok(bars)
  {
    var r := Open(EncodeKLine(c, shape, bars));
    var body := EncodeBars(c, shape, bars, 0);
    var after := Advance(Advance(r, 2), |body|);
    assert ReadU16(r) == Ok(Step(|bars|, Advance(r, 2))) && At(Advance(r, 2), body) by {
      AtConcat(r, EncodeU16(|bars|), body);
      U16RoundTrip(r, |bars|);
    }
    assert DecodeBars(c, shape, Advance(r, 2), |bars|, 0) == Ok(Step(bars, after)) by {
      BarsRoundTrip(c, shape, Advance(r, 2), bars, 0);
    }
    ParseFromParts(c, shape, r, |bars|, bars, after);
  }

  lemma ParseFromParts(c: KLineCategory, shape: Shape, r: Reader, count: nat, bars: seq<Bar>, after: Reader)
    requires ReadU16(r) == Ok(Step(count, Advance(r, 2)))
    requires DecodeBars(c, shape, Advance(r, 2), count, 0) == Ok(Step(bars, after))
    ensures ParseKLine(c, shape, r) == Ok(bars)
  {
  }

  /** An index response decodes to its bars. */
  lemma IndexResponseDecodes(c: KLineCategory, bars: seq<Bar>)
    requires |bars| < 0x1_0000 && EncodableBars(c, IndexShape, bars)
    ensures GetKLine(c, EncodeKLine(c, IndexShape, bars)) == Ok(bars)
  {
    ParseRoundTrip(c, IndexShape, bars);
  }

  /** An equity response decodes to its bars when the index hypothesis ends
      in a ValueError, the one failure the source rolls back on. */
  lemma EquityResponseAfterValueError(c: KLineCategory, bars: seq<Bar>)
    requires |bars| < 0x1_0000 && EncodableBars(c, EquityShape, bars)
    requires ParseKLine(c, IndexShape, Open(EncodeKLine(c, EquityShape, bars))) == Err(ValueError)
    ensures GetKLine(c, EncodeKLine(c, EquityShape, bars)) == Ok(bars)
  {
    ParseRoundTrip(c, EquityShape, bars);
  }

  // ---------------------------------------------------------------------
  // The one-bar equity response, under both rollback rules.

  /** Under the source's rule, a one-bar equity response fails: the index
      hypothesis reads the whole bar and then the first of its two extra
      counts runs off the end, which is a struct.error, not a ValueError. */
  lemma SingleEquityBarFails(c: KLineCategory, b: Bar)
    requires EncodableBar(c, EquityShape, b)
    ensures GetKLine(c, EncodeKLine(c, EquityShape, [b])) == Err(StructError)
  {
    IndexParseOfSingleEquityBar(c, b);
  }

  /** Under the corrected rule the same response decodes to its bar. */
  lemma SingleEquityBarRecovered(c: KLineCategory, b: Bar)
    requires EncodableBar(c, EquityShape, b)
    ensures GetKLineRecovering(c, EncodeKLine(c, EquityShape, [b])) == Ok([b])
  {
    IndexParseOfSingleEquityBar(c, b);
    assert [b][1..] == [];
    assert EncodableBars(c, EquityShape, [b]);
    ParseRoundTrip(c, EquityShape, [b]);
  }

  /** Every equity response whose index parse fails, for whatever reason,
      decodes to its bars under the corrected rule. */
  lemma RecoveringReadsEquityResponse(c: KLineCategory, bars: seq<Bar>)
    requires |bars| < 0x1_0000 && EncodableBars(c, EquityShape, bars)
    requires ParseKLine(c, IndexShape, Open(EncodeKLine(c, EquityShape, bars))).Err?
    ensures GetKLineRecovering(c, EncodeKLine(c, EquityShape, bars)) == Ok(bars)
  {
    ParseRoundTrip(c, EquityShape, bars);
  }

  lemma IndexParseOfSingleEquityBar(c: KLineCategory, b: Bar)
    requires EncodableBar(c, EquityShape, b)
    ensures ParseKLine(c, IndexShape, Open(EncodeKLine(c, EquityShape, [b]))) == Err(StructError)
  {
    assert [b][1..] == [];
    assert EncodableBars(c, EquityShape, [b]);
    var payload := EncodeKLine(c, EquityShape, [b]);
    var r := Open(payload);
    var e := EncodeEquityBar(c, b, 0);
    var r1 := Advance(r, 2);
    var shared := Step(b, Advance(r1, |e|));
    assert ReadU16(r) == Ok(Step(1, r1)) && At(r1, e) && shared.next.pos == |payload| by {
      assert EncodeBars(c, EquityShape, [b], 0) == e;
      assert payload == EncodeU16(1) + e;
      AtConcat(r, EncodeU16(1), e);
      U16RoundTrip(r, 1);
    }
    assert DecodeEquityBar(c, r1, 0) == Ok(shared) by {
      EquityBarRoundTrip(c, r1, b, 0);
      assert b.(breadth := None) == b;
    }
    IndexBarRunsShort(c, r1, 0, shared);
    ParseFailsInBars(c, IndexShape, r, 1, StructError);
  }

  /** The index shape fails with struct.error when the shared fields end
      less than 4 bytes before the end of the buffer. */
  lemma IndexBarRunsShort(c: KLineCategory, r: Reader, carry: int, shared: Step<Bar>)
    requires DecodeEquityBar(c, r, carry) == Ok(shared)
    requires shared.next.pos + 2 > |shared.next.data|
    ensures DecodeBars(c, IndexShape, r, 1, carry) == Err(StructError)
  {
    IndexBarFailsOnCounts(c, r, carry, shared);
    BarsFailAtFirst(c, IndexShape, r, 1, carry, StructError);
  }

  lemma IndexBarFailsOnCounts(c: KLineCategory, r: Reader, carry: int, shared: Step<Bar>)
    requires DecodeEquityBar(c, r, carry) == Ok(shared)
    requires ReadU16(shared.next) == Err(StructError)
    ensures DecodeBar(c, IndexShape, r, carry) == Err(StructError)
  {
  }

  lemma BarsFailAtFirst(c: KLineCategory, shape: Shape, r: Reader, count: nat, carry: int, e: Error)
    requires count > 0 && DecodeBar(c, shape, r, carry) == Err(e)
    ensures DecodeBars(c, shape, r, count, carry) == Err(e)
  {
  }

  lemma ParseFailsInBars(c: KLineCategory, shape: Shape, r: Reader, count: nat, e: Error)
    requires ReadU16(r) == Ok(Step(count, Advance(r, 2)))
    requires DecodeBars(c, shape, Advance(r, 2), count, 0) == Err(e)
    ensures ParseKLine(c, shape, r) == Err(e)
  {
  }
}

=== FILE: markets.dfy ===
/** The exchange enumeration (api.py, `Api.Market`) and its one-byte code.
Every decoder that meets a market byte converts it with `Market(code)`,
which raises ValueError for any value but the two members'.
 */
module Markets {
  import opened Results
  import opened ByteOrder
  import opened BinaryReader

  datatype Market = SZ | SH

  /** `market.value`. */
  function MarketCode(m: Market): (b: byte)
    ensures b < 2
  {
    match m
    case SZ => 0
    case SH => 1
  }

  /** `Api.Market(b)`: the member with that value, ValueError otherwise. */
  function MarketOf(b: int): (res: Result<Market>)
    ensures res.Ok? <==> b == 0 || b == 1
    ensures res.Err? ==> res.error == ValueError
    ensures res.Ok? ==> MarketCode(res.value) == b
  {
    if b == 0 then Ok(SZ)
    else if b == 1 then Ok(SH)
    else Err(ValueError)
  }

  /** `self.Market(reader.u8)`: a short buffer fails first, as struct.error. */
  function ReadMarket(r: Reader): (res: Result<Step<Market>>)
    ensures res.Err? ==> res.error in {StructError, ValueError}
    ensures res.Err? && res.error == StructError <==> r.pos >= |r.data|
    ensures res.Ok? <==> r.pos < |r.data| && r.data[r.pos] < 2
    ensures res.Ok? ==> res.value.next == Advance(r, 1) && MarketCode(res.value.value) == r.data[r.pos]
  {
    var b :- ReadU8(r);
    var m :- MarketOf(b.value);
    Ok(Step(m, b.next))
  }

  /** The code of a member converts back to it. */
  lemma MarketRoundTrip(m: Market)
    ensures MarketOf(MarketCode(m)) == Ok(m)
  {
  }

  lemma ReadMarketRoundTrip(r: Reader, m: Market)
    requires r.pos < |r.data| && r.data[r.pos] == MarketCode(m)
    ensures ReadMarket(r) == Ok(Step(m, Advance(r, 1)))
  {
    MarketRoundTrip(m);
  }
}

=== FILE: prices.dfy ===
/** Price scaling (api.py `_calc_price`, `_calc_price1k`).

Prices travel as integers: quotes and ticks in hundredths, K-line bars in
thousandths, most of them as a signed offset from a base value. The decoders
of this model keep those integers; these two functions say what the source
turns them into, and the decoders' modules prove which integer each reported
price is. Their operands are always integers read off the wire, so
the exact rational quotient is what the source's float division rounds, or,
above about 1.8e308, refuses with an OverflowError that is not modelled.
 */
module Prices {

  /** `_calc_price(base, offset)`: the price in hundredths `base + offset`. */
  function CalcPrice(base: int, offset: int): (p: real)
    ensures p * 100.0 == (base + offset) as real
  {
    (base + offset) as real / 100.0
  }

  /** `_calc_price1k(base, offset)`: the price in thousandths `base + offset`. */
  function CalcPrice1k(base: int, offset: int): (p: real)
    ensures p * 1000.0 == (base + offset) as real
  {
    (base + offset) as real / 1000.0
  }

}

=== FILE: quotes.dfy ===
/** Real-time quotes (api.py `get_stock_quotes`, `_format_time`).

A response skips two bytes, then carries a 16-bit count and one record per
requested stock. A record opens with nine bytes packed as `<B6sH` (market
byte, six-byte code, a 16-bit word) and the current price as a vint; every
other price of the record is a vint offset from that current price. The
market byte is converted only after the price vint has been read, and the
server time is handed to `_format_time`, which raises ValueError on values
too short to slice.

Prices are kept as integers in hundredths (`price + offset`); the source
divides them by 100 (see `Prices.CalcPrice`). The amount stays a raw float32.
 */
module Quotes {
  import opened Results
  import opened ByteOrder
  import opened BinaryReader
  import opened VarInt
  import opened Wire
  import opened Markets
  import opened Prices

  // ---------------------------------------------------------------------
  // The server time check of `_format_time`

  function DigitChar(d: nat): (c: char)
    requires d < 10
    ensures '0' <= c <= '9'
  {
    ('0' as int + d) as char
  }

  /** `str(n)` for a natural number: its decimal digits, no leading zero. */
  function Digits(n: nat): (s: string)
    ensures |s| >= 1 && forall i :: 0 <= i < |s| ==> '0' <= s[i] <= '9'
    decreases n
  {
    if n < 10 then [DigitChar(n)] else Digits(n / 10) + [DigitChar(n % 10)]
  }

  /** `str(t)`. */
  function DecimalText(t: int): (s: string)
  {
    if t < 0 then "-" + Digits(-t) else Digits(t)
  }

  /** A Python slice bound: a negative index counts from the end, and the
      result is clamped to the sequence. */
  function SliceBound(len: nat, i: int): (k: nat)
    ensures k <= len
  {
    if i < 0 then (if i + len < 0 then 0 else i + len) else (if i > len then len else i)
  }

  /** `s[lo:hi]` with Python's rules: never an error, possibly empty. */
  function PySlice(s: string, lo: int, hi: int): (t: string)
    ensures |t| <= |s|
  {
    var a := SliceBound(|s|, lo);
    var b := SliceBound(|s|, hi);
    if a < b then s[a..b] else []
  }

  predicate AllDigits(s: string)
  {
    |s| >= 1 && forall i :: 0 <= i < |s| ==> '0' <= s[i] <= '9'
  }

  /** One character that is not a digit spoils the whole text. */
  lemma NotAllDigits(s: string, i: nat)
    requires i < |s| && !('0' <= s[i] <= '9')
    ensures !AllDigits(s)
  {
  }

  /** The texts `int()` accepts among those a slice of `str(t)` can be: an
      optional sign followed by at least one digit. */
  predicate ParsesAsInt(s: string)
  {
    AllDigits(s) || (|s| >= 2 && (s[0] == '-' || s[0] == '+') && AllDigits(s[1..]))
  }

  /** `_format_time(t)` raises nothing: `int(str(t)[-6:-4])` succeeds. The
      later slices it converts are digits whenever this one parses. */
  predicate SliceParses(t: int)
  {
    ParsesAsInt(PySlice(DecimalText(t), -6, -4))
  }

  /** The most decimal digits CPython converts with `str()`: from 3.10.7
      on, a longer integer is a ValueError. The source's `match` statements
      need 3.10 or later. */
  const MaxStrDigits: nat := 4300

  function Magnitude(t: int): nat
  {
    if t < 0 then -t else t
  }

  /** `str(t)` succeeds: the digits are within CPython's limit. */
  predicate StrConverts(t: int)
  {
    |Digits(Magnitude(t))| <= MaxStrDigits
  }

  /** The times `_format_time` accepts: `str` converts them and the first
      slice parses (see `SliceParsesRange` and `StrConvertsRange`). */
  predicate ServerTimeFormats(t: int)
  {
    StrConverts(t) && SliceParses(t)
  }

  function Pow10(k: nat): (p: nat)
    ensures p >= 1
  {
    if k == 0 then 1 else 10 * Pow10(k - 1)
  }

  /** A natural number has more than `k` digits exactly when it reaches
      10^k. */
  lemma {:induction false} DigitsLength(n: nat, k: nat)
    requires k >= 1
    ensures |Digits(n)| > k <==> n >= Pow10(k)
    decreases n
  {
    if n >= 10 {
      if k > 1 {
        DigitsLength(n / 10, k - 1);
        assert n / 10 >= Pow10(k - 1) <==> n >= 10 * Pow10(k - 1);
      }
    } else {
      assert Pow10(k) >= 10 by {
        assert Pow10(k) == 10 * Pow10(k - 1);
      }
    }
  }

  /** The slice `[-6:-4]` of a text: the two characters four from the end,
      fewer when the text is shorter than six. */
  lemma SliceShape(s: string)
    ensures |s| >= 6 ==> PySlice(s, -6, -4) == s[|s| - 6 .. |s| - 4]
    ensures |s| == 5 ==> PySlice(s, -6, -4) == s[0..1]
    ensures |s| <= 4 ==> PySlice(s, -6, -4) == []
  {
  }

  lemma SliceParsesNonNegative(t: int)
    requires t >= 0
    ensures SliceParses(t) <==> t >= 10000
  {
    var s := Digits(t);
    assert Pow10(4) == 10000;
    DigitsLength(t, 4);
    SliceShape(s);
    if |s| >= 5 {
      assert AllDigits(PySlice(s, -6, -4));
    }
  }

  lemma SliceParsesNegative(t: int)
    requires t < 0
    ensures SliceParses(t) <==> t <= -10000
  {
    var d := Digits(-t);
    assert Pow10(4) == 10000;
    DigitsLength(-t, 4);
    assert DecimalText(t) == "-" + d;
    NegativeSlice(d);
  }

  /** The slice `[-6:-4]` of a negative number's text `"-" + d` parses
      exactly when `d` has more than four digits. */
  lemma NegativeSlice(d: string)
    requires AllDigits(d)
    ensures ParsesAsInt(PySlice("-" + d, -6, -4)) <==> |d| > 4
  {
    var s := "-" + d;
    SliceShape(s);
    if |d| >= 6 {
      LongNegativeSlice(d);
    } else if |d| == 5 {
      assert PySlice(s, -6, -4) == ['-', d[0]];
      assert AllDigits(PySlice(s, -6, -4)[1..]);
    } else if |d| == 4 {
      assert PySlice(s, -6, -4) == ['-'];
      NotAllDigits(['-'], 0);
    }
  }

  lemma LongNegativeSlice(d: string)
    requires AllDigits(d) && |d| >= 6
    ensures AllDigits(PySlice("-" + d, -6, -4))
  {
    var s := "-" + d;
    SliceShape(s);
    assert s[|s| - 6 .. |s| - 4] == d[|d| - 6 .. |d| - 4];
  }

  /** The slice `_format_time` parses first is a number exactly when the
      time has at least five digits: every time from -9999 to 9999 is a
      ValueError. */
  lemma SliceParsesRange(t: int)
    ensures SliceParses(t) <==> t <= -10000 || t >= 10000
  {
    if t >= 0 {
      SliceParsesNonNegative(t);
    } else {
      SliceParsesNegative(t);
    }
  }

  /** `str(t)` succeeds exactly below 10^4300 in magnitude, so the times
      `_format_time` accepts are those with 5 to 4300 digits. */
  lemma StrConvertsRange(t: int)
    ensures StrConverts(t) <==> Magnitude(t) < Pow10(MaxStrDigits)
    ensures ServerTimeFormats(t) <==> 10000 <= Magnitude(t) < Pow10(MaxStrDigits)
  {
    DigitsLength(Magnitude(t), MaxStrDigits);
    SliceParsesRange(t);
  }

  // ---------------------------------------------------------------------
  // Records

  /** The nine packed bytes that open a record, unpacked: `<B6sH` is
      little-endian whatever the reader's flag. */
  datatype QuoteKey = QuoteKey(marketCode: byte, code: seq<byte>, active1: nat)

  /** Previous close, open, high and low in hundredths, and the raw server
      time. */
  datatype DaySummary = DaySummary(prevClose: int, open: int, high: int, low: int, serverTime: int)

  /** The volume block between the server time and the order book. */
  datatype Trading = Trading(reserved1: int, volume: int, curVolume: int, amount: Float32,
                             inner: int, outer: int, reserved2: int, reserved3: int)

  /** One level of the order book: prices in hundredths, volumes as sent. */
  datatype Level = Level(bid: int, ask: int, bidVolume: int, askVolume: int)

  /** The fields after the order book; `rate` is the 16-bit signed growth
      rate in hundredths of a percent. */
  datatype QuoteTail = QuoteTail(reserved4: nat, reserved5: int, reserved6: int, reserved7: int,
                                 reserved8: int, rate: int, active2: nat)

  datatype Quote = Quote(market: Market, code: seq<byte>, active1: nat, price: int,
                         day: DaySummary, trading: Trading, levels: seq<Level>, tail: QuoteTail)

  /** The depth of the order book every record carries. */
  const BookDepth: nat := 5

  /** `struct.unpack('<B6sH', reader.read(9))`: fewer than nine bytes left is
      a struct.error. */
  function ReadQuoteKey(r: Reader): (res: Result<Step<QuoteKey>>)
    ensures res.Ok? <==> 9 <= Remaining(r)
    ensures res.Err? ==> res.error == StructError
    ensures res.Ok? ==> res.value.next == Advance(r, 9)
    ensures res.Ok? ==> res.value.value.marketCode == r.data[r.pos] && |res.value.value.code| == 6
  {
    var bs := Read(r, 9);
    if |bs.value| < 9 then Err(StructError)
    else Ok(Step(QuoteKey(bs.value[0], bs.value[1..7], LittleEndian(bs.value[7..9])), bs.next))
  }

  /** The four day prices as offsets from `base`, then the server time,
      which must survive `_format_time`. */
  function ReadDaySummary(r: Reader, base: int): (res: Result<Step<DaySummary>>)
    ensures res.Err? ==> res.error in {StructError, ValueError}
    ensures res.Ok? ==> ServerTimeFormats(res.value.value.serverTime)
    ensures res.Ok? ==> res.value.next.data == r.data && res.value.next.bigEndian == r.bigEndian
    ensures res.Ok? ==> r.pos + 5 <= res.value.next.pos <= |r.data|
  {
    var offsets :- ReadVInts(r, 4);
    var time :- ReadVInt(offsets.next);
    if !ServerTimeFormats(time.value) then Err(ValueError)
    else Ok(Step(SummaryAt(base, offsets.value, time.value), time.next))
  }

  /** The day summary whose prices are `offsets` from `base`. */
  function SummaryAt(base: int, offsets: seq<int>, time: int): (d: DaySummary)
    requires |offsets| == 4
  {
    DaySummary(base + offsets[0], base + offsets[1], base + offsets[2], base + offsets[3], time)
  }

  function ReadTrading(r: Reader): (res: Result<Step<Trading>>)
    ensures res.Err? ==> res.error == StructError
    ensures res.Ok? ==> res.value.value.amount.bits < 0x1_0000_0000
    ensures res.Ok? ==> res.value.next.data == r.data && res.value.next.bigEndian == r.bigEndian
    ensures res.Ok? ==> r.pos + 11 <= res.value.next.pos <= |r.data|
  {
    var volumes :- ReadVInts(r, 3);
    var amount :- ReadF32(volumes.next);
    var rest :- ReadVInts(amount.next, 4);
    var v := volumes.value;
    var w := rest.value;
    Ok(Step(Trading(v[0], v[1], v[2], amount.value, w[0], w[1], w[2], w[3]), rest.next))
  }

  /** Bid and ask as offsets from `base`, then their volumes. */
  function ReadLevel(r: Reader, base: int): (res: Result<Step<Level>>)
    ensures res.Err? ==> res.error == StructError
    ensures res.Ok? ==> res.value.next.data == r.data && res.value.next.bigEndian == r.bigEndian
    ensures res.Ok? ==> r.pos + 4 <= res.value.next.pos <= |r.data|
  {
    var v :- ReadVInts(r, 4);
    Ok(Step(LevelAt(base, v.value), v.next))
  }

  /** The level whose bid and ask are the first two `fields` from `base`. */
  function LevelAt(base: int, fields: seq<int>): (l: Level)
    requires |fields| == 4
  {
    Level(base + fields[0], base + fields[1], fields[2], fields[3])
  }

  function ReadLevels(r: Reader, base: int, n: nat): (res: Result<Step<seq<Level>>>)
    ensures res.Err? ==> res.error == StructError
    ensures res.Ok? ==> |res.value.value| == n
    ensures res.Ok? ==> res.value.next.data == r.data && res.value.next.bigEndian == r.bigEndian
    ensures res.Ok? ==> r.pos <= res.value.next.pos
    decreases n
  {
    if n == 0 then Ok(Step([], r))
    else
      var first :- ReadLevel(r, base);
      var rest :- ReadLevels(first.next, base, n - 1);
      Ok(Step([first.value] + rest.value, rest.next))
  }

  function ReadQuoteTail(r: Reader): (res: Result<Step<QuoteTail>>)
    ensures res.Err? ==> res.error == StructError
    ensures res.Ok? ==> res.value.value.reserved4 < 0x1_0000 && res.value.value.active2 < 0x1_0000
    ensures res.Ok? ==> -0x8000 <= res.value.value.rate < 0x8000
    ensures res.Ok? ==> res.value.next.data == r.data && res.value.next.bigEndian == r.bigEndian
    ensures res.Ok? ==> r.pos + 10 <= res.value.next.pos <= |r.data|
  {
    var reserved4 :- ReadU16(r);
    var v :- ReadVInts(reserved4.next, 4);
    var rate :- ReadI16(v.next);
    var active2 :- ReadU16(rate.next);
    Ok(Step(QuoteTail(reserved4.value, v.value[0], v.value[1], v.value[2], v.value[3], rate.value, active2.value),
            active2.next))
  }

  /** The day prices the source reports, `_calc_price(price, offset)` of
      the offsets as read, are the decoded fields taken as hundredths. */
  lemma DaySummaryPrices(r: Reader, base: int)
    requires ReadDaySummary(r, base).Ok?
    ensures ReadVInts(r, 4).Ok?
    ensures var o := ReadVInts(r, 4).value.value; var d := ReadDaySummary(r, base).value.value;
      && CalcPrice(base, o[0]) == d.prevClose as real / 100.0
      && CalcPrice(base, o[1]) == d.open as real / 100.0
      && CalcPrice(base, o[2]) == d.high as real / 100.0
      && CalcPrice(base, o[3]) == d.low as real / 100.0
  {
  }

  /** The bid and ask the source reports for a level, `_calc_price(price,
      offset)`, are the decoded fields taken as hundredths; the volumes are
      the next two vints as read. */
  lemma LevelPrices(r: Reader, base: int)
    requires ReadLevel(r, base).Ok?
    ensures ReadVInts(r, 4).Ok?
    ensures var v := ReadVInts(r, 4).value.value; var l := ReadLevel(r, base).value.value;
      && CalcPrice(base, v[0]) == l.bid as real / 100.0
      && CalcPrice(base, v[1]) == l.ask as real / 100.0
      && l.bidVolume == v[2] && l.askVolume == v[3]
  {
  }

  /** One record, in the order the source evaluates it: the packed key, the
      price, the market conversion, then the fields. */
  function ReadQuote(r: Reader): (res: Result<Step<Quote>>)
    ensures res.Err? ==> res.error in {StructError, ValueError}
    ensures res.Ok? ==> |res.value.value.code| == 6 && |res.value.value.levels| == BookDepth
    ensures res.Ok? ==> res.value.next.data == r.data && res.value.next.bigEndian == r.bigEndian
    ensures res.Ok? ==> r.pos + 9 < res.value.next.pos
  {
    var key :- ReadQuoteKey(r);
    var price :- ReadVInt(key.next);
    var market :- MarketOf(key.value.marketCode);
    var day :- ReadDaySummary(price.next, price.value);
    var trading :- ReadTrading(day.next);
    var levels :- ReadLevels(trading.next, price.value, BookDepth);
    var tail :- ReadQuoteTail(levels.next);
    Ok(Step(Quote(market, key.value.code, key.value.active1, price.value,
                  day.value, trading.value, levels.value, tail.value), tail.next))
  }

  function DecodeQuotes(r: Reader, count: nat): (res: Result<Step<seq<Quote>>>)
    ensures res.Err? ==> res.error in {StructError, ValueError}
    ensures res.Ok? ==> |res.value.value| == count
    decreases count
  {
    if count == 0 then Ok(Step([], r))
    else
      var first :- ReadQuote(r);
      var rest :- DecodeQuotes(first.next, count - 1);
      Ok(Step([first.value] + rest.value, rest.next))
  }

  /** `get_stock_quotes`, from the inflated payload on: two bytes skipped,
      the count, the records. */
  function GetStockQuotes(payload: seq<byte>): (res: Result<seq<Quote>>)
    ensures |payload| < 4 ==> res == Err(StructError)
    ensures res.Err? ==> res.error in {StructError, ValueError}
    ensures res.Ok? ==> |res.value| == LittleEndian(payload[2..4])
  {
    var count :- ReadCount(payload, 2);
    var quotes :- DecodeQuotes(count.next, count.value);
    Ok(quotes.value)
  }

  // ---------------------------------------------------------------------
  // Error order

  /** Too few bytes for the packed key is a struct.error, whatever follows. */
  lemma ShortKeyFails(r: Reader)
    requires Remaining(r) < 9
    ensures ReadQuote(r) == Err(StructError)
  {
  }

  /** An unknown market byte is reported only once the price vint is
      complete: before that, the record fails as a struct.error. */
  lemma UnknownMarketAfterPrice(r: Reader)
    requires 9 <= Remaining(r) && r.data[r.pos] >= 2
    ensures ReadQuote(r) == Err(if Terminated(Advance(r, 9)) then ValueError else StructError)
  {
  }

  /** With the key, price and market in place, a server time from -9999 to
      9999 fails the record with a ValueError once it has been read. */
  lemma ShortServerTimeFails(r: Reader, base: int, s: Step<seq<int>>, t: Step<int>)
    requires ReadVInts(r, 4) == Ok(s) && ReadVInt(s.next) == Ok(t) && -10000 < t.value < 10000
    ensures ReadDaySummary(r, base) == Err(ValueError)
  {
    SliceParsesRange(t.value);
  }

  /** A server time too long for `str()` fails the record with ValueError
      as well. */
  lemma LongServerTimeFails(r: Reader, base: int, s: Step<seq<int>>, t: Step<int>)
    requires ReadVInts(r, 4) == Ok(s) && ReadVInt(s.next) == Ok(t) && Magnitude(t.value) >= Pow10(MaxStrDigits)
    ensures ReadDaySummary(r, base) == Err(ValueError)
  {
    StrConvertsRange(t.value);
  }

  // ---------------------------------------------------------------------
  // Encoding

  predicate TailFits(t: QuoteTail)
  {
    t.reserved4 < 0x1_0000 && -0x8000 <= t.rate < 0x8000 && t.active2 < 0x1_0000
  }

  /** The records a server can send: a six-byte code, 16-bit words that fit,
      a server time `_format_time` accepts and a full order book. */
  predicate QuoteFits(q: Quote)
  {
    && |q.code| == 6 && q.active1 < 0x1_0000
    && ServerTimeFormats(q.day.serverTime)
    && q.trading.amount.bits < 0x1_0000_0000
    && |q.levels| == BookDepth
    && TailFits(q.tail)
  }

  function EncodeQuoteKey(m: Market, code: seq<byte>, active1: nat): (bs: seq<byte>)
    requires |code| == 6 && active1 < 0x1_0000
    ensures |bs| == 9
  {
    [MarketCode(m)] + code + LeBytes(active1, 2)
  }

  /** The offsets that carry a day summary's prices against `base`. */
  function SummaryOffsets(d: DaySummary, base: int): (xs: seq<int>)
    ensures |xs| == 4 && SummaryAt(base, xs, d.serverTime) == d
  {
    [d.prevClose - base, d.open - base, d.high - base, d.low - base]
  }

  function EncodeDaySummary(d: DaySummary, base: int): (bs: seq<byte>)
  {
    EncodeVInts(SummaryOffsets(d, base)) + EncodeVInt(d.serverTime)
  }

  function EncodeTrading(t: Trading): (bs: seq<byte>)
    requires t.amount.bits < 0x1_0000_0000
  {
    EncodeVInts([t.reserved1, t.volume, t.curVolume]) + EncodeF32(t.amount)
    + EncodeVInts([t.inner, t.outer, t.reserved2, t.reserved3])
  }

  /** The fields that carry a level against `base`. */
  function LevelFields(l: Level, base: int): (xs: seq<int>)
    ensures |xs| == 4 && LevelAt(base, xs) == l
  {
    [l.bid - base, l.ask - base, l.bidVolume, l.askVolume]
  }

  function EncodeLevel(l: Level, base: int): (bs: seq<byte>)
  {
    EncodeVInts(LevelFields(l, base))
  }

  function EncodeLevels(ls: seq<Level>, base: int): (bs: seq<byte>)
  {
    if |ls| == 0 then [] else EncodeLevel(ls[0], base) + EncodeLevels(ls[1..], base)
  }

  function EncodeQuoteTail(t: QuoteTail): (bs: seq<byte>)
    requires TailFits(t)
  {
    EncodeU16(t.reserved4) + EncodeVInts([t.reserved5, t.reserved6, t.reserved7, t.reserved8])
    + EncodeI16(t.rate) + EncodeU16(t.active2)
  }

  /** A record laid out field after field, right-nested so that each part
      can be peeled off the front. */
  function EncodeQuote(q: Quote): (bs: seq<byte>)
    requires QuoteFits(q)
  {
    EncodeQuoteKey(q.market, q.code, q.active1)
    + (EncodeVInt(q.price)
    + (EncodeDaySummary(q.day, q.price)
    + (EncodeTrading(q.trading)
    + (EncodeLevels(q.levels, q.price)
    + EncodeQuoteTail(q.tail)))))
  }

  predicate AllFit(qs: seq<Quote>)
  {
    forall i :: 0 <= i < |qs| ==> QuoteFits(qs[i])
  }

  function EncodeQuotes(qs: seq<Quote>): (bs: seq<byte>)
    requires AllFit(qs)
  {
    if |qs| == 0 then [] else EncodeQuote(qs[0]) + EncodeQuotes(qs[1..])
  }

  // ---------------------------------------------------------------------
  // Round trips

  lemma QuoteKeyRoundTrip(r: Reader, m: Market, code: seq<byte>, active1: nat)
    requires |code| == 6 && active1 < 0x1_0000 && At(r, EncodeQuoteKey(m, code, active1))
    ensures ReadQuoteKey(r) == Ok(Step(QuoteKey(MarketCode(m), code, active1), Advance(r, 9)))
  {
    var bs := EncodeQuoteKey(m, code, active1);
    assert Read(r, 9).value == bs;
    assert bs[1..7] == code && bs[7..9] == LeBytes(active1, 2);
    LittleEndianInverse(active1, 2);
  }

  lemma DaySummaryRoundTrip(r: Reader, d: DaySummary, base: int)
    requires ServerTimeFormats(d.serverTime) && At(r, EncodeDaySummary(d, base))
    ensures ReadDaySummary(r, base) == Ok(Step(d, Advance(r, |EncodeDaySummary(d, base)|)))
  {
    SummaryFieldsRoundTrip(r, SummaryOffsets(d, base), d.serverTime, base);
  }

  /** The same, for any four offsets and a time. */
  lemma SummaryFieldsRoundTrip(r: Reader, xs: seq<int>, t: int, base: int)
    requires |xs| == 4 && ServerTimeFormats(t) && At(r, EncodeVInts(xs) + EncodeVInt(t))
    ensures ReadDaySummary(r, base) == Ok(Step(SummaryAt(base, xs, t), Advance(r, |EncodeVInts(xs) + EncodeVInt(t)|)))
  {
    var mid := Advance(r, |EncodeVInts(xs)|);
    var end := Advance(mid, |EncodeVInt(t)|);
    AtConcat(r, EncodeVInts(xs), EncodeVInt(t));
    VIntsRoundTrip(r, xs);
    VIntRoundTrip(mid, t);
    assert end == Advance(r, |EncodeVInts(xs) + EncodeVInt(t)|) by {
      AdvanceAdd(r, |EncodeVInts(xs)|, |EncodeVInt(t)|);
    }
    DaySummaryFromParts(r, base, Step(xs, mid), Step(t, end));
  }

  lemma DaySummaryFromParts(r: Reader, base: int, offsets: Step<seq<int>>, time: Step<int>)
    requires |offsets.value| == 4 && ServerTimeFormats(time.value)
    requires ReadVInts(r, 4) == Ok(offsets) && ReadVInt(offsets.next) == Ok(time)
    ensures ReadDaySummary(r, base) == Ok(Step(SummaryAt(base, offsets.value, time.value), time.next))
  {
  }

  lemma TradingRoundTrip(r: Reader, t: Trading)
    requires r.bigEndian && t.amount.bits < 0x1_0000_0000 && At(r, EncodeTrading(t))
    ensures ReadTrading(r) == Ok(Step(t, Advance(r, |EncodeTrading(t)|)))
  {
    var xs := [t.reserved1, t.volume, t.curVolume];
    var ys := [t.inner, t.outer, t.reserved2, t.reserved3];
    var a := EncodeVInts(xs);
    var b := EncodeF32(t.amount);
    var c := EncodeVInts(ys);
    AtConcat(r, a + b, c);
    AtConcat(r, a, b);
    VIntsRoundTrip(r, xs);
    var r1 := Advance(r, |a|);
    F32RoundTrip(r1, t.amount);
    var r2 := Advance(r1, 4);
    assert r2 == Advance(r, |a + b|);
    VIntsRoundTrip(r2, ys);
    var r3 := Advance(r2, |c|);
    assert r3 == Advance(r, |EncodeTrading(t)|);
    TradingFromParts(r, Step(xs, r1), Step(t.amount, r2), Step(ys, r3));
  }

  lemma TradingFromParts(r: Reader, volumes: Step<seq<int>>, amount: Step<Float32>, rest: Step<seq<int>>)
    requires |volumes.value| == 3 && |rest.value| == 4
    requires ReadVInts(r, 3) == Ok(volumes) && ReadF32(volumes.next) == Ok(amount)
    requires ReadVInts(amount.next, 4) == Ok(rest)
    ensures var v := volumes.value;
            var w := rest.value;
            ReadTrading(r) == Ok(Step(Trading(v[0], v[1], v[2], amount.value, w[0], w[1], w[2], w[3]), rest.next))
  {
  }

  lemma LevelRoundTrip(r: Reader, l: Level, base: int)
    requires At(r, EncodeLevel(l, base))
    ensures ReadLevel(r, base) == Ok(Step(l, Advance(r, |EncodeLevel(l, base)|)))
  {
    var xs := LevelFields(l, base);
    VIntsRoundTrip(r, xs);
    LevelFromVInts(r, base, Step(xs, Advance(r, |EncodeLevel(l, base)|)));
  }

  lemma LevelFromVInts(r: Reader, base: int, v: Step<seq<int>>)
    requires |v.value| == 4 && ReadVInts(r, 4) == Ok(v)
    ensures ReadLevel(r, base) == Ok(Step(LevelAt(base, v.value), v.next))
  {
  }

  lemma {:induction false} LevelsRoundTrip(r: Reader, ls: seq<Level>, base: int)
    requires At(r, EncodeLevels(ls, base))
    ensures ReadLevels(r, base, |ls|) == Ok(Step(ls, Advance(r, |EncodeLevels(ls, base)|)))
    decreases |ls|
  {
    if |ls| > 0 {
      var mid := Advance(r, |EncodeLevel(ls[0], base)|);
      var after := Advance(r, |EncodeLevels(ls, base)|);
      LevelsSplit(r, ls, base);
      LevelsRoundTrip(mid, ls[1..], base);
      assert Advance(mid, |EncodeLevels(ls[1..], base)|) == after;
      LevelsStep(r, ls, base, mid, after);
    }
  }

  lemma LevelsSplit(r: Reader, ls: seq<Level>, base: int)
    requires |ls| > 0 && At(r, EncodeLevels(ls, base))
    ensures ReadLevel(r, base) == Ok(Step(ls[0], Advance(r, |EncodeLevel(ls[0], base)|)))
    ensures At(Advance(r, |EncodeLevel(ls[0], base)|), EncodeLevels(ls[1..], base))
    ensures |EncodeLevels(ls, base)| == |EncodeLevel(ls[0], base)| + |EncodeLevels(ls[1..], base)|
  {
    assert EncodeLevels(ls, base) == EncodeLevel(ls[0], base) + EncodeLevels(ls[1..], base);
    AtConcat(r, EncodeLevel(ls[0], base), EncodeLevels(ls[1..], base));
    LevelRoundTrip(r, ls[0], base);
  }

  lemma LevelsStep(r: Reader, ls: seq<Level>, base: int, mid: Reader, after: Reader)
    requires |ls| > 0 && ReadLevel(r, base) == Ok(Step(ls[0], mid))
    requires ReadLevels(mid, base, |ls[1..]|) == Ok(Step(ls[1..], after))
    ensures ReadLevels(r, base, |ls|) == Ok(Step(ls, after))
  {
    LevelsFromParts(r, base, |ls|, Step(ls[0], mid), Step(ls[1..], after));
    HeadTail(ls);
  }

  lemma LevelsFromParts(r: Reader, base: int, n: nat, first: Step<Level>, rest: Step<seq<Level>>)
    requires n > 0 && ReadLevel(r, base) == Ok(first) && ReadLevels(first.next, base, n - 1) == Ok(rest)
    ensures ReadLevels(r, base, n) == Ok(Step([first.value] + rest.value, rest.next))
  {
  }

  lemma QuoteTailRoundTrip(r: Reader, t: QuoteTail)
    requires r.bigEndian && TailFits(t) && At(r, EncodeQuoteTail(t))
    ensures ReadQuoteTail(r) == Ok(Step(t, Advance(r, |EncodeQuoteTail(t)|)))
  {
    var xs := [t.reserved5, t.reserved6, t.reserved7, t.reserved8];
    var a := EncodeU16(t.reserved4);
    var b := EncodeVInts(xs);
    var c := EncodeI16(t.rate);
    var d := EncodeU16(t.active2);
    AtConcat(r, a + b + c, d);
    AtConcat(r, a + b, c);
    AtConcat(r, a, b);
    U16RoundTrip(r, t.reserved4);
    var r1 := Advance(r, 2);
    VIntsRoundTrip(r1, xs);
    var r2 := Advance(r1, |b|);
    assert r2 == Advance(r, |a + b|);
    I16RoundTrip(r2, t.rate);
    var r3 := Advance(r2, 2);
    assert r3 == Advance(r, |a + b + c|);
    U16RoundTrip(r3, t.active2);
    var r4 := Advance(r3, 2);
    assert r4 == Advance(r, |EncodeQuoteTail(t)|);
    QuoteTailFromParts(r, Step(t.reserved4, r1), Step(xs, r2), Step(t.rate, r3), Step(t.active2, r4));
  }

  lemma QuoteTailFromParts(r: Reader, reserved4: Step<nat>, v: Step<seq<int>>, rate: Step<int>, active2: Step<nat>)
    requires |v.value| == 4
    requires ReadU16(r) == Ok(reserved4) && ReadVInts(reserved4.next, 4) == Ok(v)
    requires ReadI16(v.next) == Ok(rate) && ReadU16(rate.next) == Ok(active2)
    ensures ReadQuoteTail(r)
            == Ok(Step(QuoteTail(reserved4.value, v.value[0], v.value[1], v.value[2], v.value[3], rate.value,
                                 active2.value), active2.next))
  {
  }

  /** A record written field by field reads back as itself. */
  lemma QuoteRoundTrip(r: Reader, q: Quote)
    requires r.bigEndian && QuoteFits(q) && At(r, EncodeQuote(q))
    ensures ReadQuote(r) == Ok(Step(q, Advance(r, |EncodeQuote(q)|)))
  {
    var a := EncodeQuoteKey(q.market, q.code, q.active1);
    var b := EncodeVInt(q.price);
    var c := EncodeDaySummary(q.day, q.price);
    var d := EncodeTrading(q.trading);
    var e := EncodeLevels(q.levels, q.price);
    var f := EncodeQuoteTail(q.tail);
    AtConcat(r, a, b + (c + (d + (e + f))));
    var r1 := Advance(r, |a|);
    AtConcat(r1, b, c + (d + (e + f)));
    var r2 := Advance(r1, |b|);
    AtConcat(r2, c, d + (e + f));
    var r3 := Advance(r2, |c|);
    AtConcat(r3, d, e + f);
    var r4 := Advance(r3, |d|);
    AtConcat(r4, e, f);
    var r5 := Advance(r4, |e|);
    var r6 := Advance(r5, |f|);
    assert r6 == Advance(r, |EncodeQuote(q)|);
    QuoteKeyRoundTrip(r, q.market, q.code, q.active1);
    VIntRoundTrip(r1, q.price);
    MarketRoundTrip(q.market);
    DaySummaryRoundTrip(r2, q.day, q.price);
    TradingRoundTrip(r3, q.trading);
    LevelsRoundTrip(r4, q.levels, q.price);
    QuoteTailRoundTrip(r5, q.tail);
    QuoteFromParts(r, QuoteKey(MarketCode(q.market), q.code, q.active1), r1, q.price, r2, q.market,
                   Step(q.day, r3), Step(q.trading, r4), Step(q.levels, r5), Step(q.tail, r6));
  }

  lemma QuoteFromParts(r: Reader, key: QuoteKey, r1: Reader, price: int, r2: Reader, market: Market,
                       day: Step<DaySummary>, trading: Step<Trading>, levels: Step<seq<Level>>,
                       tail: Step<QuoteTail>)
    requires ReadQuoteKey(r) == Ok(Step(key, r1)) && ReadVInt(r1) == Ok(Step(price, r2))
    requires MarketOf(key.marketCode) == Ok(market)
    requires ReadDaySummary(r2, price) == Ok(day) && ReadTrading(day.next) == Ok(trading)
    requires ReadLevels(trading.next, price, BookDepth) == Ok(levels) && ReadQuoteTail(levels.next) == Ok(tail)
    ensures ReadQuote(r)
            == Ok(Step(Quote(market, key.code, key.active1, price, day.value, trading.value, levels.value,
                             tail.value), tail.next))
  {
  }

  lemma {:induction false} QuotesRoundTrip(r: Reader, qs: seq<Quote>)
    requires r.bigEndian && AllFit(qs) && At(r, EncodeQuotes(qs))
    ensures DecodeQuotes(r, |qs|) == Ok(Step(qs, Advance(r, |EncodeQuotes(qs)|)))
    decreases |qs|
  {
    if |qs| > 0 {
      var mid := Advance(r, |EncodeQuote(qs[0])|);
      var after := Advance(r, |EncodeQuotes(qs)|);
      QuotesSplit(r, qs);
      QuotesRoundTrip(mid, qs[1..]);
      assert Advance(mid, |EncodeQuotes(qs[1..])|) == after;
      QuotesStep(r, qs, mid, after);
    }
  }

  lemma QuotesSplit(r: Reader, qs: seq<Quote>)
    requires r.bigEndian && |qs| > 0 && AllFit(qs) && At(r, EncodeQuotes(qs))
    ensures AllFit(qs[1..])
    ensures ReadQuote(r) == Ok(Step(qs[0], Advance(r, |EncodeQuote(qs[0])|)))
    ensures At(Advance(r, |EncodeQuote(qs[0])|), EncodeQuotes(qs[1..]))
    ensures |EncodeQuotes(qs)| == |EncodeQuote(qs[0])| + |EncodeQuotes(qs[1..])|
  {
    assert AllFit(qs[1..]) by {
      forall i | 0 <= i < |qs| - 1 ensures qs[1..][i] == qs[i + 1] { }
    }
    assert EncodeQuotes(qs) == EncodeQuote(qs[0]) + EncodeQuotes(qs[1..]);
    AtConcat(r, EncodeQuote(qs[0]), EncodeQuotes(qs[1..]));
    QuoteRoundTrip(r, qs[0]);
  }

  lemma QuotesStep(r: Reader, qs: seq<Quote>, mid: Reader, after: Reader)
    requires |qs| > 0 && ReadQuote(r) == Ok(Step(qs[0], mid))
    requires DecodeQuotes(mid, |qs[1..]|) == Ok(Step(qs[1..], after))
    ensures DecodeQuotes(r, |qs|) == Ok(Step(qs, after))
  {
    QuotesFromParts(r, |qs|, Step(qs[0], mid), Step(qs[1..], after));
    HeadTail(qs);
  }

  lemma QuotesFromParts(r: Reader, count: nat, first: Step<Quote>, rest: Step<seq<Quote>>)
    requires count > 0 && ReadQuote(r) == Ok(first) && DecodeQuotes(first.next, count - 1) == Ok(rest)
    ensures DecodeQuotes(r, count) == Ok(Step([first.value] + rest.value, rest.next))
  {
  }

  /** A response built from fitting records, behind any two leading bytes,
      decodes to exactly those records. */
  lemma GetStockQuotesRoundTrip(lead: seq<byte>, qs: seq<Quote>)
    requires |lead| == 2 && |qs| < 0x1_0000 && AllFit(qs)
    ensures GetStockQuotes(lead + EncodeU16(|qs|) + EncodeQuotes(qs)) == Ok(qs)
  {
    var payload := lead + EncodeU16(|qs|) + EncodeQuotes(qs);
    var body := Advance(Open(payload), 4);
    CountRoundTrip(lead, |qs|, EncodeQuotes(qs));
    QuotesRoundTrip(body, qs);
    QuotesResponseFromParts(payload, Step(|qs|, body), Step(qs, Advance(body, |EncodeQuotes(qs)|)));
  }

  lemma QuotesResponseFromParts(payload: seq<byte>, count: Step<nat>, quotes: Step<seq<Quote>>)
    requires ReadCount(payload, 2) == Ok(count) && DecodeQuotes(count.next, count.value) == Ok(quotes)
    ensures GetStockQuotes(payload) == Ok(quotes.value)
  {
  }
}

=== FILE: results.dfy ===
/** Failure values of the decoding engine.

The source reports every failure by raising a Python exception; which class is
raised matters, because the K-line decoder recovers from one class only. Each
class the core can raise is one constructor of `Error`, and every decoder
returns a `Result` that `:-` can thread.
 */
module Results {

  /** The exception classes the core can raise. */
  datatype Error =
    | StructError      // struct.unpack was handed fewer bytes than its format needs
    | ValueError       // a datetime/time/enum constructor rejected a decoded value, or a negative seek
    | IndexError       // a zero-terminated string ran off the end of the buffer
    | DecompressError  // the inflater rejected a compressed payload

  datatype Result<+T> = Ok(value: T) | Err(error: Error) {

    predicate IsFailure() {
      Err?
    }

    function PropagateFailure<U>(): Result<U>
      requires Err?
    {
      Err(error)
    }

    function Extract(): T
      requires Ok?
    {
      value
    }
  }

  datatype Option<+T> = None | Some(value: T)

  /** A non-empty sequence is its head followed by its tail; the step every
      record-list decoder takes. */
  lemma HeadTail<T>(xs: seq<T>)
    requires |xs| > 0
    ensures [xs[0]] + xs[1..] == xs
  {
  }

  /** An empty gap between two parts leaves their concatenation alone. */
  lemma EmptyGap<T>(a: seq<T>, b: seq<T>)
    ensures a + [] + b == a + b
  {
  }

  /** Cutting a concatenation inside its second part cuts only that part. */
  lemma PrefixOfConcat<T>(a: seq<T>, b: seq<T>, m: nat)
    requires m <= |b|
    ensures (a + b)[.. |a| + m] == a + b[..m]
  {
  }

  lemma PrefixOfPrefix<T>(a: seq<T>, j: nat, k: nat)
    requires k <= j <= |a|
    ensures a[..j][..k] == a[..k]
  {
  }
}

=== FILE: stocks.dfy ===
/** The security list (api.py, `get_stocks_count` and `get_stocks_list`).

After a two-byte count, every entry is a 29-byte record: a 6-byte code, the
volume unit (u16), an 8-byte name padded with NULs, 4 reserved bytes, the
decimal point (u8), the previous close (f32) and 4 more reserved bytes. Only
the u16, u8 and f32 fields can fail; the raw `read`s return what is left, so
the last record may stop up to four bytes early.
 */
module Stocks {
  import opened Results
  import opened ByteOrder
  import opened BinaryReader
  import opened Wire

  /** One entry of the list, fields in wire order. The name is kept as the
      stored bytes with the trailing NULs removed. */
  datatype Security = Security(code: seq<byte>, volUnit: nat, name: seq<byte>, reserved1: seq<byte>,
                               decimalPoint: byte, prevClose: Float32, reserved2: seq<byte>)

  /** `rstrip('\x00')`: the NUL byte is a whole character in the code page
      the names use, so stripping before or after decoding agrees. */
  function StripTrailingNuls(s: seq<byte>): (t: seq<byte>)
    ensures |t| <= |s| && t == s[..|t|]
    ensures |t| == 0 || t[|t| - 1] != 0
    ensures forall i :: |t| <= i < |s| ==> s[i] == 0
    decreases |s|
  {
    if |s| == 0 || s[|s| - 1] != 0 then s else StripTrailingNuls(s[..|s| - 1])
  }

  predicate NoTrailingNul(name: seq<byte>)
  {
    |name| == 0 || name[|name| - 1] != 0
  }

  /** A name without a trailing NUL survives any padding and its removal. */
  lemma StripPadding(name: seq<byte>, pad: nat)
    requires NoTrailingNul(name)
    ensures StripTrailingNuls(name + Zeros(pad)) == name
  {
    var s := name + Zeros(pad);
    var t := StripTrailingNuls(s);
    assert s[..|name|] == name;
    assert |name| > 0 ==> s[|name| - 1] != 0;
    assert |t| > 0 ==> t[|t| - 1] == s[|t| - 1];
  }

  function MinNat(a: nat, b: nat): nat
  {
    if a <= b then a else b
  }

  /** One record, read field by field in the order of the source's dict. */
  function ReadSecurity(r: Reader): (res: Result<Step<Security>>)
    ensures res.Ok? <==> Remaining(r) >= 25
    ensures res.Err? ==> res.error == StructError
    ensures res.Ok? ==> res.value.next == Advance(r, MinNat(29, Remaining(r)))
    ensures res.Ok? ==> var s := res.value.value;
                        |s.code| == 6 && |s.reserved1| == 4 && |s.name| <= 8 && NoTrailingNul(s.name)
  {
    var code := Read(r, 6);
    var volUnit :- ReadU16(code.next);
    var name := Read(volUnit.next, 8);
    var reserved1 := Read(name.next, 4);
    var point :- ReadU8(reserved1.next);
    var prevClose :- ReadF32(point.next);
    var reserved2 := Read(prevClose.next, 4);
    Ok(Step(Security(code.value, volUnit.value, StripTrailingNuls(name.value), reserved1.value,
                     point.value, prevClose.value, reserved2.value), reserved2.next))
  }

  /** `count` records: they decode exactly when the bytes left cover all of
      them but the last record's trailing reserved field. */
  function DecodeSecurities(r: Reader, count: nat): (res: Result<Step<seq<Security>>>)
    ensures res.Ok? <==> Remaining(r) + 4 >= 29 * count
    ensures res.Err? ==> res.error == StructError
    ensures res.Ok? ==> |res.value.value| == count
    decreases count
  {
    if count == 0 then Ok(Step([], r))
    else
      var first :- ReadSecurity(r);
      var rest :- DecodeSecurities(first.next, count - 1);
      Ok(Step([first.value] + rest.value, rest.next))
  }

  /** `get_stocks_count`: the leading u16 of the response. */
  function GetStocksCount(payload: seq<byte>): (res: Result<nat>)
    ensures res.Ok? <==> |payload| >= 2
    ensures res.Err? ==> res.error == StructError
    ensures res.Ok? ==> res.value == LittleEndian(payload[0..2]) && res.value < 0x1_0000
  {
    var count :- ReadCount(payload, 0);
    Ok(count.value)
  }

  /** `get_stocks_list`, from the inflated payload on. */
  function GetStocksList(payload: seq<byte>): (res: Result<seq<Security>>)
    ensures |payload| < 2 ==> res == Err(StructError)
    ensures |payload| >= 2 ==> (res.Ok? <==> |payload| + 2 >= 29 * LittleEndian(payload[0..2]))
    ensures res.Err? ==> res.error == StructError
    ensures res.Ok? ==> |res.value| == LittleEndian(payload[0..2])
  {
    var count :- ReadCount(payload, 0);
    var list :- DecodeSecurities(count.next, count.value);
    Ok(list.value)
  }

  // ---------------------------------------------------------------------
  // Writing records

  predicate SecurityFits(s: Security)
  {
    && |s.code| == 6 && s.volUnit < 0x1_0000 && |s.name| <= 8 && NoTrailingNul(s.name)
    && |s.reserved1| == 4 && s.prevClose.bits < 0x1_0000_0000 && |s.reserved2| == 4
  }

  function EncodeSecurity(s: Security): (bs: seq<byte>)
    requires SecurityFits(s)
    ensures |bs| == 29
  {
    s.code
    + (EncodeU16(s.volUnit)
    + ((s.name + Zeros(8 - |s.name|))
    + (s.reserved1
    + (EncodeU8(s.decimalPoint)
    + (EncodeF32(s.prevClose)
    + s.reserved2)))))
  }

  predicate AllFit(ss: seq<Security>)
  {
    forall i :: 0 <= i < |ss| ==> SecurityFits(ss[i])
  }

  function EncodeSecurities(ss: seq<Security>): (bs: seq<byte>)
    requires AllFit(ss)
    ensures |bs| == 29 * |ss|
  {
    if |ss| == 0 then [] else EncodeSecurity(ss[0]) + EncodeSecurities(ss[1..])
  }

  lemma SecurityRoundTrip(r: Reader, s: Security)
    requires r.bigEndian && SecurityFits(s) && At(r, EncodeSecurity(s))
    ensures ReadSecurity(r) == Ok(Step(s, Advance(r, 29)))
  {
    var padded := s.name + Zeros(8 - |s.name|);
    var a := EncodeU16(s.volUnit);
    var c := EncodeU8(s.decimalPoint);
    var d := EncodeF32(s.prevClose);
    AtConcat(r, s.code, a + (padded + (s.reserved1 + (c + (d + s.reserved2)))));
    var r1 := Advance(r, 6);
    AtConcat(r1, a, padded + (s.reserved1 + (c + (d + s.reserved2))));
    var r2 := Advance(r1, 2);
    AtConcat(r2, padded, s.reserved1 + (c + (d + s.reserved2)));
    var r3 := Advance(r2, 8);
    AtConcat(r3, s.reserved1, c + (d + s.reserved2));
    var r4 := Advance(r3, 4);
    AtConcat(r4, c, d + s.reserved2);
    var r5 := Advance(r4, 1);
    AtConcat(r5, d, s.reserved2);
    var r6 := Advance(r5, 4);
    var r7 := Advance(r6, 4);
    assert r7 == Advance(r, 29);
    ReadAt(r, s.code);
    U16RoundTrip(r1, s.volUnit);
    ReadAt(r2, padded);
    StripPadding(s.name, 8 - |s.name|);
    ReadAt(r3, s.reserved1);
    U8RoundTrip(r4, s.decimalPoint);
    F32RoundTrip(r5, s.prevClose);
    ReadAt(r6, s.reserved2);
    SecurityFromParts(r, s, r1, r2, r3, r4, r5, r6, r7);
  }

  lemma SecurityFromParts(r: Reader, s: Security, r1: Reader, r2: Reader, r3: Reader, r4: Reader,
                          r5: Reader, r6: Reader, r7: Reader)
    requires Read(r, 6) == Step(s.code, r1) && ReadU16(r1) == Ok(Step(s.volUnit, r2))
    requires StripTrailingNuls(Read(r2, 8).value) == s.name && Read(r2, 8).next == r3
    requires Read(r3, 4) == Step(s.reserved1, r4) && ReadU8(r4) == Ok(Step(s.decimalPoint, r5))
    requires ReadF32(r5) == Ok(Step(s.prevClose, r6)) && Read(r6, 4) == Step(s.reserved2, r7)
    ensures ReadSecurity(r) == Ok(Step(s, r7))
  {
  }

  lemma {:induction false} SecuritiesRoundTrip(r: Reader, ss: seq<Security>)
    requires r.bigEndian && AllFit(ss) && At(r, EncodeSecurities(ss))
    ensures DecodeSecurities(r, |ss|) == Ok(Step(ss, Advance(r, 29 * |ss|)))
    decreases |ss|
  {
    if |ss| > 0 {
      var mid := Advance(r, 29);
      var after := Advance(r, 29 * |ss|);
      SecuritiesSplit(r, ss);
      SecuritiesRoundTrip(mid, ss[1..]);
      assert Advance(mid, 29 * |ss[1..]|) == after;
      SecuritiesStep(r, ss, mid, after);
    }
  }

  lemma SecuritiesSplit(r: Reader, ss: seq<Security>)
    requires r.bigEndian && |ss| > 0 && AllFit(ss) && At(r, EncodeSecurities(ss))
    ensures AllFit(ss[1..])
    ensures ReadSecurity(r) == Ok(Step(ss[0], Advance(r, 29)))
    ensures At(Advance(r, 29), EncodeSecurities(ss[1..]))
  {
    assert AllFit(ss[1..]) by {
      forall i | 0 <= i < |ss| - 1 ensures ss[1..][i] == ss[i + 1] { }
    }
    assert EncodeSecurities(ss) == EncodeSecurity(ss[0]) + EncodeSecurities(ss[1..]);
    AtConcat(r, EncodeSecurity(ss[0]), EncodeSecurities(ss[1..]));
    SecurityRoundTrip(r, ss[0]);
  }

  lemma SecuritiesStep(r: Reader, ss: seq<Security>, mid: Reader, after: Reader)
    requires |ss| > 0 && ReadSecurity(r) == Ok(Step(ss[0], mid))
    requires DecodeSecurities(mid, |ss[1..]|) == Ok(Step(ss[1..], after))
    ensures DecodeSecurities(r, |ss|) == Ok(Step(ss, after))
  {
    SecuritiesFromParts(r, |ss|, Step(ss[0], mid), Step(ss[1..], after));
    HeadTail(ss);
  }

  lemma SecuritiesFromParts(r: Reader, count: nat, first: Step<Security>, rest: Step<seq<Security>>)
    requires count > 0 && ReadSecurity(r) == Ok(first) && DecodeSecurities(first.next, count - 1) == Ok(rest)
    ensures DecodeSecurities(r, count) == Ok(Step([first.value] + rest.value, rest.next))
  {
  }

  /** A list written as a count and its records decodes to those records. */
  lemma StocksListRoundTrip(ss: seq<Security>)
    requires |ss| < 0x1_0000 && AllFit(ss)
    ensures GetStocksList(EncodeU16(|ss|) + EncodeSecurities(ss)) == Ok(ss)
  {
    var payload := EncodeU16(|ss|) + EncodeSecurities(ss);
    var body := Advance(Open(payload), 2);
    LeadingCountRoundTrip(|ss|, EncodeSecurities(ss));
    SecuritiesRoundTrip(body, ss);
    StocksResponseFromParts(payload, Step(|ss|, body), Step(ss, Advance(body, 29 * |ss|)));
  }

  lemma StocksResponseFromParts(payload: seq<byte>, count: Step<nat>, list: Step<seq<Security>>)
    requires ReadCount(payload, 0) == Ok(count) && DecodeSecurities(count.next, count.value) == Ok(list)
    ensures GetStocksList(payload) == Ok(list.value)
  {
  }
}

=== FILE: ticks.dfy ===
/** Intraday series and tick-by-tick trades (api.py, `get_minute_data`,
`get_history_minute_data`, `get_transaction_data`,
`get_history_transaction_data`).

All four read a count, then records whose price is a vint delta added to a
running price that starts at 0; the price the source reports is that running
value divided by 100, kept here as the integer number of hundredths. The
live and history variants differ only in the bytes skipped after the count
and, for trades, in a trailing reserved vint per record.
 */
module Ticks {
  import opened Results
  import opened ByteOrder
  import opened BinaryReader
  import opened VarInt
  import opened Wire
  import opened Dates

  // ---------------------------------------------------------------------
  // Running prices

  /** The running price after each delta, starting from `start`. */
  function RunningSum(deltas: seq<int>, start: int): (prices: seq<int>)
    ensures |prices| == |deltas|
    ensures |prices| > 0 ==> prices[0] == start + deltas[0]
    ensures forall i :: 0 < i < |prices| ==> prices[i] == prices[i - 1] + deltas[i]
    decreases |deltas|
  {
    if |deltas| == 0 then [] else [start + deltas[0]] + RunningSum(deltas[1..], start + deltas[0])
  }

  /** The deltas that lead from `start` through `prices`. */
  function Differences(prices: seq<int>, start: int): (deltas: seq<int>)
    ensures |deltas| == |prices|
    decreases |prices|
  {
    if |prices| == 0 then [] else [prices[0] - start] + Differences(prices[1..], prices[0])
  }

  function Sum(xs: seq<int>): int
  {
    if |xs| == 0 then 0 else xs[0] + Sum(xs[1..])
  }

  /** Each running price is the start plus every delta up to and including
      its own. */
  lemma {:induction false} RunningSumIsPrefixSum(deltas: seq<int>, start: int, i: nat)
    requires i < |deltas|
    ensures RunningSum(deltas, start)[i] == start + Sum(deltas[..i + 1])
    decreases i
  {
    if i > 0 {
      RunningSumIsPrefixSum(deltas[1..], start + deltas[0], i - 1);
      assert deltas[1..][..i] == deltas[1..i + 1];
      assert deltas[..i + 1] == [deltas[0]] + deltas[1..i + 1];
    }
  }

  /** Accumulating the differences of a price series gives the series back,
      and differencing a running sum gives the deltas back. */
  lemma {:induction false} RunningSumInvertsDifferences(prices: seq<int>, start: int)
    ensures RunningSum(Differences(prices, start), start) == prices
    decreases |prices|
  {
    if |prices| > 0 {
      var ds := Differences(prices, start);
      assert ds[1..] == Differences(prices[1..], prices[0]);
      RunningSumInvertsDifferences(prices[1..], prices[0]);
    }
  }

  lemma {:induction false} DifferencesInvertRunningSum(deltas: seq<int>, start: int)
    ensures Differences(RunningSum(deltas, start), start) == deltas
    decreases |deltas|
  {
    if |deltas| > 0 {
      var ps := RunningSum(deltas, start);
      assert ps[1..] == RunningSum(deltas[1..], start + deltas[0]);
      DifferencesInvertRunningSum(deltas[1..], start + deltas[0]);
    }
  }

  // ---------------------------------------------------------------------
  // Minute series

  /** One minute: the price in hundredths and the volume. */
  datatype MinuteTick = MinuteTick(price: int, volume: int)

  /** One minute as the wire carries it: price delta, reserved, volume. */
  datatype MinuteRecord = MinuteRecord(delta: int, reserved: int, volume: int)

  function ReadMinuteRecord(r: Reader): (res: Result<Step<MinuteRecord>>)
    ensures res.Err? ==> res.error == StructError
    ensures res.Ok? ==> res.value.next.data == r.data && res.value.next.bigEndian == r.bigEndian
    ensures res.Ok? ==> r.pos + 3 <= res.value.next.pos <= |r.data|
  {
    var fields :- ReadVInts(r, 3);
    var v := fields.value;
    Ok(Step(MinuteRecord(v[0], v[1], v[2]), fields.next))
  }

  /** The minute a record stands for, after the running price `last`. */
  function ApplyMinute(last: int, m: MinuteRecord): (t: MinuteTick)
  {
    MinuteTick(last + m.delta, m.volume)
  }

  /** `count` minutes, the running price starting at `last`. */
  function DecodeMinutes(r: Reader, count: nat, last: int): (res: Result<Step<seq<MinuteTick>>>)
    ensures res.Err? ==> res.error == StructError
    ensures res.Ok? ==> |res.value.value| == count
    decreases count
  {
    if count == 0 then Ok(Step([], r))
    else
      var rec :- ReadMinuteRecord(r);
      var tick := ApplyMinute(last, rec.value);
      var rest :- DecodeMinutes(rec.next, count - 1, tick.price);
      Ok(Step([tick] + rest.value, rest.next))
  }

  function MinuteDeltas(recs: seq<MinuteRecord>): (ds: seq<int>)
    ensures |ds| == |recs| && forall i :: 0 <= i < |recs| ==> ds[i] == recs[i].delta
  {
    seq(|recs|, i requires 0 <= i < |recs| => recs[i].delta)
  }

  /** What a run of minute records means: each tick's price is the running
      sum of the deltas from `last`, and its volume is the record's. */
  predicate DescribesMinutes(recs: seq<MinuteRecord>, last: int, ticks: seq<MinuteTick>)
  {
    && |ticks| == |recs|
    && (forall i :: 0 <= i < |recs| ==> ticks[i].price == RunningSum(MinuteDeltas(recs), last)[i])
    && (forall i :: 0 <= i < |recs| ==> ticks[i].volume == recs[i].volume)
  }

  function EncodeMinuteRecord(m: MinuteRecord): (bs: seq<byte>)
  {
    EncodeVInts([m.delta, m.reserved, m.volume])
  }

  function EncodeMinutes(recs: seq<MinuteRecord>): (bs: seq<byte>)
  {
    if |recs| == 0 then [] else EncodeMinuteRecord(recs[0]) + EncodeMinutes(recs[1..])
  }

  lemma MinuteRecordRoundTrip(r: Reader, m: MinuteRecord)
    requires At(r, EncodeMinuteRecord(m))
    ensures ReadMinuteRecord(r) == Ok(Step(m, Advance(r, |EncodeMinuteRecord(m)|)))
  {
    VIntsRoundTrip(r, [m.delta, m.reserved, m.volume]);
  }

  /** The minutes a run of records stands for, one after the other. */
  function MinutesOf(recs: seq<MinuteRecord>, last: int): (ticks: seq<MinuteTick>)
    ensures |ticks| == |recs|
    decreases |recs|
  {
    if |recs| == 0 then []
    else [ApplyMinute(last, recs[0])] + MinutesOf(recs[1..], ApplyMinute(last, recs[0]).price)
  }

  /** Encoded records decode to the minutes they stand for, whatever their
      reserved values, and the reader ends just after them. */
  lemma {:induction false} MinutesRoundTrip(r: Reader, recs: seq<MinuteRecord>, last: int)
    requires At(r, EncodeMinutes(recs))
    ensures DecodeMinutes(r, |recs|, last) == Ok(Step(MinutesOf(recs, last), Advance(r, |EncodeMinutes(recs)|)))
    decreases |recs|
  {
    if |recs| > 0 {
      var price := ApplyMinute(last, recs[0]).price;
      var mid := Advance(r, |EncodeMinuteRecord(recs[0])|);
      var after := Advance(r, |EncodeMinutes(recs)|);
      MinutesSplit(r, recs);
      MinutesRoundTrip(mid, recs[1..], price);
      assert Advance(mid, |EncodeMinutes(recs[1..])|) == after;
      MinutesStep(r, recs, last, mid, after);
    }
  }

  lemma MinutesSplit(r: Reader, recs: seq<MinuteRecord>)
    requires |recs| > 0 && At(r, EncodeMinutes(recs))
    ensures ReadMinuteRecord(r) == Ok(Step(recs[0], Advance(r, |EncodeMinuteRecord(recs[0])|)))
    ensures At(Advance(r, |EncodeMinuteRecord(recs[0])|), EncodeMinutes(recs[1..]))
    ensures |EncodeMinutes(recs)| == |EncodeMinuteRecord(recs[0])| + |EncodeMinutes(recs[1..])|
  {
    assert EncodeMinutes(recs) == EncodeMinuteRecord(recs[0]) + EncodeMinutes(recs[1..]);
    AtConcat(r, EncodeMinuteRecord(recs[0]), EncodeMinutes(recs[1..]));
    MinuteRecordRoundTrip(r, recs[0]);
  }

  lemma MinutesStep(r: Reader, recs: seq<MinuteRecord>, last: int, mid: Reader, after: Reader)
    requires |recs| > 0 && ReadMinuteRecord(r) == Ok(Step(recs[0], mid))
    requires DecodeMinutes(mid, |recs[1..]|, ApplyMinute(last, recs[0]).price)
             == Ok(Step(MinutesOf(recs[1..], ApplyMinute(last, recs[0]).price), after))
    ensures DecodeMinutes(r, |recs|, last) == Ok(Step(MinutesOf(recs, last), after))
  {
    var price := ApplyMinute(last, recs[0]).price;
    MinutesFromParts(r, |recs|, last, recs[0], mid, Step(MinutesOf(recs[1..], price), after));
  }

  /** The minutes a run of records stands for are the ones it describes:
      running prices and the records' volumes. */
  lemma {:induction false} MinutesOfDescribes(recs: seq<MinuteRecord>, last: int)
    ensures DescribesMinutes(recs, last, MinutesOf(recs, last))
    decreases |recs|
  {
    if |recs| > 0 {
      MinutesOfDescribes(recs[1..], ApplyMinute(last, recs[0]).price);
      MinutesDescribed(recs, last, MinutesOf(recs[1..], ApplyMinute(last, recs[0]).price));
    }
  }

  lemma MinutesFromParts(r: Reader, count: nat, last: int, m: MinuteRecord, mid: Reader,
                         rest: Step<seq<MinuteTick>>)
    requires count > 0 && ReadMinuteRecord(r) == Ok(Step(m, mid))
    requires DecodeMinutes(mid, count - 1, ApplyMinute(last, m).price) == Ok(rest)
    ensures DecodeMinutes(r, count, last) == Ok(Step([ApplyMinute(last, m)] + rest.value, rest.next))
  {
  }

  /** Prepending a record to described minutes. */
  lemma MinutesDescribed(recs: seq<MinuteRecord>, last: int, rest: seq<MinuteTick>)
    requires |recs| > 0 && DescribesMinutes(recs[1..], last + recs[0].delta, rest)
    ensures DescribesMinutes(recs, last, [MinuteTick(last + recs[0].delta, recs[0].volume)] + rest)
  {
    var ticks := [MinuteTick(last + recs[0].delta, recs[0].volume)] + rest;
    var run := RunningSum(MinuteDeltas(recs), last);
    assert MinuteDeltas(recs)[1..] == MinuteDeltas(recs[1..]);
    assert run[1..] == RunningSum(MinuteDeltas(recs[1..]), last + recs[0].delta);
    forall i | 0 <= i < |recs|
      ensures ticks[i].price == run[i]
    {
      if i > 0 {
        assert ticks[i] == rest[i - 1];
        assert run[i] == run[1..][i - 1];
      }
    }
  }

  /** A minute response: the count, `gap` skipped bytes, then the records. */
  function ParseMinutes(payload: seq<byte>, gap: nat): (res: Result<seq<MinuteTick>>)
    ensures |payload| < 2 ==> res == Err(StructError)
    ensures res.Err? ==> res.error == StructError
    ensures res.Ok? ==> |res.value| == LittleEndian(payload[0..2])
  {
    var r := Open(payload);
    var count :- ReadU16(r);
    DefaultFlagReadIsSlice(r, 2);
    var ticks :- DecodeMinutes(Skip(count.next, gap), count.value, 0);
    Ok(ticks.value)
  }

  /** `get_minute_data`: two bytes skipped after the count. */
  function GetMinuteData(payload: seq<byte>): (res: Result<seq<MinuteTick>>)
    ensures |payload| < 2 ==> res == Err(StructError)
    ensures res.Err? ==> res.error == StructError
    ensures res.Ok? ==> |res.value| == LittleEndian(payload[0..2])
  {
    ParseMinutes(payload, 2)
  }

  /** `get_history_minute_data`: four bytes skipped after the count. */
  function GetHistoryMinuteData(payload: seq<byte>): (res: Result<seq<MinuteTick>>)
    ensures |payload| < 2 ==> res == Err(StructError)
    ensures res.Err? ==> res.error == StructError
    ensures res.Ok? ==> |res.value| == LittleEndian(payload[0..2])
  {
    ParseMinutes(payload, 4)
  }

  lemma ParseMinutesRoundTrip(gap: nat, filler: seq<byte>, recs: seq<MinuteRecord>)
    requires |filler| == gap && |recs| < 0x1_0000
    ensures var res := ParseMinutes(EncodeU16(|recs|) + filler + EncodeMinutes(recs), gap);
            res.Ok? && DescribesMinutes(recs, 0, res.value)
  {
    var r := Open(EncodeU16(|recs|) + filler + EncodeMinutes(recs));
    OpenFramed(EncodeU16(|recs|), filler, EncodeMinutes(recs));
    U16RoundTrip(r, |recs|);
    var body := Skip(Advance(r, 2), gap);
    assert body == Advance(r, 2 + gap);
    MinutesRoundTrip(body, recs, 0);
    MinutesOfDescribes(recs, 0);
  }

  /** Live minutes behind their 2-byte gap decode to what the records say. */
  lemma MinuteDataRoundTrip(filler: seq<byte>, recs: seq<MinuteRecord>)
    requires |filler| == 2 && |recs| < 0x1_0000
    ensures var res := GetMinuteData(EncodeU16(|recs|) + filler + EncodeMinutes(recs));
            res.Ok? && DescribesMinutes(recs, 0, res.value)
  {
    ParseMinutesRoundTrip(2, filler, recs);
  }

  /** History minutes behind their 4-byte gap decode to what the records say. */
  lemma HistoryMinuteDataRoundTrip(filler: seq<byte>, recs: seq<MinuteRecord>)
    requires |filler| == 4 && |recs| < 0x1_0000
    ensures var res := GetHistoryMinuteData(EncodeU16(|recs|) + filler + EncodeMinutes(recs));
            res.Ok? && DescribesMinutes(recs, 0, res.value)
  {
    ParseMinutesRoundTrip(4, filler, recs);
  }

  // ---------------------------------------------------------------------
  // Trades

  /** One trade: its minute, the price in hundredths, the volume, the number
      of orders and the side flag, all as the server reports them. */
  datatype Trade = Trade(time: TimeOfDay, price: int, volume: int, num: int, side: int)

  /** One trade as the wire carries it. `reserved` is the live feed's
      trailing vint; the history feed has none and it reads as 0. */
  datatype TradeRecord = TradeRecord(time: TimeOfDay, delta: int, volume: int, num: int, side: int, reserved: int)

  /** The vints after a trade's time, read one after the other: delta,
      volume, orders, side and, when `trailer` is set, the reserved one. */
  function ReadTradeFields(r: Reader, time: TimeOfDay, trailer: bool): (res: Result<Step<TradeRecord>>)
    ensures res.Err? ==> res.error == StructError
    ensures res.Ok? ==> res.value.value.time == time && (!trailer ==> res.value.value.reserved == 0)
    ensures res.Ok? ==> res.value.next.data == r.data && res.value.next.bigEndian == r.bigEndian
    ensures res.Ok? ==> r.pos + 4 <= res.value.next.pos <= |r.data|
  {
    var fields :- ReadVInts(r, if trailer then 5 else 4);
    var v := fields.value;
    Ok(Step(TradeRecord(time, v[0], v[1], v[2], v[3], if trailer then v[4] else 0), fields.next))
  }

  /** One trade record: `_get_time`, then the vints. A minute count past
      the end of the day is the ValueError of `datetime.time`. */
  function ReadTradeRecord(r: Reader, trailer: bool): (res: Result<Step<TradeRecord>>)
    ensures res.Err? ==> res.error in {StructError, ValueError}
    ensures res.Ok? ==> ValidTime(res.value.value.time.hour, res.value.value.time.minute)
    ensures res.Ok? ==> res.value.next.data == r.data && res.value.next.bigEndian == r.bigEndian
    ensures res.Ok? ==> r.pos + 6 <= res.value.next.pos <= |r.data|
  {
    var time :- GetTime(r);
    ReadTradeFields(time.next, time.value, trailer)
  }

  /** The trade a record stands for, after the running price `last`. */
  function ApplyTrade(last: int, t: TradeRecord): (tr: Trade)
  {
    Trade(t.time, last + t.delta, t.volume, t.num, t.side)
  }

  /** `count` trades, the running price starting at `last`. */
  function DecodeTrades(r: Reader, count: nat, last: int, trailer: bool): (res: Result<Step<seq<Trade>>>)
    ensures res.Err? ==> res.error in {StructError, ValueError}
    ensures res.Ok? ==> |res.value.value| == count
    decreases count
  {
    if count == 0 then Ok(Step([], r))
    else
      var rec :- ReadTradeRecord(r, trailer);
      var trade := ApplyTrade(last, rec.value);
      var rest :- DecodeTrades(rec.next, count - 1, trade.price, trailer);
      Ok(Step([trade] + rest.value, rest.next))
  }

  function TradeDeltas(recs: seq<TradeRecord>): (ds: seq<int>)
    ensures |ds| == |recs| && forall i :: 0 <= i < |recs| ==> ds[i] == recs[i].delta
  {
    seq(|recs|, i requires 0 <= i < |recs| => recs[i].delta)
  }

  /** What a run of trade records means: each price is the running sum of
      the deltas from `last`; time, volume, orders and side are the record's. */
  predicate DescribesTrades(recs: seq<TradeRecord>, last: int, trades: seq<Trade>)
  {
    && |trades| == |recs|
    && (forall i :: 0 <= i < |recs| ==> trades[i].price == RunningSum(TradeDeltas(recs), last)[i])
    && (forall i :: 0 <= i < |recs| ==>
          trades[i].time == recs[i].time && trades[i].volume == recs[i].volume
          && trades[i].num == recs[i].num && trades[i].side == recs[i].side)
  }

  /** The records a layout can carry: a real time of day, and no reserved
      value where the layout has no trailer. */
  predicate TradesFit(recs: seq<TradeRecord>, trailer: bool)
  {
    forall i :: 0 <= i < |recs| ==>
      ValidTime(recs[i].time.hour, recs[i].time.minute) && (!trailer ==> recs[i].reserved == 0)
  }

  function TradeFieldValues(t: TradeRecord, trailer: bool): (xs: seq<int>)
  {
    [t.delta, t.volume, t.num, t.side] + (if trailer then [t.reserved] else [])
  }

  function EncodeTradeRecord(t: TradeRecord, trailer: bool): (bs: seq<byte>)
    requires ValidTime(t.time.hour, t.time.minute)
  {
    EncodeTime(t.time) + EncodeVInts(TradeFieldValues(t, trailer))
  }

  function EncodeTrades(recs: seq<TradeRecord>, trailer: bool): (bs: seq<byte>)
    requires TradesFit(recs, trailer)
  {
    if |recs| == 0 then [] else EncodeTradeRecord(recs[0], trailer) + EncodeTrades(recs[1..], trailer)
  }

  lemma TradeRecordRoundTrip(r: Reader, t: TradeRecord, trailer: bool)
    requires r.bigEndian && ValidTime(t.time.hour, t.time.minute) && (!trailer ==> t.reserved == 0)
    requires At(r, EncodeTradeRecord(t, trailer))
    ensures ReadTradeRecord(r, trailer) == Ok(Step(t, Advance(r, |EncodeTradeRecord(t, trailer)|)))
  {
    var fields := EncodeVInts(TradeFieldValues(t, trailer));
    var mid := Advance(r, 2);
    var after := Advance(r, |EncodeTradeRecord(t, trailer)|);
    AtConcat(r, EncodeTime(t.time), fields);
    TimeRoundTrip(r, t.time);
    VIntsRoundTrip(mid, TradeFieldValues(t, trailer));
    assert Advance(mid, |fields|) == after;
    TradeFieldsFromValues(mid, t, trailer, after);
    TradeRecordFromParts(r, t, trailer, mid, after);
  }

  lemma TradeFieldsFromValues(r: Reader, t: TradeRecord, trailer: bool, after: Reader)
    requires !trailer ==> t.reserved == 0
    requires ReadVInts(r, |TradeFieldValues(t, trailer)|) == Ok(Step(TradeFieldValues(t, trailer), after))
    ensures ReadTradeFields(r, t.time, trailer) == Ok(Step(t, after))
  {
  }

  lemma TradeRecordFromParts(r: Reader, t: TradeRecord, trailer: bool, mid: Reader, after: Reader)
    requires GetTime(r) == Ok(Step(t.time, mid)) && ReadTradeFields(mid, t.time, trailer) == Ok(Step(t, after))
    ensures ReadTradeRecord(r, trailer) == Ok(Step(t, after))
  {
  }

  /** The trades a run of records stands for, one after the other. */
  function TradesOf(recs: seq<TradeRecord>, last: int): (trades: seq<Trade>)
    ensures |trades| == |recs|
    decreases |recs|
  {
    if |recs| == 0 then []
    else [ApplyTrade(last, recs[0])] + TradesOf(recs[1..], ApplyTrade(last, recs[0]).price)
  }

  /** Encoded records decode to the trades they stand for, and the reader
      ends just after them. */
  lemma {:induction false} TradesRoundTrip(r: Reader, recs: seq<TradeRecord>, last: int, trailer: bool)
    requires r.bigEndian && TradesFit(recs, trailer) && At(r, EncodeTrades(recs, trailer))
    ensures DecodeTrades(r, |recs|, last, trailer)
            == Ok(Step(TradesOf(recs, last), Advance(r, |EncodeTrades(recs, trailer)|)))
    decreases |recs|
  {
    if |recs| > 0 {
      var price := ApplyTrade(last, recs[0]).price;
      var mid := Advance(r, |EncodeTradeRecord(recs[0], trailer)|);
      var after := Advance(r, |EncodeTrades(recs, trailer)|);
      TradesSplit(r, recs, trailer);
      TradesRoundTrip(mid, recs[1..], price, trailer);
      assert Advance(mid, |EncodeTrades(recs[1..], trailer)|) == after;
      TradesStep(r, recs, last, trailer, mid, after);
    }
  }

  lemma TradesSplit(r: Reader, recs: seq<TradeRecord>, trailer: bool)
    requires r.bigEndian && |recs| > 0 && TradesFit(recs, trailer) && At(r, EncodeTrades(recs, trailer))
    ensures TradesFit(recs[1..], trailer)
    ensures ReadTradeRecord(r, trailer) == Ok(Step(recs[0], Advance(r, |EncodeTradeRecord(recs[0], trailer)|)))
    ensures At(Advance(r, |EncodeTradeRecord(recs[0], trailer)|), EncodeTrades(recs[1..], trailer))
    ensures |EncodeTrades(recs, trailer)| == |EncodeTradeRecord(recs[0], trailer)| + |EncodeTrades(recs[1..], trailer)|
  {
    assert TradesFit(recs[1..], trailer) by {
      forall i | 0 <= i < |recs| - 1 ensures recs[1..][i] == recs[i + 1] { }
    }
    assert EncodeTrades(recs, trailer) == EncodeTradeRecord(recs[0], trailer) + EncodeTrades(recs[1..], trailer);
    AtConcat(r, EncodeTradeRecord(recs[0], trailer), EncodeTrades(recs[1..], trailer));
    TradeRecordRoundTrip(r, recs[0], trailer);
  }

  lemma TradesStep(r: Reader, recs: seq<TradeRecord>, last: int, trailer: bool, mid: Reader, after: Reader)
    requires |recs| > 0 && ReadTradeRecord(r, trailer) == Ok(Step(recs[0], mid))
    requires DecodeTrades(mid, |recs[1..]|, ApplyTrade(last, recs[0]).price, trailer)
             == Ok(Step(TradesOf(recs[1..], ApplyTrade(last, recs[0]).price), after))
    ensures DecodeTrades(r, |recs|, last, trailer) == Ok(Step(TradesOf(recs, last), after))
  {
    var price := ApplyTrade(last, recs[0]).price;
    TradesFromParts(r, |recs|, last, trailer, recs[0], mid, Step(TradesOf(recs[1..], price), after));
  }

  lemma TradesFromParts(r: Reader, count: nat, last: int, trailer: bool, t: TradeRecord, mid: Reader,
                        rest: Step<seq<Trade>>)
    requires count > 0 && ReadTradeRecord(r, trailer) == Ok(Step(t, mid))
    requires DecodeTrades(mid, count - 1, ApplyTrade(last, t).price, trailer) == Ok(rest)
    ensures DecodeTrades(r, count, last, trailer) == Ok(Step([ApplyTrade(last, t)] + rest.value, rest.next))
  {
  }

  /** The trades a run of records stands for are the ones it describes. */
  lemma {:induction false} TradesOfDescribes(recs: seq<TradeRecord>, last: int)
    ensures DescribesTrades(recs, last, TradesOf(recs, last))
    decreases |recs|
  {
    if |recs| > 0 {
      var price := ApplyTrade(last, recs[0]).price;
      var rest := TradesOf(recs[1..], price);
      TradesOfDescribes(recs[1..], price);
      var trades := TradesOf(recs, last);
      var run := RunningSum(TradeDeltas(recs), last);
      assert TradeDeltas(recs)[1..] == TradeDeltas(recs[1..]);
      assert run[1..] == RunningSum(TradeDeltas(recs[1..]), price);
      forall i | 0 <= i < |recs|
        ensures trades[i].price == run[i]
        ensures trades[i].time == recs[i].time && trades[i].volume == recs[i].volume
        ensures trades[i].num == recs[i].num && trades[i].side == recs[i].side
      {
        if i > 0 {
          assert trades[i] == rest[i - 1];
          assert run[i] == run[1..][i - 1];
          assert recs[i] == recs[1..][i - 1];
        }
      }
    }
  }

  /** A trade response: the count, `gap` skipped bytes, then the records. */
  function ParseTrades(payload: seq<byte>, gap: nat, trailer: bool): (res: Result<seq<Trade>>)
    ensures |payload| < 2 ==> res == Err(StructError)
    ensures res.Err? ==> res.error in {StructError, ValueError}
    ensures res.Ok? ==> |res.value| == LittleEndian(payload[0..2])
  {
    var r := Open(payload);
    var count :- ReadU16(r);
    DefaultFlagReadIsSlice(r, 2);
    var trades :- DecodeTrades(Skip(count.next, gap), count.value, 0, trailer);
    Ok(trades.value)
  }

  /** `get_transaction_data`: the records follow the count directly and
      each ends with a reserved vint. */
  function GetTransactionData(payload: seq<byte>): (res: Result<seq<Trade>>)
    ensures |payload| < 2 ==> res == Err(StructError)
    ensures res.Err? ==> res.error in {StructError, ValueError}
    ensures res.Ok? ==> |res.value| == LittleEndian(payload[0..2])
  {
    ParseTrades(payload, 0, true)
  }

  /** `get_history_transaction_data`: four bytes skipped after the count,
      and no reserved vint. */
  function GetHistoryTransactionData(payload: seq<byte>): (res: Result<seq<Trade>>)
    ensures |payload| < 2 ==> res == Err(StructError)
    ensures res.Err? ==> res.error in {StructError, ValueError}
    ensures res.Ok? ==> |res.value| == LittleEndian(payload[0..2])
  {
    ParseTrades(payload, 4, false)
  }

  lemma ParseTradesRoundTrip(gap: nat, filler: seq<byte>, recs: seq<TradeRecord>, trailer: bool)
    requires |filler| == gap && |recs| < 0x1_0000 && TradesFit(recs, trailer)
    ensures var res := ParseTrades(EncodeU16(|recs|) + filler + EncodeTrades(recs, trailer), gap, trailer);
            res.Ok? && DescribesTrades(recs, 0, res.value)
  {
    var r := Open(EncodeU16(|recs|) + filler + EncodeTrades(recs, trailer));
    OpenFramed(EncodeU16(|recs|), filler, EncodeTrades(recs, trailer));
    U16RoundTrip(r, |recs|);
    var body := Skip(Advance(r, 2), gap);
    assert body == Advance(r, 2 + gap);
    TradesRoundTrip(body, recs, 0, trailer);
    TradesOfDescribes(recs, 0);
  }

  /** Live trades, each with its reserved trailer, decode to what the
      records say. */
  lemma TransactionDataRoundTrip(recs: seq<TradeRecord>)
    requires |recs| < 0x1_0000 && TradesFit(recs, true)
    ensures var res := GetTransactionData(EncodeU16(|recs|) + EncodeTrades(recs, true));
            res.Ok? && DescribesTrades(recs, 0, res.value)
  {
    ParseTradesRoundTrip(0, [], recs, true);
    EmptyGap(EncodeU16(|recs|), EncodeTrades(recs, true));
  }

  /** History trades behind their 4-byte gap decode to what the records say. */
  lemma HistoryTransactionDataRoundTrip(filler: seq<byte>, recs: seq<TradeRecord>)
    requires |filler| == 4 && |recs| < 0x1_0000 && TradesFit(recs, false)
    ensures var res := GetHistoryTransactionData(EncodeU16(|recs|) + filler + EncodeTrades(recs, false));
            res.Ok? && DescribesTrades(recs, 0, res.value)
  {
    ParseTradesRoundTrip(4, filler, recs, false);
  }
}

=== FILE: var_int.dfy ===
/** What `ReadVInt` computes (binary_reader.py, `vint`), stated against an
independent reading of the same bytes and against an encoder written from
the documented layout: first byte = continuation bit, sign bit, 6 low
magnitude bits; each trailing byte = continuation bit, 7 further magnitude
bits, lowest group first.
 */
module VarInt {
  import opened Results
  import opened ByteOrder
  import opened BinaryReader

  function Abs(x: int): nat
  {
    if x < 0 then -x else x
  }

  /** The 7-bit groups of `bs`, lowest first, evaluated by Horner's rule. */
  function GroupValue(bs: seq<byte>): nat
  {
    if |bs| == 0 then 0 else bs[0] % 128 + 128 * GroupValue(bs[1..])
  }

  lemma {:induction false} GroupValueBound(bs: seq<byte>)
    ensures GroupValue(bs) < Pow2(7 * |bs|)
    decreases |bs|
  {
    if |bs| > 0 {
      GroupValueBound(bs[1..]);
      GroupBound(bs[0] % 128, GroupValue(bs[1..]), |bs| - 1);
    }
  }

  /** A group below 128 ahead of `n` groups fits in `n + 1` groups. */
  lemma GroupBound(a: nat, g: nat, n: nat)
    requires a < 128 && g < Pow2(7 * n)
    ensures a + 128 * g < Pow2(7 * (n + 1))
  {
    Pow2Add(7, 7 * n);
    assert Pow2(7) == 128;
  }

  /** One step of Horner's rule, scaled by `p`. */
  lemma ShiftedGroup(a: int, g: int, p: int, m: int)
    requires m == a + 128 * g
    ensures a * p + g * (p * 128) == m * p == p * m
  {
    calc {
      a * p + g * (p * 128);
      a * p + (128 * g) * p;
      (a + 128 * g) * p;
    }
  }

  /** One step of Horner's rule at bit offset `shift`. */
  lemma HornerStep(a: nat, g: nat, shift: nat, rest: nat, total: nat, m: nat)
    requires rest == Pow2(shift + 7) * g && total == a * Pow2(shift) + rest && m == a + 128 * g
    ensures total == Pow2(shift) * m
  {
    var p := Pow2(shift);
    Pow2Add(shift, 7);
    assert Pow2(7) == 128;
    ShiftedGroup(a, g, p, m);
  }

  /** A trailing byte with the continuation bit set adds its group to the
      value of the bytes after it, and the chain ends where theirs does. */
  lemma TailContinues(r: Reader, shift: nat)
    requires VIntTail(r, shift).Ok? && r.data[r.pos] >= 128
    ensures var rest := VIntTail(Advance(r, 1), shift + 7);
            && rest.Ok?
            && VIntTail(r, shift).value.value == (r.data[r.pos] % 128) * Pow2(shift) + rest.value.value
            && VIntTail(r, shift).value.next == rest.value.next
  {
  }

  /** A trailing byte with the continuation bit clear ends the chain. */
  lemma TailEnds(r: Reader, shift: nat)
    requires VIntTail(r, shift).Ok? && r.data[r.pos] < 128
    ensures VIntTail(r, shift).value.value == (r.data[r.pos] % 128) * Pow2(shift)
    ensures VIntTail(r, shift).value.next.pos == r.pos + 1
  {
  }

  /** The trailing bytes contribute `Pow2(shift)` times their Horner value. */
  lemma {:induction false} TailIsGroupValue(r: Reader, shift: nat)
    requires VIntTail(r, shift).Ok?
    ensures VIntTail(r, shift).value.value
            == Pow2(shift) * GroupValue(r.data[r.pos .. VIntTail(r, shift).value.next.pos])
    decreases Remaining(r)
  {
    var res := VIntTail(r, shift).value;
    var chain := r.data[r.pos .. res.next.pos];
    var c := r.data[r.pos];
    if c >= 128 {
      TailContinues(r, shift);
      var rest := VIntTail(Advance(r, 1), shift + 7).value;
      var g := GroupValue(r.data[r.pos + 1 .. res.next.pos]);
      assert rest.value == Pow2(shift + 7) * g by {
        TailIsGroupValue(Advance(r, 1), shift + 7);
      }
      assert GroupValue(chain) == c % 128 + 128 * g by {
        assert chain[0] == c;
        assert chain[1..] == r.data[r.pos + 1 .. res.next.pos];
      }
      HornerStep(c % 128, g, shift, rest.value, res.value, GroupValue(chain));
    } else {
      TailEnds(r, shift);
      assert GroupValue(chain) == c % 128 by {
        assert chain == [c];
      }
    }
  }

  /** The decoded magnitude is the first byte's 6 bits plus 64 times the
      trailing groups; with k trailing bytes it is below 2^(6 + 7k). */
  lemma VIntMagnitude(r: Reader, s: Step<int>)
    requires ReadVInt(r) == Ok(s)
    ensures Abs(s.value) == r.data[r.pos] % 64 + 64 * GroupValue(r.data[r.pos + 1 .. s.next.pos])
    ensures Abs(s.value) < Pow2(6 + 7 * (s.next.pos - r.pos - 1))
  {
    VIntMagnitudeValue(r, s);
    MagnitudeOfChain(r, s.next, Abs(s.value));
  }

  /** The bound, for a chain from `r` to `next` read as `a`. */
  lemma MagnitudeOfChain(r: Reader, next: Reader, a: nat)
    requires r.pos < next.pos <= |r.data|
    requires a == r.data[r.pos] % 64 + 64 * GroupValue(r.data[r.pos + 1 .. next.pos])
    ensures a < Pow2(6 + 7 * (next.pos - r.pos - 1))
  {
    var tail := r.data[r.pos + 1 .. next.pos];
    GroupValueBound(tail);
    MagnitudeBound(r.data[r.pos] % 64, GroupValue(tail), next.pos - r.pos - 1);
  }

  lemma VIntMagnitudeValue(r: Reader, s: Step<int>)
    requires ReadVInt(r) == Ok(s)
    ensures Abs(s.value) == r.data[r.pos] % 64 + 64 * GroupValue(r.data[r.pos + 1 .. s.next.pos])
  {
    if r.data[r.pos] >= 128 {
      LongVIntValue(r);
    } else {
      assert r.data[r.pos + 1 .. s.next.pos] == [];
    }
  }

  lemma LongVIntValue(r: Reader)
    requires ReadVInt(r).Ok? && r.data[r.pos] >= 128
    ensures var s := ReadVInt(r).value;
            Abs(s.value) == r.data[r.pos] % 64 + 64 * GroupValue(r.data[r.pos + 1 .. s.next.pos])
  {
    VIntContinues(r);
    TailIsGroupValue(Advance(r, 1), 6);
    assert Pow2(6) == 64;
  }

  /** A first byte with the continuation bit set: the magnitude is its six
      low bits plus the trailing groups from bit 6 on. */
  lemma VIntContinues(r: Reader)
    requires ReadVInt(r).Ok? && r.data[r.pos] >= 128
    ensures var t := VIntTail(Advance(r, 1), 6);
            && t.Ok?
            && Abs(ReadVInt(r).value.value) == r.data[r.pos] % 64 + t.value.value
            && ReadVInt(r).value.next == t.value.next
  {
  }

  /** Six low bits under 64 times a k-group value fit in 6 + 7k bits. */
  lemma MagnitudeBound(low: nat, g: nat, k: nat)
    requires low < 64 && g < Pow2(7 * k)
    ensures low + 64 * g < Pow2(6 + 7 * k)
  {
    Pow2Add(6, 7 * k);
    assert Pow2(6) == 64;
  }

  /** `m` in 7-bit groups, lowest first; all but the last byte carry 0x80. */
  function EncodeGroups(m: nat): (bs: seq<byte>)
    ensures |bs| >= 1
    decreases m
  {
    if m < 128 then [m] else [m % 128 + 128] + EncodeGroups(m / 128)
  }

  /** The documented layout, written forwards. */
  function EncodeVInt(x: int): (bs: seq<byte>)
    ensures |bs| >= 1 && (|bs| == 1 <==> Abs(x) < 64)
  {
    var m := Abs(x);
    var first := m % 64 + (if x < 0 then 64 else 0) + (if m >= 64 then 128 else 0);
    [first] + (if m >= 64 then EncodeGroups(m / 64) else [])
  }

  /** The tail read of a continued byte, from the tail read after it. */
  lemma TailFromRest(r: Reader, shift: nat, rest: Step<nat>)
    requires r.pos < |r.data| && r.data[r.pos] >= 128
    requires VIntTail(Advance(r, 1), shift + 7) == Ok(rest)
    ensures VIntTail(r, shift) == Ok(Step((r.data[r.pos] % 128) * Pow2(shift) + rest.value, rest.next))
  {
  }

  /** The tail read of a final byte. */
  lemma TailFromLast(r: Reader, shift: nat)
    requires r.pos < |r.data| && r.data[r.pos] < 128
    ensures VIntTail(r, shift) == Ok(Step((r.data[r.pos] % 128) * Pow2(shift), Advance(r, 1)))
  {
  }

  /** A final byte holding group `m`. */
  lemma TailFromByte(r: Reader, shift: nat, m: nat)
    requires r.pos < |r.data| && r.data[r.pos] == m < 128
    ensures VIntTail(r, shift) == Ok(Step(m * Pow2(shift), Advance(r, 1)))
  {
    TailFromLast(r, shift);
    assert m % 128 == m;
  }

  lemma SmallGroupRoundTrip(r: Reader, m: nat, shift: nat)
    requires m < 128 && At(r, EncodeGroups(m))
    ensures VIntTail(r, shift) == Ok(Step(m * Pow2(shift), Advance(r, |EncodeGroups(m)|)))
  {
    assert EncodeGroups(m) == [m];
    assert r.data[r.pos] == EncodeGroups(m)[0];
    TailFromByte(r, shift, m);
  }

  /** A continued byte holding group `a` ahead of a tail worth `q` reads as
      `a + 128 q`. */
  lemma GroupsStep(r: Reader, shift: nat, m: nat, a: nat, q: nat, inner: Reader)
    requires r.pos < |r.data| && r.data[r.pos] >= 128 && r.data[r.pos] % 128 == a && a + 128 * q == m
    requires VIntTail(Advance(r, 1), shift + 7) == Ok(Step(q * Pow2(shift + 7), inner))
    ensures VIntTail(r, shift) == Ok(Step(m * Pow2(shift), inner))
  {
    TailFromRest(r, shift, Step(q * Pow2(shift + 7), inner));
    HornerStep(a, q, shift, Pow2(shift + 7) * q, a * Pow2(shift) + Pow2(shift + 7) * q, m);
  }

  lemma {:induction false} GroupsRoundTrip(r: Reader, m: nat, shift: nat)
    requires At(r, EncodeGroups(m))
    ensures VIntTail(r, shift) == Ok(Step(m * Pow2(shift), Advance(r, |EncodeGroups(m)|)))
    decreases m
  {
    if m >= 128 {
      var q := m / 128;
      var inner := Advance(r, |EncodeGroups(m)|);
      GroupsHead(r, m);
      GroupsRoundTrip(Advance(r, 1), q, shift + 7);
      assert Advance(Advance(r, 1), |EncodeGroups(q)|) == inner;
      GroupsStep(r, shift, m, m % 128, q, inner);
    } else {
      SmallGroupRoundTrip(r, m, shift);
    }
  }

  /** The groups of a large `m`: a continued byte with its low seven bits,
      then the groups of the rest. */
  lemma GroupsHead(r: Reader, m: nat)
    requires m >= 128 && At(r, EncodeGroups(m))
    ensures r.pos < |r.data| && r.data[r.pos] >= 128 && r.data[r.pos] % 128 == m % 128
    ensures At(Advance(r, 1), EncodeGroups(m / 128))
    ensures |EncodeGroups(m)| == 1 + |EncodeGroups(m / 128)|
  {
    var tail := EncodeGroups(m / 128);
    assert EncodeGroups(m) == [m % 128 + 128] + tail;
    AtConcat(r, [m % 128 + 128], tail);
    assert r.data[r.pos] == EncodeGroups(m)[0];
  }

  lemma FirstByteFields(m: nat, negative: bool, more: bool)
    ensures var b := m % 64 + (if negative then 64 else 0) + (if more then 128 else 0);
            && b % 64 == m % 64 && (b >= 128 <==> more) && ((b / 64) % 2 == 1 <==> negative)
  {
  }

  /** Decoding inverts the encoder, at any position of any buffer. */
  lemma VIntRoundTrip(r: Reader, x: int)
    requires At(r, EncodeVInt(x))
    ensures ReadVInt(r) == Ok(Step(x, Advance(r, |EncodeVInt(x)|)))
  {
    var m := Abs(x);
    var b := EncodeVInt(x)[0];
    assert r.data[r.pos] == b;
    FirstByteFields(m, x < 0, m >= 64);
    assert ApplySign(b, m) == x;
    if m >= 64 {
      MultiByteRoundTrip(r, x);
    }
  }

  lemma MultiByteRoundTrip(r: Reader, x: int)
    requires At(r, EncodeVInt(x)) && Abs(x) >= 64
    ensures ReadVInt(r) == Ok(Step(x, Advance(r, |EncodeVInt(x)|)))
  {
    var m := Abs(x);
    var b: byte := m % 64 + (if x < 0 then 64 else 0) + 128;
    assert EncodeVInt(x) == [b] + EncodeGroups(m / 64);
    assert b >= 128 && ApplySign(b, b % 64 + (m / 64) * 64) == x by {
      FirstByteFields(m, x < 0, true);
    }
    LongVIntRoundTrip(r, x, b, m / 64);
  }

  /** A continued first byte `b` ahead of the groups of `q`. */
  lemma LongVIntRoundTrip(r: Reader, x: int, b: byte, q: nat)
    requires b >= 128 && ApplySign(b, b % 64 + q * 64) == x
    requires At(r, [b] + EncodeGroups(q))
    ensures ReadVInt(r) == Ok(Step(x, Advance(r, 1 + |EncodeGroups(q)|)))
  {
    GroupsAfterFirst(r, b, q);
    VIntFromTail(r, b, Step(q * 64, Advance(r, 1 + |EncodeGroups(q)|)), x);
  }

  lemma GroupsAfterFirst(r: Reader, b: byte, q: nat)
    requires At(r, [b] + EncodeGroups(q))
    ensures r.pos < |r.data| && r.data[r.pos] == b
    ensures VIntTail(Advance(r, 1), 6) == Ok(Step(q * 64, Advance(r, 1 + |EncodeGroups(q)|)))
  {
    var groups := EncodeGroups(q);
    AtConcat(r, [b], groups);
    assert r.data[r.pos] == b;
    var after := Advance(Advance(r, 1), |groups|);
    assert after == Advance(r, 1 + |groups|);
    var p := Pow2(6);
    assert p == 64;
    GroupsRoundTrip(Advance(r, 1), q, 6);
    assert VIntTail(Advance(r, 1), 6) == Ok(Step(q * p, after));
  }

  /** A vint whose first byte is continued, from the tail read after it. */
  lemma VIntFromTail(r: Reader, b: byte, tail: Step<nat>, x: int)
    requires r.pos < |r.data| && r.data[r.pos] == b && b >= 128
    requires VIntTail(Advance(r, 1), 6) == Ok(tail) && ApplySign(b, b % 64 + tail.value) == x
    ensures ReadVInt(r) == Ok(Step(x, tail.next))
  {
  }

  /** The byte 0x40 (sign set, no magnitude) is a second spelling of 0. */
  lemma NegativeZeroIsZero(r: Reader)
    requires r.pos < |r.data| && r.data[r.pos] == 0x40
    ensures ReadVInt(r) == Ok(Step(0, Advance(r, 1)))
  {
  }
}

=== FILE: wire.dfy ===
/** Writers for the fixed-width fields, as a server lays them out for a
reader with the default flag (least significant byte first), and the facts
that reading them back returns what was written. Every record encoder of the
model is built from these.
 */
module Wire {
  import opened Results
  import opened ByteOrder
  import opened BinaryReader
  import opened VarInt

  function EncodeU8(b: byte): (bs: seq<byte>)
    ensures |bs| == 1
  {
    [b]
  }

  function EncodeU16(v: nat): (bs: seq<byte>)
    requires v < 0x1_0000
    ensures |bs| == 2
  {
    LeBytes(v, 2)
  }

  function EncodeU32(v: nat): (bs: seq<byte>)
    requires v < 0x1_0000_0000
    ensures |bs| == 4
  {
    LeBytes(v, 4)
  }

  function EncodeI16(s: int): (bs: seq<byte>)
    requires -0x8000 <= s < 0x8000
    ensures |bs| == 2
  {
    LeBytes(FromSigned(s, 2), 2)
  }

  function EncodeF32(f: Float32): (bs: seq<byte>)
    requires f.bits < 0x1_0000_0000
    ensures |bs| == 4
  {
    LeBytes(f.bits, 4)
  }

  /** The two-byte record count a response carries `offset` bytes in, as
      read by a fresh reader that skips to it. */
  function ReadCount(payload: seq<byte>, offset: nat): (res: Result<Step<nat>>)
    ensures res.Ok? <==> offset + 2 <= |payload|
    ensures res.Err? ==> res.error == StructError
    ensures res.Ok? ==> res.value.value == LittleEndian(payload[offset .. offset + 2]) && res.value.value < 0x1_0000
    ensures res.Ok? ==> res.value.next == Advance(Open(payload), offset + 2)
  {
    var r := Skip(Open(payload), offset);
    var count :- ReadU16(r);
    DefaultFlagReadIsSlice(r, 2);
    Ok(count)
  }

  /** A count written after `lead` reads back, and the reader stops at what
      follows it. */
  lemma CountRoundTrip(lead: seq<byte>, n: nat, body: seq<byte>)
    requires n < 0x1_0000
    ensures ReadCount(lead + EncodeU16(n) + body, |lead|)
            == Ok(Step(n, Advance(Open(lead + EncodeU16(n) + body), |lead| + 2)))
    ensures At(Advance(Open(lead + EncodeU16(n) + body), |lead| + 2), body)
  {
    var r := Open(lead + EncodeU16(n) + body);
    OpenFramed(lead, EncodeU16(n), body);
    assert Skip(r, |lead|) == Advance(r, |lead|);
    U16RoundTrip(Advance(r, |lead|), n);
    AdvanceAdd(r, |lead|, 2);
  }

  /** The same for a count at the very start of the response. */
  lemma LeadingCountRoundTrip(n: nat, body: seq<byte>)
    requires n < 0x1_0000
    ensures ReadCount(EncodeU16(n) + body, 0) == Ok(Step(n, Advance(Open(EncodeU16(n) + body), 2)))
    ensures At(Advance(Open(EncodeU16(n) + body), 2), body)
  {
    CountRoundTrip([], n, body);
    EmptyGap([], EncodeU16(n) + body);
    assert [] + EncodeU16(n) + body == EncodeU16(n) + body;
  }

  lemma U8RoundTrip(r: Reader, b: byte)
    requires At(r, EncodeU8(b))
    ensures ReadU8(r) == Ok(Step(b, Advance(r, 1)))
  {
    assert r.data[r.pos] == EncodeU8(b)[0];
  }

  lemma U16RoundTrip(r: Reader, v: nat)
    requires r.bigEndian && v < 0x1_0000 && At(r, EncodeU16(v))
    ensures ReadU16(r) == Ok(Step(v, Advance(r, 2)))
  {
    DefaultFlagReadsLittleEndian(r, v, 2);
  }

  lemma U32RoundTrip(r: Reader, v: nat)
    requires r.bigEndian && v < 0x1_0000_0000 && At(r, EncodeU32(v))
    ensures ReadU32(r) == Ok(Step(v, Advance(r, 4)))
  {
    DefaultFlagReadsLittleEndian(r, v, 4);
  }

  lemma I16RoundTrip(r: Reader, s: int)
    requires r.bigEndian && -0x8000 <= s < 0x8000 && At(r, EncodeI16(s))
    ensures ReadI16(r) == Ok(Step(s, Advance(r, 2)))
  {
    DefaultFlagReadsLittleEndian(r, FromSigned(s, 2), 2);
    SignedRoundTrip(s, 2);
  }

  lemma F32RoundTrip(r: Reader, f: Float32)
    requires r.bigEndian && f.bits < 0x1_0000_0000 && At(r, EncodeF32(f))
    ensures ReadF32(r) == Ok(Step(f, Advance(r, 4)))
  {
    DefaultFlagReadsLittleEndian(r, f.bits, 4);
  }

  /** `n` vints in a row, as the record decoders read them one after the
      other; the first short one is the failure. */
  function ReadVInts(r: Reader, n: nat): (res: Result<Step<seq<int>>>)
    ensures res.Err? ==> res.error == StructError
    ensures res.Ok? ==> |res.value.value| == n
    ensures res.Ok? ==> res.value.next.data == r.data && res.value.next.bigEndian == r.bigEndian
    ensures res.Ok? ==> r.pos + n <= res.value.next.pos <= |r.data| || (n == 0 && res.value.next == r)
    decreases n
  {
    if n == 0 then Ok(Step([], r))
    else
      var first :- ReadVInt(r);
      var rest :- ReadVInts(first.next, n - 1);
      Ok(Step([first.value] + rest.value, rest.next))
  }

  function EncodeVInts(xs: seq<int>): (bs: seq<byte>)
    ensures |bs| >= |xs|
  {
    if |xs| == 0 then [] else EncodeVInt(xs[0]) + EncodeVInts(xs[1..])
  }

  lemma {:induction false} VIntsRoundTrip(r: Reader, xs: seq<int>)
    requires At(r, EncodeVInts(xs))
    ensures ReadVInts(r, |xs|) == Ok(Step(xs, Advance(r, |EncodeVInts(xs)|)))
    decreases |xs|
  {
    if |xs| > 0 {
      var mid := Advance(r, |EncodeVInt(xs[0])|);
      var after := Advance(r, |EncodeVInts(xs)|);
      FirstVIntOfMany(r, xs);
      VIntsRoundTrip(mid, xs[1..]);
      assert Advance(mid, |EncodeVInts(xs[1..])|) == after;
      VIntsStep(r, xs, mid, after);
    }
  }

  lemma VIntsStep(r: Reader, xs: seq<int>, mid: Reader, after: Reader)
    requires |xs| > 0 && ReadVInt(r) == Ok(Step(xs[0], mid))
    requires ReadVInts(mid, |xs[1..]|) == Ok(Step(xs[1..], after))
    ensures ReadVInts(r, |xs|) == Ok(Step(xs, after))
  {
    VIntsFromParts(r, |xs|, xs[0], mid, Step(xs[1..], after));
    HeadTail(xs);
  }

  /** The first of several encoded vints reads back, and the others follow. */
  lemma FirstVIntOfMany(r: Reader, xs: seq<int>)
    requires |xs| > 0 && At(r, EncodeVInts(xs))
    ensures ReadVInt(r) == Ok(Step(xs[0], Advance(r, |EncodeVInt(xs[0])|)))
    ensures At(Advance(r, |EncodeVInt(xs[0])|), EncodeVInts(xs[1..]))
    ensures |EncodeVInts(xs)| == |EncodeVInt(xs[0])| + |EncodeVInts(xs[1..])|
  {
    assert EncodeVInts(xs) == EncodeVInt(xs[0]) + EncodeVInts(xs[1..]);
    AtConcat(r, EncodeVInt(xs[0]), EncodeVInts(xs[1..]));
    VIntRoundTrip(r, xs[0]);
  }

  lemma VIntsFromParts(r: Reader, n: nat, x: int, mid: Reader, rest: Step<seq<int>>)
    requires n > 0 && ReadVInt(r) == Ok(Step(x, mid)) && ReadVInts(mid, n - 1) == Ok(rest)
    ensures ReadVInts(r, n) == Ok(Step([x] + rest.value, rest.next))
  {
  }

  /** `n` four-byte floats in a row. */
  function ReadF32s(r: Reader, n: nat): (res: Result<Step<seq<Float32>>>)
    ensures res.Ok? <==> 4 * n <= Remaining(r)
    ensures res.Err? ==> res.error == StructError
    ensures res.Ok? ==> |res.value.value| == n && res.value.next == Advance(r, 4 * n)
    ensures res.Ok? ==> forall i :: 0 <= i < n ==> res.value.value[i].bits < 0x1_0000_0000
    decreases n
  {
    if n == 0 then Ok(Step([], r))
    else
      var first :- ReadF32(r);
      var rest :- ReadF32s(first.next, n - 1);
      Ok(Step([first.value] + rest.value, rest.next))
  }

  predicate FitF32s(fs: seq<Float32>)
  {
    forall i :: 0 <= i < |fs| ==> fs[i].bits < 0x1_0000_0000
  }

  function EncodeF32s(fs: seq<Float32>): (bs: seq<byte>)
    requires FitF32s(fs)
    ensures |bs| == 4 * |fs|
  {
    if |fs| == 0 then [] else EncodeF32(fs[0]) + EncodeF32s(fs[1..])
  }

  lemma {:induction false} F32sRoundTrip(r: Reader, fs: seq<Float32>)
    requires r.bigEndian && FitF32s(fs) && At(r, EncodeF32s(fs))
    ensures ReadF32s(r, |fs|) == Ok(Step(fs, Advance(r, 4 * |fs|)))
    decreases |fs|
  {
    if |fs| > 0 {
      var head := EncodeF32(fs[0]);
      var tail := EncodeF32s(fs[1..]);
      assert EncodeF32s(fs) == head + tail;
      AtConcat(r, head, tail);
      F32RoundTrip(r, fs[0]);
      F32sRoundTrip(Advance(r, 4), fs[1..]);
      assert Advance(Advance(r, 4), 4 * (|fs| - 1)) == Advance(r, 4 * |fs|);
      HeadTail(fs);
    }
  }
}

=== FILE: xdxr.dfy ===
/** Ex-rights and ex-dividend events (api.py, `get_xdxr_info`).

A response shorter than 11 bytes means "no events". Otherwise it starts with
the market byte, two bytes the client skips, the 6-byte code and a u16 count;
each 29-byte record then carries 8 ignored bytes, a decimal date (u32
YYYYMMDD, at 15:00), the event category (u8, 1 to 14) and four f32 values
whose meaning depends on the category.
 */
module Xdxr {
  import opened Results
  import opened ByteOrder
  import opened BinaryReader
  import opened Wire
  import opened Dates
  import opened Markets

  /** `Api.XDXRCategory`, with the enum values of the source. */
  datatype Category =
    | ExcludeRightAndExcludeDividend | AllotmentSharesListing | NonMarketableSharesListing
    | UnknownChangesInShareCapital | ChangesInShareCapital | AdditionalIssuanceOfNewShares
    | ShareRepurchase | AdditionalSharesListing | AllottedSharesListing | ConvertibleBondsListing
    | StockExpansionAndContraction | ReductionOfNonTradableShares | SendWarrant | SendPutWarrant
  {
    function Value(): nat
    {
      match this
      case ExcludeRightAndExcludeDividend => 1
      case AllotmentSharesListing => 2
      case NonMarketableSharesListing => 3
      case UnknownChangesInShareCapital => 4
      case ChangesInShareCapital => 5
      case AdditionalIssuanceOfNewShares => 6
      case ShareRepurchase => 7
      case AdditionalSharesListing => 8
      case AllottedSharesListing => 9
      case ConvertibleBondsListing => 10
      case StockExpansionAndContraction => 11
      case ReductionOfNonTradableShares => 12
      case SendWarrant => 13
      case SendPutWarrant => 14
    }
  }

  /** `Api.XDXRCategory(b)`: the member with that value, ValueError
      otherwise. */
  function CategoryOf(b: int): (res: Result<Category>)
    ensures res.Ok? <==> 1 <= b <= 14
    ensures res.Err? ==> res.error == ValueError
    ensures res.Ok? ==> res.value.Value() == b
  {
    if b == 1 then Ok(ExcludeRightAndExcludeDividend)
    else if b == 2 then Ok(AllotmentSharesListing)
    else if b == 3 then Ok(NonMarketableSharesListing)
    else if b == 4 then Ok(UnknownChangesInShareCapital)
    else if b == 5 then Ok(ChangesInShareCapital)
    else if b == 6 then Ok(AdditionalIssuanceOfNewShares)
    else if b == 7 then Ok(ShareRepurchase)
    else if b == 8 then Ok(AdditionalSharesListing)
    else if b == 9 then Ok(AllottedSharesListing)
    else if b == 10 then Ok(ConvertibleBondsListing)
    else if b == 11 then Ok(StockExpansionAndContraction)
    else if b == 12 then Ok(ReductionOfNonTradableShares)
    else if b == 13 then Ok(SendWarrant)
    else if b == 14 then Ok(SendPutWarrant)
    else Err(ValueError)
  }

  /** Every member converts back from its value. */
  lemma CategoryRoundTrip(c: Category)
    ensures CategoryOf(c.Value()) == Ok(c)
  {
  }

  /** The four values, named as the source's `match` names them. */
  datatype Detail =
    | Dividend(bonus: Float32, allotPrice: Float32, bonusShares: Float32, allotShares: Float32)
    | Scaling(rev1: Float32, rev2: Float32, factor: Float32, rev3: Float32)
    | Warrant(strikePrice: Float32, rev1: Float32, ratio: Float32, rev2: Float32)
    | ShareCapital(preFloat: Float32, preTotal: Float32, postFloat: Float32, postTotal: Float32)

  /** The group of labels each category's values carry. */
  predicate Labels(c: Category, d: Detail)
  {
    match c
    case ExcludeRightAndExcludeDividend => d.Dividend?
    case StockExpansionAndContraction | ReductionOfNonTradableShares => d.Scaling?
    case SendWarrant | SendPutWarrant => d.Warrant?
    case _ => d.ShareCapital?
  }

  /** The four values in wire order, whatever their labels. */
  function Values(d: Detail): (fs: seq<Float32>)
    ensures |fs| == 4
  {
    match d
    case Dividend(a, b, c, e) => [a, b, c, e]
    case Scaling(a, b, c, e) => [a, b, c, e]
    case Warrant(a, b, c, e) => [a, b, c, e]
    case ShareCapital(a, b, c, e) => [a, b, c, e]
  }

  /** The `match category` of the source: four values read in order get the
      labels of the category's group. */
  function Label(c: Category, fs: seq<Float32>): (d: Detail)
    requires |fs| == 4
    ensures Labels(c, d) && Values(d) == fs
  {
    match c
    case ExcludeRightAndExcludeDividend => Dividend(fs[0], fs[1], fs[2], fs[3])
    case StockExpansionAndContraction | ReductionOfNonTradableShares => Scaling(fs[0], fs[1], fs[2], fs[3])
    case SendWarrant | SendPutWarrant => Warrant(fs[0], fs[1], fs[2], fs[3])
    case _ => ShareCapital(fs[0], fs[1], fs[2], fs[3])
  }

  /** A detail is the labelling of its values, which fixes it. */
  lemma LabelOfValues(c: Category, d: Detail)
    requires Labels(c, d)
    ensures Label(c, Values(d)) == d
  {
  }

  datatype Event = Event(date: DateTime, category: Category, detail: Detail)

  /** One record. The eight leading bytes are skipped, so they can be
      missing: the date read is then the one that fails. */
  function ReadEvent(r: Reader): (res: Result<Step<Event>>)
    ensures res.Err? ==> res.error in {StructError, ValueError}
    ensures res.Err? && res.error == StructError ==> Remaining(r) < 29
    ensures res.Ok? ==> Remaining(r) >= 29 && res.value.next == Advance(r, 29)
    ensures res.Ok? ==> var e := res.value.value;
                        && Labels(e.category, e.detail)
                        && e.date.hour == 15 && e.date.minute == 0
  {
    assert !UsesMinuteStamp(KDay);
    var date :- GetDateTime(KDay, Skip(r, 8));
    ReadEventBody(date.value, date.next)
  }

  /** The record after its date: the category byte and the four values. */
  function ReadEventBody(date: DateTime, r: Reader): (res: Result<Step<Event>>)
    ensures res.Err? ==> res.error in {StructError, ValueError}
    ensures res.Err? && res.error == StructError ==> Remaining(r) < 17
    ensures res.Ok? ==> Remaining(r) >= 17 && res.value.next == Advance(r, 17)
    ensures res.Ok? ==> var e := res.value.value;
                        && e.date == date && Labels(e.category, e.detail)
                        && e.category.Value() == r.data[r.pos]
    ensures r.pos < |r.data| && !(1 <= r.data[r.pos] <= 14) ==> res == Err(ValueError)
  {
    var code :- ReadU8(r);
    var category :- CategoryOf(code.value);
    var values :- ReadF32s(code.next, 4);
    Ok(Step(Event(date, category, Label(category, values.value)), values.next))
  }

  function DecodeEvents(r: Reader, count: nat): (res: Result<Step<seq<Event>>>)
    ensures res.Err? ==> res.error in {StructError, ValueError}
    ensures res.Ok? ==> |res.value.value| == count
    ensures res.Ok? ==> forall i :: 0 <= i < count ==> Labels(res.value.value[i].category, res.value.value[i].detail)
    decreases count
  {
    if count == 0 then Ok(Step([], r))
    else
      var first :- ReadEvent(r);
      var rest :- DecodeEvents(first.next, count - 1);
      Ok(Step([first.value] + rest.value, rest.next))
  }

  /** The response header: market, two skipped bytes, code and the count.
      Only the market can fail once the response has its 11 bytes. */
  function ReadHeader(payload: seq<byte>): (res: Result<Step<nat>>)
    requires |payload| >= 11
    ensures res.Ok? <==> payload[0] < 2
    ensures res.Err? ==> res.error == ValueError
    ensures res.Ok? ==> res.value.value == LittleEndian(payload[9..11])
    ensures res.Ok? ==> res.value.next == Advance(Open(payload), 11)
  {
    var market :- ReadMarket(Open(payload));
    var code := Read(Skip(market.next, 2), 6);
    DefaultFlagReadIsSlice(code.next, 2);
    Ok(ReadU16(code.next).value)
  }

  /** `get_xdxr_info`, from the inflated payload on. */
  function GetXdxrInfo(payload: seq<byte>): (res: Result<seq<Event>>)
    ensures |payload| < 11 ==> res == Ok([])
    ensures |payload| >= 11 && payload[0] >= 2 ==> res == Err(ValueError)
    ensures res.Err? ==> res.error in {StructError, ValueError}
    ensures res.Ok? && |payload| >= 11 ==> |res.value| == LittleEndian(payload[9..11])
    ensures res.Ok? ==> forall i :: 0 <= i < |res.value| ==> Labels(res.value[i].category, res.value[i].detail)
  {
    if Len(Open(payload)) < 11 then Ok([])
    else
      var count :- ReadHeader(payload);
      var events :- DecodeEvents(count.next, count.value);
      Ok(events.value)
  }

  /** A list decodes when its first record and then the rest do. */
  lemma EventsFromParts(r: Reader, count: nat, first: Step<Event>, rest: Step<seq<Event>>)
    requires count > 0 && ReadEvent(r) == Ok(first) && DecodeEvents(first.next, count - 1) == Ok(rest)
    ensures DecodeEvents(r, count) == Ok(Step([first.value] + rest.value, rest.next))
  {
  }

  // ---------------------------------------------------------------------
  // Writing records

  predicate EventFits(e: Event)
  {
    && Encodable(KDay, e.date)
    && Labels(e.category, e.detail)
    && FitF32s(Values(e.detail))
  }

  /** A record, the eight skipped bytes written as zeros. */
  function EncodeEvent(e: Event): (bs: seq<byte>)
    requires EventFits(e)
    ensures |bs| == 29
  {
    Zeros(8) + (EncodeDateTime(KDay, e.date) + (EncodeU8(e.category.Value()) + EncodeF32s(Values(e.detail))))
  }

  predicate AllFit(es: seq<Event>)
  {
    forall i :: 0 <= i < |es| ==> EventFits(es[i])
  }

  function EncodeEvents(es: seq<Event>): (bs: seq<byte>)
    requires AllFit(es)
    ensures |bs| == 29 * |es|
  {
    if |es| == 0 then [] else EncodeEvent(es[0]) + EncodeEvents(es[1..])
  }

  lemma EventRoundTrip(r: Reader, e: Event)
    requires r.bigEndian && EventFits(e) && At(r, EncodeEvent(e))
    ensures ReadEvent(r) == Ok(Step(e, Advance(r, 29)))
  {
    var date := EncodeDateTime(KDay, e.date);
    var code := EncodeU8(e.category.Value());
    var values := EncodeF32s(Values(e.detail));
    AtConcat(r, Zeros(8), date + (code + values));
    var r1 := Advance(r, 8);
    AtConcat(r1, date, code + values);
    var r2 := Advance(r1, 4);
    AtConcat(r2, code, values);
    var r3 := Advance(r2, 1);
    var r4 := Advance(r3, 16);
    assert r4 == Advance(r, 29);
    assert Skip(r, 8) == r1;
    DateTimeRoundTrip(KDay, r1, e.date);
    U8RoundTrip(r2, e.category.Value());
    CategoryRoundTrip(e.category);
    F32sRoundTrip(r3, Values(e.detail));
    LabelOfValues(e.category, e.detail);
    EventFromParts(r, e, r1, r2, r3, r4);
  }

  lemma EventFromParts(r: Reader, e: Event, r1: Reader, r2: Reader, r3: Reader, r4: Reader)
    requires Skip(r, 8) == r1 && GetDateTime(KDay, r1) == Ok(Step(e.date, r2))
    requires ReadU8(r2) == Ok(Step(e.category.Value(), r3)) && CategoryOf(e.category.Value()) == Ok(e.category)
    requires ReadF32s(r3, 4) == Ok(Step(Values(e.detail), r4)) && Label(e.category, Values(e.detail)) == e.detail
    ensures ReadEvent(r) == Ok(Step(e, r4))
  {
  }

  lemma {:induction false} EventsRoundTrip(r: Reader, es: seq<Event>)
    requires r.bigEndian && AllFit(es) && At(r, EncodeEvents(es))
    ensures DecodeEvents(r, |es|) == Ok(Step(es, Advance(r, 29 * |es|)))
    decreases |es|
  {
    if |es| > 0 {
      var mid := Advance(r, 29);
      var after := Advance(r, 29 * |es|);
      EventsSplit(r, es);
      EventsRoundTrip(mid, es[1..]);
      assert Advance(mid, 29 * |es[1..]|) == after;
      EventsStep(r, es, mid, after);
    }
  }

  lemma EventsSplit(r: Reader, es: seq<Event>)
    requires r.bigEndian && |es| > 0 && AllFit(es) && At(r, EncodeEvents(es))
    ensures AllFit(es[1..])
    ensures ReadEvent(r) == Ok(Step(es[0], Advance(r, 29)))
    ensures At(Advance(r, 29), EncodeEvents(es[1..]))
  {
    assert AllFit(es[1..]) by {
      forall i | 0 <= i < |es| - 1 ensures es[1..][i] == es[i + 1] { }
    }
    assert EncodeEvents(es) == EncodeEvent(es[0]) + EncodeEvents(es[1..]);
    AtConcat(r, EncodeEvent(es[0]), EncodeEvents(es[1..]));
    EventRoundTrip(r, es[0]);
  }

  lemma EventsStep(r: Reader, es: seq<Event>, mid: Reader, after: Reader)
    requires |es| > 0 && ReadEvent(r) == Ok(Step(es[0], mid))
    requires DecodeEvents(mid, |es[1..]|) == Ok(Step(es[1..], after))
    ensures DecodeEvents(r, |es|) == Ok(Step(es, after))
  {
    EventsFromParts(r, |es|, Step(es[0], mid), Step(es[1..], after));
    HeadTail(es);
  }

  /** The 9-byte header in front of the count: market, two skipped bytes
      and the code. */
  function EncodeHeader(m: Market, skipped: seq<byte>, code: seq<byte>): (bs: seq<byte>)
    requires |skipped| == 2 && |code| == 6
    ensures |bs| == 9 && bs[0] == MarketCode(m)
  {
    EncodeU8(MarketCode(m)) + skipped + code
  }

  /** A response written as a header, a count and its records decodes to
      those records. */
  lemma XdxrInfoRoundTrip(m: Market, skipped: seq<byte>, code: seq<byte>, es: seq<Event>)
    requires |skipped| == 2 && |code| == 6 && |es| < 0x1_0000 && AllFit(es)
    ensures GetXdxrInfo(EncodeHeader(m, skipped, code) + EncodeU16(|es|) + EncodeEvents(es)) == Ok(es)
  {
    var head := EncodeHeader(m, skipped, code);
    var payload := head + EncodeU16(|es|) + EncodeEvents(es);
    var body := Advance(Open(payload), 11);
    CountRoundTrip(head, |es|, EncodeEvents(es));
    assert payload[0] == head[0];
    HeaderCount(payload);
    EventsRoundTrip(body, es);
    XdxrResponseFromParts(payload, Step(|es|, body), Step(es, Advance(body, 29 * |es|)));
  }

  /** With a valid market, the header's count is the count at offset 9. */
  lemma HeaderCount(payload: seq<byte>)
    requires |payload| >= 11 && payload[0] < 2
    ensures ReadHeader(payload) == ReadCount(payload, 9)
  {
  }

  lemma XdxrResponseFromParts(payload: seq<byte>, count: Step<nat>, events: Step<seq<Event>>)
    requires |payload| >= 11
    requires ReadHeader(payload) == Ok(count) && DecodeEvents(count.next, count.value) == Ok(events)
    ensures GetXdxrInfo(payload) == Ok(events.value)
  {
  }
}
